=== FILE: README.md ===
# CSCD 330 network labs, modelled in Dafny

This project models the protocol and parsing logic of five computer-networks labs, leaving out their sockets, subprocesses and web services.

- **Lab 4: a minimal HTTP/1.1 client.**
  - It builds the `GET` request and checks the port argument.
  - It builds the request target from the URL's path and query.
  - It splits the response at the first blank line, into lower-cased ISO-8859-1 header text and body bytes.
  - When the headers mention both `transfer-encoding:` and `chunked`, it decodes the body with a chunked transfer decoder (`dechunk` and `read_line`).
  - It picks the charset from the `content-type` header.
- **Lab 3: a small web server with three routes over `whois` output.**
  - Each route reads `whois` output for a domain and answers with an address, a forecast or a network range.
  - It caches replies in a dictionary keyed by (route, domain). A hit answers `Cached: ` followed by the stored text.
- **Lab 2: the same address extraction with a country field.** It also has a fallback to a line that mentions `address:`.
- **Lab 7: a TCP traceroute.**
  - It probes with growing TTLs and stops at the destination or at the hop limit.
  - It reads an AS number from a Team Cymru reply, or else from a generic `whois` reply.
  - It does a reverse DNS lookup through `host`.
  - It lists the AS numbers it traversed without duplicates, in order of first appearance.
  - It checks its command line.
- **Lab 6: a hand-made TCP exchange.**
  - It sends a SYN with initial sequence number 4, the length of `Joel`.
  - Once the SYN/ACK arrives, it sends an ACK and a PSH/ACK carrying a minimal `GET` request.

The model uses these conventions:

- Bytes are `seq<Byte>`, with `Byte = b: int | 0 <= b < 256`. Text is `string`.
- Python's string operations are written out as functions with contracts:
  - `strip`, `lower`, `splitlines`, `split`, `find`, `join`, `int()`, and `int(_, 16)`.
- Every outside effect becomes a parameter:
  - a command's exit status and output (`CommandResult`);
  - a probe answer per TTL;
  - the `whois`, geocoder and forecast services;
  - the URL parser's result;
  - the server's SYN/ACK sequence number.

Modules:

| file | module | contents |
|---|---|---|
| wrappers.dfy | `Wrappers` | `Option` |
| seqs.dfy | `Seqs` | search, `find`, cut, join and split, strip by a predicate |
| text.dfy | `Text` | Python's `isspace`, `strip`, `lower`, `upper`, `splitlines`, `split()` and `int()` |
| bytes.dfy | `Bytes` | bytes, `int(_, 16)`, ISO-8859-1 and ASCII |
| url.dfy | `Url` | path plus query, and the default port 80 |
| http_client.dfy | `HttpClient` | the Lab 4 client |
| chunked.dfy | `ChunkedCoding` | what the decoder does on chunked bodies, well-formed and malformed |
| negative_size.dfy | `NegativeSize` | the decoding loop as written, with a negative size |
| whois_fields.dfy | `WhoisFields` | the `key: value` field reading shared by Labs 2 and 3 |
| lab3_whois.dfy | `Lab3Whois` | the Lab 3 address and network range |
| route_cache.dfy | `RouteCache` | the Lab 3 routes and their cache |
| lab2_whois.dfy | `Lab2Whois` | the Lab 2 address, as written and corrected |
| traceroute.dfy | `Traceroute` | Lab 7 |
| handshake.dfy | `Handshake` | Lab 6 |

## Model

| member | source | states |
|---|---|---|
| HttpClient.RequestText | Labs/Lab4/lab4_jsivanish/lab4.py:36-46 | the request is the `GET <target> HTTP/1.1` line, the `Host` line, the four fixed headers and a blank line, each ended by CRLF |
| HttpClient.BuildRequest | Labs/Lab4/lab4_jsivanish/lab4.py:29-46 | the ASCII encoding succeeds exactly when host name and target are ASCII, and the bytes decode back to the request text |
| HttpClient.RequestLinesRoundTrip | Labs/Lab4/lab4_jsivanish/lab4.py:36-46 | with no CR in host name or target, splitting the request at CRLF gives back the eight lines it was joined from |
| Bytes.AsciiEncode | Labs/Lab4/lab4_jsivanish/lab4.py:46 | `encode("ascii")` succeeds exactly on ASCII text and is undone by ISO-8859-1 decoding |
| HttpClient.HeaderText | Labs/Lab4/lab4_jsivanish/lab4.py:72-76 | the header text has one character per header byte: that byte as an ISO-8859-1 character, lower-cased |
| HttpClient.SplitResponse | Labs/Lab4/lab4_jsivanish/lab4.py:60-76 | without a blank line the headers are empty and the whole response is body; otherwise the split is at the first CRLF CRLF |
| HttpClient.SplitResponseOfParts | Labs/Lab4/lab4_jsivanish/lab4.py:66-68 | a head without CRLF CRLF, the blank line, then any body: the response splits back into that head's text and that body |
| HttpClient.IsChunked | Labs/Lab4/lab4_jsivanish/lab4.py:210 | the body is decoded exactly when `transfer-encoding:` and `chunked` both occur somewhere in the header text |
| HttpClient.ReadLine | Labs/Lab4/lab4_jsivanish/lab4.py:88-92 | a line is returned exactly when a CRLF follows the cursor; it is the bytes up to the first such CRLF, and the cursor moves past it |
| HttpClient.ReadLineFirst | Labs/Lab4/lab4_jsivanish/lab4.py:88-92 | the first CRLF from the cursor on ends the line read |
| HttpClient.SkipTrailers | Labs/Lab4/lab4_jsivanish/lab4.py:113-118 | skipping trailer lines never moves the cursor back or past the end |
| HttpClient.DechunkStep | Labs/Lab4/lab4_jsivanish/lab4.py:94-132 | each turn of the loop either returns or moves the cursor forward, and only appends to the output |
| HttpClient.DechunkFrom | Labs/Lab4/lab4_jsivanish/lab4.py:94-132 | the loop terminates; its output extends what it started with by at most the bytes left to read |
| HttpClient.Dechunk | Labs/Lab4/lab4_jsivanish/lab4.py:79-132 | the decoded body is never longer than the chunked one |
| ChunkedCoding.SizeLineParses | Labs/Lab4/lab4_jsivanish/lab4.py:100-104 | a size written in lower-case hex without leading zeros, with or without a `;` extension, reads back as that size |
| ChunkedCoding.DechunkRoundTrip | Labs/Lab4/lab4_jsivanish/lab4.py:79-132 | well-formed chunks, their sizes written in lower-case hex without leading zeros, the last chunk and anything after it decode to the chunks' data, concatenated |
| ChunkedCoding.ChunkedResponseDecoded | Labs/Lab4/lab4_jsivanish/lab4.py:207-214 | with the chunked markers in the headers, a response whose body is well-formed chunks, the last chunk and anything after it delivers the chunks' data, concatenated, with the charset picked from the headers |
| ChunkedCoding.TrailersConsumed | Labs/Lab4/lab4_jsivanish/lab4.py:108-119 | after the last chunk, trailer lines and the blank line are consumed and the payload is unchanged |
| ChunkedCoding.UnterminatedSizeLine | Labs/Lab4/lab4_jsivanish/lab4.py:96-99 | a size line without CRLF ends decoding with what came before |
| ChunkedCoding.BadSizeLine | Labs/Lab4/lab4_jsivanish/lab4.py:100-107 | a size line that is not a hex number ends decoding with what came before |
| ChunkedCoding.TruncatedPayload | Labs/Lab4/lab4_jsivanish/lab4.py:120-124 | a chunk cut short keeps the bytes that did arrive |
| ChunkedCoding.MissingDataTerminator | Labs/Lab4/lab4_jsivanish/lab4.py:125-132 | a chunk not followed by CRLF is kept, and decoding stops after it |
| ChunkedCoding.WikipediaExample | Labs/Lab4/lab4_jsivanish/lab4.py:79-132 | the body `4 Wiki 5 pedia 0` with its CRLFs decodes to the nine payload bytes |
| Bytes.HexInt | Labs/Lab4/lab4_jsivanish/lab4.py:104 | `int(_, 16)` refuses text that is empty after stripping, and a negative value comes only from a stripped text starting with `-` |
| HttpClient.SignedChunkSize | Labs/Lab4/lab4_jsivanish/lab4.py:100-104 | a size line without `;` is read whole by `int(_, 16)` |
| HttpClient.ChunkSize | Labs/Lab4/lab4_jsivanish/lab4.py:100-107 | the size used is the signed size read from the line, and a size is used exactly when that number exists and is not negative |
| Bytes.HexIntToHex | Labs/Lab4/lab4_jsivanish/lab4.py:104 | `int(_, 16)` reads back every natural number written in lower-case hex |
| Bytes.HexIntNegated | Labs/Lab4/lab4_jsivanish/lab4.py:104 | `int(_, 16)` accepts a leading minus sign and negates the value |
| Bytes.StripBytesTwice | Labs/Lab4/lab4_jsivanish/lab4.py:104 | stripping the size text again (as `int()` does) changes nothing |
| HttpClient.CutAtSeparators | Labs/Lab4/lab4_jsivanish/lab4.py:150-154 | the charset is cut at its first `;`, space, tab or CR: a prefix free of all four, followed by one of them unless it is the whole value |
| HttpClient.SeparatorCuts | Labs/Lab4/lab4_jsivanish/lab4.py:151-154 | four successive cuts, one per separator, cut at the first separator of any kind |
| HttpClient.PickCharset | Labs/Lab4/lab4_jsivanish/lab4.py:135-158 | the charset is non-empty and free of separators; it is `utf-8` when there is no `content-type:`, else `utf-8` or a piece of the header text. The other two `utf-8` cases are stated by `HttpClient.NoCharsetParameter` and `HttpClient.EmptyCharsetValue` |
| HttpClient.NoCharsetParameter | Labs/Lab4/lab4_jsivanish/lab4.py:139-158 | a first `content-type:` line without `charset=` gives `utf-8` |
| HttpClient.EmptyCharsetValue | Labs/Lab4/lab4_jsivanish/lab4.py:139-158 | on the first `content-type:` line, a first `charset=` whose value is, once stripped, empty or starts with `;` gives `utf-8` |
| HttpClient.TextHtmlExample | Labs/Lab4/lab4_jsivanish/lab4.py:139-158 | the header line `content-type: text/html` gives `utf-8` |
| HttpClient.CharsetReadBack | Labs/Lab4/lab4_jsivanish/lab4.py:139-157 | a value written after the first `charset=` of the first `content-type:` line, possibly after whitespace, free of whitespace and separators itself and ended by a separator or the end of the line, is the charset picked |
| HttpClient.Iso88591Example | Labs/Lab4/lab4_jsivanish/lab4.py:138-157 | the header line `content-type: text/html; charset=iso-8859-1` gives the charset `iso-8859-1` |
| HttpClient.CharsetInHeaders | Labs/Lab4/lab4_jsivanish/lab4.py:145-149 | the value found after `charset=` on the `content-type` line occurs in the header text |
| HttpClient.PortArg | Labs/Lab4/lab4_jsivanish/lab4.py:169-174 | an accepted port lies between 1 and 65535, and text that `int()` rejects is rejected |
| HttpClient.PortArgDecimal | Labs/Lab4/lab4_jsivanish/lab4.py:169-174 | each decimal port from 1 to 65535 is accepted as itself; 0, larger numbers and negative numbers are refused |
| HttpClient.ClientArgs | Labs/Lab4/lab4_jsivanish/lab4.py:161-188 | the client goes on exactly with three arguments, the flag `-p` or `-f`, a port in range, an `http` scheme in any case and a non-empty host name; it then fetches the path-and-query target from that host and port |
| HttpClient.ClientArgsReadBack | Labs/Lab4/lab4_jsivanish/lab4.py:161-188 | a flag, a decimal port in range and an `http` or `HTTP` URL with a host name give exactly that fetch |
| Text.ParseInt | Labs/Lab4/lab4_jsivanish/lab4.py:170 | `int()` refuses text that is empty after stripping, and a negative value comes only from a stripped text starting with `-` |
| Text.ParseIntDecimal | Labs/Lab4/lab4_jsivanish/lab4.py:170 | `int()` reads back what `str()` writes, with or without a minus sign |
| HttpClient.ProcessResponse | Labs/Lab4/lab4_jsivanish/lab4.py:207-219 | the charset used is non-empty, and the body handed to the decoder is no longer than the response; its two paths are stated in full by `HttpClient.PlainBodyUnchanged` and `ChunkedCoding.ChunkedResponseDecoded` |
| HttpClient.NoHeaderBlockIsPlainUtf8 | Labs/Lab4/lab4_jsivanish/lab4.py:66-71 | a response without a blank line is delivered whole and decoded as UTF-8 |
| HttpClient.PlainBodyUnchanged | Labs/Lab4/lab4_jsivanish/lab4.py:207-214 | without the chunked markers, the body after the blank line is delivered unchanged with the charset picked from the headers |
| Url.RequestTarget | Labs/Lab4/lab4_jsivanish/lab4.py:185-188 | the target is never empty; it starts with the path, or with `/` when the path is empty |
| Url.RequestTargetParts | Labs/Lab4/lab4_jsivanish/lab4.py:185-188 | for a path without `?`, the target splits back at its first `?` into the path (or `/`) and the query; it has a `?` exactly when the query is non-empty |
| Url.DefaultPort | Labs/Lab6/lab6.py:49 | the URL's port when it names one, else 80 |
| WhoisFields.ParseField | Labs/Lab3/lab3.py:45-50 | a line is a field exactly when it has a `:`; the value is stripped |
| WhoisFields.FieldOf | Labs/Lab3/lab3.py:47-50 | for a key without `:`, the line `key:value` reads as the stripped, lower-cased key and the stripped value, whatever colons the value holds |
| WhoisFields.SlotOf | Labs/Lab3/lab3.py:51-58 | Lab 3's key table never feeds the country, which only Lab 2's table has |
| WhoisFields.Put | Labs/Lab3/lab3.py:53-58 | storing a field sets that field and leaves every other field as it was |
| WhoisFields.Entries | Labs/Lab3/lab3.py:44-50 | each line gives one entry: the field its key feeds and its stripped value |
| WhoisFields.AddStreet | Labs/Lab3/lab3.py:52 | the first street value is taken as it is; a later one is appended after one space |
| WhoisFields.StreetJoined | Labs/Lab3/lab3.py:44-52 | the street is every non-empty street-key value, in order, joined with single spaces |
| WhoisFields.Collect | Labs/Lab3/lab3.py:44-58 | every value kept in a field is stripped: no leading or trailing whitespace |
| WhoisFields.LastWins | Labs/Lab3/lab3.py:53-58 | for city, state, postal code and country the last line with that key gives the value |
| WhoisFields.NeverFed | Labs/Lab3/lab3.py:39-58 | a field no line feeds stays empty |
| WhoisFields.NonEmpty | Labs/Lab3/lab3.py:61-71 | only non-empty parts are kept, and none are left exactly when every part is empty |
| WhoisFields.NonEmptyJoined | Labs/Lab3/lab3.py:77-78 | the joined address is empty exactly when every part is empty |
| WhoisFields.AddressLine | Labs/Lab3/lab3.py:80-86 | the fallback finds nothing exactly when no line mentions `address:` in any case |
| WhoisFields.AddressLineFirst | Labs/Lab3/lab3.py:80-84 | the fallback answers the value of the first line mentioning `address:` |
| WhoisFields.StripAll | Labs/Lab3/lab3.py:37 | every line is stripped, and none is dropped |
| Lab3Whois.FormatAddress | Labs/Lab3/lab3.py:60-78 | the street and the `, `-joined city/state/postal block, joined with `, `, equal the present parts joined with `, ` |
| Lab3Whois.BlockFlattens | Labs/Lab3/lab3.py:65-78 | joining the street with the joined block is joining all present parts at once |
| Lab3Whois.AddressSplits | Labs/Lab3/lab3.py:60-78 | parts free of `,` split back out of the address: exactly the present parts, in order |
| Lab3Whois.AddressFromLines | Labs/Lab3/lab3.py:37-86 | the structured address when any of street, city, state or postal code is found, else the fallback's value, else `Address not found` |
| Lab3Whois.ExtractAddress | Labs/Lab3/lab3.py:29-86 | the present parts among street, city, state and postal code, joined with `, `, when any is present; `Address not found` when none is and no line mentions `address:` |
| Lab3Whois.ExtractRange | Labs/Lab3/lab3.py:137-156 | `Range not found` when no line has the key `netrange` or `inetnum`; otherwise either that message or the stripped value of a range line |
| Lab3Whois.RangeLine | Labs/Lab3/lab3.py:144-156 | no range is found exactly when no line has the key `netrange` or `inetnum` |
| Lab3Whois.RangeLineFirst | Labs/Lab3/lab3.py:145-154 | the range is the value of the first range line, wherever it is |
| Lab3Whois.NetRangeReadBack | Labs/Lab3/lab3.py:137-156 | in text written line by line, a `NetRange:` line after non-range lines gives back its stripped value |
| Lab3Whois.NetRangeField | Labs/Lab3/lab3.py:148-152 | the `NetRange` key reads as `netrange`, and the value after it is stripped |
| Lab3Whois.RangeMessage | Labs/Lab3/lab3.py:213 | the reply starts with `Network range for `, ends with the range, and holds the domain between them |
| RouteCache.Compute | Labs/Lab3/lab3.py:170-213 | on a miss: the address route answers the extracted address, the range route its message, and the weather route `Forecast not found` when the geocoder has no match, else the forecast service's text for the point found |
| RouteCache.Serve | Labs/Lab3/lab3.py:164-175 | a request adds its key to the cache and keeps every stored reply; it keeps the cache consistent, and answers the computed reply, behind `Cached: ` on a hit |
| RouteCache.Run | Labs/Lab3/lab3.py:162-216 | one reply per request; afterwards the cache holds the keys it held and the keys requested, and what it held is unchanged |
| RouteCache.RunFromEmpty | Labs/Lab3/lab3.py:162-216 | from an empty cache, the cache holds exactly the requested keys with their computed replies; each request is answered with its reply, prefixed once by `Cached: ` when its key was asked before |
| RouteCache.RoutesDoNotCollide | Labs/Lab3/lab3.py:165 | a request on one route leaves every other route's entry for that domain as it was |
| RouteCache.HitIsReadOnly | Labs/Lab3/lab3.py:166-167 | a hit leaves the cache unchanged and answers the stored text behind one prefix |
| Lab2Whois.FormatAddress | Labs/Lab2/lab2_jsivanish/lab2.py:62-64 | the address is empty exactly when street, city, postal code and country are all empty |
| Lab2Whois.AddressSplits | Labs/Lab2/lab2_jsivanish/lab2.py:62-64 | parts free of `,` split back out of the address: the present parts of street, city, postal code and country, never the state |
| Lab2Whois.AddressFromLines | Labs/Lab2/lab2_jsivanish/lab2.py:43-70 | the structured address when any of its four parts is found, else the value of the first line mentioning `address:`, else none |
| Lab2Whois.FirstLineOnly | Labs/Lab2/lab2_jsivanish/lab2.py:66-70 | the fallback as written answers exactly when the first line mentions `address:` |
| Lab2Whois.AddressFromLinesAsWritten | Labs/Lab2/lab2_jsivanish/lab2.py:43-70 | as written: the structured address, else the first line's value if it mentions `address:`, else none |
| Lab2Whois.AsWrittenAgrees | Labs/Lab2/lab2_jsivanish/lab2.py:66-70 | the fallback as written and the corrected one agree when the first line mentions `address:` or no line does |
| Lab2Whois.FallbackMissed | Labs/Lab2/lab2_jsivanish/lab2.py:66-70 | when the only `address:` lines come after the first line, the fallback as written answers none where that line's value was meant |
| Lab2Whois.MissedExample | Labs/Lab2/lab2_jsivanish/lab2.py:66-70 | on the lines `""` and `xaddress:c`, the fallback as written answers none, and the corrected one `c` |
| Traceroute.AsPrefixed | Labs/Lab7/lab7.py:37-38 | `AS` followed by digits is an AS number whose digits read back |
| Traceroute.CymruLines | Labs/Lab7/lab7.py:28-39 | what the Cymru reply gives is an AS number, and nothing when no stripped line starts with a digit |
| Traceroute.CymruField | Labs/Lab7/lab7.py:34-38 | a field taken from a Cymru data line is always an AS number |
| Traceroute.CymruAs | Labs/Lab7/lab7.py:25-39 | a failed Cymru command gives nothing; anything found is an AS number |
| Traceroute.CymruFirst | Labs/Lab7/lab7.py:29-39 | only the first data line is read, and a malformed one ends the search |
| Traceroute.CymruRow | Labs/Lab7/lab7.py:33-38 | a row of those digits, then ` |` and anything, reads back as the AS number of those digits |
| Traceroute.OriginTestsCollapse | Labs/Lab7/lab7.py:50 | the three `origin` tests together are the same as the test for `origin` alone |
| Traceroute.TokenAs | Labs/Lab7/lab7.py:54-58 | a token gives an AS number or nothing |
| Traceroute.TokenAsNumber | Labs/Lab7/lab7.py:54-58 | a token `ASn`, or its bare digits `n`, reads as `ASn` |
| Traceroute.FirstTokenAs | Labs/Lab7/lab7.py:53-58 | the tokens of a line give nothing exactly when no token gives an AS number |
| Traceroute.OriginAs | Labs/Lab7/lab7.py:48-58 | the generic reply gives nothing exactly when no line gives an AS number |
| Traceroute.GenericAs | Labs/Lab7/lab7.py:42-60 | a failed generic command gives nothing; anything found is an AS number |
| Traceroute.LookupAs | Labs/Lab7/lab7.py:14-60 | Cymru's answer when it has one, else the generic one; always an AS number when present |
| Traceroute.HostAfterPointer | Labs/Lab7/lab7.py:77-84 | no host name exactly when there is no `pointer` token or it is the last token |
| Traceroute.ReverseDns | Labs/Lab7/lab7.py:63-84 | a failed `host` command gives no name; otherwise the name after the first `pointer` token |
| Traceroute.HostHasNoTrailingDot | Labs/Lab7/lab7.py:81 | the host name found never ends with a dot |
| Traceroute.HostReadBack | Labs/Lab7/lab7.py:76-82 | `... pointer name.` reads back as `name` |
| Traceroute.HopsFrom | Labs/Lab7/lab7.py:105-132 | the answers from TTL t on are empty exactly when t is past the hop limit, and otherwise start with the probe's answer at t |
| Traceroute.HopsShape | Labs/Lab7/lab7.py:105-132 | from TTL t: one answer per TTL in order, stopping after the destination or at the hop limit |
| Traceroute.Hops | Labs/Lab7/lab7.py:105-132 | at most max hops answers, answer k is the probe at TTL k+1, only the last can be the destination, and a short list ends at the destination |
| Traceroute.ProbeHops | Labs/Lab7/lab7.py:103-132 | the probing loop, break included, records exactly those answers |
| Traceroute.Dedup | Labs/Lab7/lab7.py:146-148 | the chain has the same AS numbers as its input, each once |
| Traceroute.DedupOrder | Labs/Lab7/lab7.py:146-148 | the chain lists the AS numbers in order of first appearance |
| Traceroute.AsChain | Labs/Lab7/lab7.py:135-148 | the chain holds each AS number found along the path exactly once |
| Traceroute.Found | Labs/Lab7/lab7.py:138-144 | at most one AS number per hop |
| Traceroute.FoundFromHops | Labs/Lab7/lab7.py:138-144 | every AS number found comes from the lookup of some hop that answered |
| Traceroute.ChainOfDedup | Labs/Lab7/lab7.py:138-148 | appending each hop's AS number when it is not yet in the chain gives the chain |
| Traceroute.ChainLoop | Labs/Lab7/lab7.py:135-148 | the loop with its `seen` set builds exactly that chain |
| Traceroute.ChainText | Labs/Lab7/lab7.py:150-153 | the summary starts with `Traversed AS numbers: `, and says `(none found)` for an empty chain |
| Traceroute.ChainTextReadBack | Labs/Lab7/lab7.py:150-153 | the chain can be read back from its summary line |
| Traceroute.MaxHops | Labs/Lab7/lab7.py:162-169 | the hop limit is accepted exactly when `int()` reads it as a positive number |
| Traceroute.MaxHopsDecimal | Labs/Lab7/lab7.py:162-169 | each positive decimal is accepted as itself; 0 and negative numbers are refused |
| Traceroute.Command | Labs/Lab7/lab7.py:156-171 | a run needs exactly two arguments and a valid hop limit, and traces the named target |
| Traceroute.CommandReadBack | Labs/Lab7/lab7.py:156-171 | a target and a positive hop limit in decimal give that invocation |
| Handshake.GetRequest | Labs/Lab6/lab6.py:15-32 | the request is the `GET` line, `Host`, `Connection: close` and a blank line, each ended by CRLF |
| Handshake.RequestLines | Labs/Lab6/lab6.py:25-32 | with no CR in target or host, the request splits back at CRLF into its five lines |
| Handshake.PlanOf | Labs/Lab6/lab6.py:38-89 | the program goes on exactly with one `http` URL argument that has a host name; the port defaults to 80, and the request sent later is the GET request for the URL's path, query and host name |
| Handshake.AckNumberAsWritten | Labs/Lab6/lab6.py:77 | as written, the acknowledgement is the server's sequence number plus one, unreduced |
| Handshake.AckOverflows | Labs/Lab6/lab6.py:77 | for the largest server sequence number, that value does not fit the 32-bit field |
| Handshake.AckNumber | Labs/Lab6/lab6.py:76-77 | the acknowledgement always fits the field; it equals the value as written except at the wrap, where it is 0 |
| Handshake.AckIsNext | Labs/Lab6/lab6.py:77 | the acknowledgement is one past the server's sequence number, modulo 2^32 |
| Handshake.Exchange | Labs/Lab6/lab6.py:63-99 | the SYN alone when no SYN/ACK comes back, else three segments; all share the source and destination ports, and the SYN carries the initial sequence number |
| Handshake.ExchangeNumbers | Labs/Lab6/lab6.py:63-99 | ACK and PSH/ACK both carry the initial sequence number plus one (5 for `Joel`) and acknowledge the server's SYN; every number fits its field, and only the PSH/ACK carries data, the request |
| NegativeSize.StepAsWritten | Labs/Lab4/lab4_jsivanish/lab4.py:94-132 | the loop as written, on a signed size and an integer cursor, only appends to its output |
| NegativeSize.RunAsWritten | Labs/Lab4/lab4_jsivanish/lab4.py:94-132 | when the loop as written returns within its fuel, its output extends what it started with |
| NegativeSize.AgreesWhenNotNegative | Labs/Lab4/lab4_jsivanish/lab4.py:94-132 | without a negative size the loop as written and the model's loop take the same turn |
| NegativeSize.LoopingNeverReturns | Labs/Lab4/lab4_jsivanish/lab4.py:104-126 | on `1 A -6` with its CRLFs, the loop as written never returns |
| NegativeSize.NegativeChunkSize | Labs/Lab4/lab4_jsivanish/lab4.py:103-107 | the corrected decoder refuses a negative size and ends with what came before |
| NegativeSize.LoopingDecoded | Labs/Lab4/lab4_jsivanish/lab4.py:103-107 | on the same body the corrected decoder returns `A` |

## Left out

- Sockets, `recv_all`, `sendall`, timeouts, `print`, the output file, Flask, `requests`, JSON decoding and plotting are left out. They are I/O.
- The geocoder, the forecast service, `whois`, `host`, Team Cymru and name resolution are parameters. Each is a deterministic function of its input, so a repeated request sees the same answer.
- scapy's `sr1` and `send` are left out. A probe's answer is a parameter per TTL, and the server's SYN/ACK sequence number is a parameter.
- The random source port is a parameter of `Handshake.Exchange`.
- `urlparse` is a parameter giving scheme, host name, port, path and query. Its lower-casing of the host name and its `ValueError` on a bad port are not modelled.
- The usage message and `exit(1)` are left out. A failed command-line check is `None`.
- Decoding the body with the chosen charset is left out: codecs are not modelled. `HttpClient.ProcessResponse` returns the bytes and the charset name.
- `gethostbyname` failing in Lab 7 (`lab7.py:95-99`) is left out, and so are exceptions in the Lab 3 routes.
- Lab 2's `whois_lookup` raising on a non-zero status is left out, as are the geocoding and hourly temperature steps with their C to F conversion. They are I/O and floating point.
- Lab 3's root route is left out. It returns a constant.
- Lab 6 `build_get_request` uses `.encode()` (UTF-8). The model keeps the request as text.
- Text.ParseInt: digits are ASCII only. Python's `int()` also takes Unicode digits and `_` separators.
- Text.IsDigits: ASCII only, where Python's `isdigit()` accepts other Unicode digits.
- Text.LowerChar: exact for the Latin-1 range and leaves other characters unchanged. Python also lower-cases beyond it.
- Text.UpperChar: upper-cases ASCII letters only. Python's `upper()` also maps `ſ` (U+017F) to `S`, so the token `aſ15169` reads as `AS15169` in the program but as nothing in `Traceroute.TokenAs`.
- ChunkedCoding.DechunkRoundTrip: covers size lines written in lower-case hex without leading zeros. Sizes such as `1A` or `00a`, which the decoder also reads, are not covered by the round trip.
- HttpClient.DechunkFrom: termination is proved on the corrected loop, which refuses negative sizes. The loop as written is modelled with a fuel bound (`NegativeSize.RunAsWritten`), because it does not always terminate.
- RouteCache.Run: requests are served one at a time. The server started at `Labs/Lab3/lab3.py:224` may handle requests on several threads, and the `cache` dict (`Labs/Lab3/lab3.py:13`) has no lock, so two overlapping first requests for one key can both miss and both answer without `Cached: `.
- Handshake.Exchange: uses the corrected `Handshake.AckNumber`, one more than the server's sequence number modulo 2^32. The value as written, `Handshake.AckNumberAsWritten`, is one more without the reduction (Findings, third row).
- Handshake.ExchangeNumbers: "every number fits its field" holds of the corrected acknowledgement number only. As written, a server sequence number of 4294967295 gives an acknowledgement number that does not fit.
- The forecast service's reading of the forecast's `periods` (`Labs/Lab3/lab3.py:112-135`) is the parameter `Services.forecast`. It is network I/O and JSON decoding.

## Findings

| source | as written | input that shows it | evidently intended | confidence | as-written member | corrected member |
|---|---|---|---|---|---|---|
| Labs/Lab4/lab4_jsivanish/lab4.py:104-126 | `int(size_hex.strip(), 16)` accepts a minus sign, and the loop moves its cursor by a negative size | the body `1\r\nA\r\n-6\r\n`: the cursor goes back to the `-6` line, for ever | a negative size is malformed, and decoding returns what it has | not executed | NegativeSize.LoopingNeverReturns | NegativeSize.NegativeChunkSize |
| Labs/Lab2/lab2_jsivanish/lab2.py:66-70 | `return None` sits inside the fallback loop, so only the first line is inspected | the lines `""` and `xaddress:c`: no structured field, and the `address:` line is second | the value of the first line mentioning `address:`, whichever line it is | not executed | Lab2Whois.MissedExample | Lab2Whois.FallbackMissed |
| Labs/Lab6/lab6.py:77 | `synack[TCP].seq + 1` is not reduced modulo 2^32 | a server sequence number of 4294967295 gives 4294967296, which the 32-bit field cannot hold | the acknowledgement number is one more modulo 2^32 | not executed | Handshake.AckOverflows | Handshake.AckIsNext |

=== FILE: bytes.dfy ===
/**
  Byte strings as the HTTP client sees them: the CRLF framing bytes, ASCII whitespace for
  `bytes.strip()`, hexadecimal chunk sizes, and the ISO-8859-1 / ASCII text codecs.
 */
module Bytes {
  import opened Wrappers
  import opened Seqs

  type Byte = b: int | 0 <= b < 256

  const CR: Byte := 13
  const LF: Byte := 10
  const CRLF: seq<Byte> := [CR, LF]
  const SEMICOLON: Byte := 59

  /** A CRLF pair starts at index `k` of `b`. */
  predicate CrlfAt(b: seq<Byte>, k: int) {
    0 <= k && k + 2 <= |b| && b[k] == CR && b[k + 1] == LF
  }

  /** The pair test is the general occurrence test for the pattern CRLF. */
  lemma CrlfAtOccurs(b: seq<Byte>, k: int)
    ensures CrlfAt(b, k) <==> OccursAt(b, CRLF, k)
  {
    if OccursAt(b, CRLF, k) {
      assert b[k + 0] == CRLF[0] && b[k + 1] == CRLF[1];
    }
  }

  /** The characters `bytes.strip()` removes: space, `\t`, `\n`, `\v`, `\f`, `\r`. */
  predicate IsAsciiSpace(b: Byte) {
    b == 32 || 9 <= b <= 13
  }

  /** Python's `b.strip()`. */
  function StripBytes(s: seq<Byte>): seq<Byte> {
    StripBy(s, IsAsciiSpace)
  }

  /** Stripping twice strips no more than stripping once. */
  lemma StripBytesTwice(s: seq<Byte>)
    ensures StripBytes(StripBytes(s)) == StripBytes(s)
  {
    StripByStripped(s, IsAsciiSpace);
    StripStripped(StripBytes(s), IsAsciiSpace);
  }

  predicate IsHexDigit(b: Byte) {
    (48 <= b <= 57) || (65 <= b <= 70) || (97 <= b <= 102)
  }

  predicate AllHex(s: seq<Byte>) {
    forall k :: 0 <= k < |s| ==> IsHexDigit(s[k])
  }

  function HexDigitValue(b: Byte): (v: nat)
    requires IsHexDigit(b)
    ensures v < 16
  {
    if b <= 57 then b - 48 else if b <= 70 then b - 55 else b - 87
  }

  /** Value of a run of hexadecimal digits, most significant first. */
  function HexValue(s: seq<Byte>): nat
    requires AllHex(s)
  {
    if |s| == 0 then 0 else HexValue(s[..|s| - 1]) * 16 + HexDigitValue(s[|s| - 1])
  }

  const UNDERSCORE: Byte := 95
  const MINUS: Byte := 45
  const PLUS: Byte := 43

  /**
    From index `k` on, `t` is hex digits in groups joined by single `_` separators (Python's
    integer literal grammar): a digit, then either the end, or a `_` and more groups, or
    more groups straight away.
   */
  predicate GroupsFrom(t: seq<Byte>, k: nat)
    decreases |t| - k
  {
    && k < |t| && IsHexDigit(t[k])
    && (k + 1 == |t|
        || (t[k + 1] == UNDERSCORE && GroupsFrom(t, k + 2))
        || (t[k + 1] != UNDERSCORE && GroupsFrom(t, k + 1)))
  }

  /**
    The number the digits of `t` from index `k` on spell when written after the digits of
    `acc`; anything other than a hex digit (the `_` separators) is skipped.
   */
  function DigitsValue(t: seq<Byte>, k: nat, acc: nat): nat
    decreases |t| - k
  {
    if k >= |t| then acc
    else if IsHexDigit(t[k]) then DigitsValue(t, k + 1, acc * 16 + HexDigitValue(t[k]))
    else DigitsValue(t, k + 1, acc)
  }

  /** Length of a `0x` / `0X` prefix at index `k` (with the one `_` it may carry), or 0. */
  function PrefixLength(t: seq<Byte>, k: nat): (r: nat)
    ensures r == 0 || r == 2 || r == 3
  {
    if k + 2 <= |t| && t[k] == 48 && (t[k + 1] == 120 || t[k + 1] == 88) then
      (if k + 2 < |t| && t[k + 2] == UNDERSCORE then 3 else 2)
    else 0
  }

  /**
    Python's `int(s, 16)` on bytes: surrounding ASCII whitespace, an optional sign, an
    optional `0x` prefix, then hex digits of either case with single `_` separators.
    `None` is the `ValueError`.
   */
  function HexInt(s: seq<Byte>): (r: Option<int>)
    ensures StripBytes(s) == [] ==> r.None?
    ensures r.Some? && r.value < 0 ==> StripBytes(s)[0] == MINUS
  {
    var t := StripBytes(s);
    var sign := if |t| > 0 && (t[0] == MINUS || t[0] == PLUS) then 1 else 0;
    var k := sign + PrefixLength(t, sign);
    if GroupsFrom(t, k) then
      var v: int := DigitsValue(t, k, 0);
      Some(if sign == 1 && t[0] == MINUS then -v else v)
    else None
  }

  /** The lower-case hex digit for `d`. */
  function HexDigit(d: nat): (b: Byte)
    requires d < 16
    ensures IsHexDigit(b) && HexDigitValue(b) == d
  {
    if d < 10 then 48 + d else 87 + d
  }

  /** Shortest lower-case hexadecimal rendering of `n`. */
  function ToHex(n: nat): (r: seq<Byte>)
    ensures |r| > 0 && AllHex(r)
  {
    if n < 16 then [HexDigit(n)] else ToHex(n / 16) + [HexDigit(n % 16)]
  }

  lemma {:induction false} HexValueOfToHex(n: nat)
    ensures HexValue(ToHex(n)) == n
  {
    if n >= 16 {
      HexValueOfToHex(n / 16);
      var s := ToHex(n);
      assert s[..|s| - 1] == ToHex(n / 16);
    }
  }

  /** Python's `int(_, 16)` reads back what `ToHex` writes. */
  lemma HexIntToHex(n: nat)
    ensures HexInt(ToHex(n)) == Some(n)
  {
    var h := ToHex(n);
    HexDigitIsPlain(h[0]);
    HexDigitIsPlain(h[|h| - 1]);
    StripStripped(h, IsAsciiSpace);
    PlainDigits(h, 0);
    assert h[0..] == h;
    HexValueOfToHex(n);
  }

  /** Plain hex digits from `k` to the end: no prefix, well-formed groups, and their value. */
  lemma PlainDigits(t: seq<Byte>, k: nat)
    requires k < |t| && forall j :: k <= j < |t| ==> IsHexDigit(t[j])
    ensures PrefixLength(t, k) == 0 && GroupsFrom(t, k)
    ensures DigitsValue(t, k, 0) == HexValue(t[k..])
  {
    if k + 1 < |t| {
      assert IsHexDigit(t[k + 1]);
    }
    PlainGroups(t, k);
    assert t[k..k] == [];
    DigitsValueFrom(t, k, k);
  }

  lemma {:induction false} PlainGroups(t: seq<Byte>, k: nat)
    requires k < |t| && forall j :: k <= j < |t| ==> IsHexDigit(t[j])
    ensures GroupsFrom(t, k)
    decreases |t| - k
  {
    if k + 1 < |t| {
      PlainGroups(t, k + 1);
      assert IsHexDigit(t[k + 1]);
    }
  }

  /** Reading on from `j` after the value of `t[k..j]` gives the value of `t[k..]`. */
  lemma {:induction false} DigitsValueFrom(t: seq<Byte>, k: nat, j: nat)
    requires k <= j <= |t| && forall i :: k <= i < |t| ==> IsHexDigit(t[i])
    ensures DigitsValue(t, j, HexValue(t[k..j])) == HexValue(t[k..])
    decreases |t| - j
  {
    if j < |t| {
      assert t[k..j + 1][..j - k] == t[k..j];
      assert HexValue(t[k..j + 1]) == HexValue(t[k..j]) * 16 + HexDigitValue(t[j]);
      DigitsValueFrom(t, k, j + 1);
    } else {
      assert t[k..j] == t[k..];
    }
  }

  /** A minus sign in front of the digits negates the value. */
  lemma HexIntNegated(n: nat)
    ensures HexInt([MINUS] + ToHex(n)) == Some(-(n as int))
  {
    var h := ToHex(n);
    SignedStripped(h);
    SignedDigits(h);
    HexValueOfToHex(n);
  }

  lemma SignedStripped(h: seq<Byte>)
    requires |h| > 0 && AllHex(h)
    ensures StripBytes([MINUS] + h) == [MINUS] + h
  {
    var m := [MINUS] + h;
    HexDigitIsPlain(h[|h| - 1]);
    assert m[|m| - 1] == h[|h| - 1];
    StripStripped(m, IsAsciiSpace);
  }

  lemma SignedDigits(h: seq<Byte>)
    requires |h| > 0 && AllHex(h)
    ensures PrefixLength([MINUS] + h, 1) == 0 && GroupsFrom([MINUS] + h, 1)
    ensures DigitsValue([MINUS] + h, 1, 0) == HexValue(h)
  {
    var m := [MINUS] + h;
    assert forall j :: 1 <= j < |m| ==> m[j] == h[j - 1];
    PlainDigits(m, 1);
    assert m[1..] == h;
  }

  /** A hex digit is neither whitespace nor CR nor `;`. */
  lemma HexDigitIsPlain(b: Byte)
    requires IsHexDigit(b)
    ensures !IsAsciiSpace(b) && b != CR && b != SEMICOLON
  {
  }

  /** ISO-8859-1 decoding: one character per byte, with the byte's value as its code point. */
  function Latin1Decode(b: seq<Byte>): (r: string)
    ensures |r| == |b|
    ensures forall k :: 0 <= k < |b| ==> r[k] as int == b[k]
  {
    seq(|b|, k requires 0 <= k < |b| => b[k] as char)
  }

  predicate IsLatin1(s: string) {
    forall k :: 0 <= k < |s| ==> s[k] as int < 256
  }

  predicate IsAscii(s: string) {
    forall k :: 0 <= k < |s| ==> s[k] as int < 128
  }

  /** ISO-8859-1 encoding of text whose characters all fit in a byte. */
  function Latin1(s: string): (r: seq<Byte>)
    requires IsLatin1(s)
    ensures |r| == |s|
    ensures forall k :: 0 <= k < |s| ==> r[k] == s[k] as int
  {
    seq(|s|, k requires 0 <= k < |s| => s[k] as int)
  }

  /** Python's `s.encode("ascii")`: `None` stands for the `UnicodeEncodeError`. */
  function AsciiEncode(s: string): (r: Option<seq<Byte>>)
    ensures r.Some? <==> IsAscii(s)
    ensures r.Some? ==> Latin1Decode(r.value) == s
  {
    if IsAscii(s) then Some(Latin1(s)) else None
  }

  lemma AsciiConcat(a: string, b: string)
    ensures IsAscii(a + b) <==> IsAscii(a) && IsAscii(b)
  {
    if IsAscii(a + b) {
      assert forall k :: 0 <= k < |a| ==> a[k] == (a + b)[k];
      assert forall k :: 0 <= k < |b| ==> b[k] == (a + b)[|a| + k];
    }
  }
}

=== FILE: chunked.dfy ===
/**
  What the chunked decoder does with chunked bodies as a sender writes them: the chunk
  payloads come out in order, the last chunk ends decoding whatever follows it, and each
  malformed ending gives back what was decoded before it.
 */
module ChunkedCoding {
  import opened Wrappers
  import opened Seqs
  import opened Bytes
  import opened HttpClient

  /** A chunk as a sender writes it: its payload and an extension that is empty or starts with `;`. */
  datatype Chunk = Chunk(data: seq<Byte>, ext: seq<Byte>)

  predicate ValidExt(ext: seq<Byte>) {
    (|ext| == 0 || ext[0] == SEMICOLON) && Free(ext, CR)
  }

  predicate WellFormed(c: Chunk) {
    |c.data| > 0 && ValidExt(c.ext)
  }

  predicate AllWellFormed(cs: seq<Chunk>) {
    forall i :: 0 <= i < |cs| ==> WellFormed(cs[i])
  }

  /** The size line without its CRLF: the size in lower-case hex without leading zeros, then the extension. */
  function SizeLine(n: nat, ext: seq<Byte>): seq<Byte> {
    ToHex(n) + ext
  }

  function EncodeChunk(c: Chunk): seq<Byte> {
    SizeLine(|c.data|, c.ext) + CRLF + c.data + CRLF
  }

  function EncodeChunks(cs: seq<Chunk>): seq<Byte> {
    if |cs| == 0 then [] else EncodeChunk(cs[0]) + EncodeChunks(cs[1..])
  }

  /** The payloads in order: what decoding the chunks should give. */
  function Payload(cs: seq<Chunk>): seq<Byte> {
    if |cs| == 0 then [] else cs[0].data + Payload(cs[1..])
  }

  /** The size line of the last chunk, with its CRLF. */
  function LastChunk(ext: seq<Byte>): seq<Byte> {
    SizeLine(0, ext) + CRLF
  }

  // ---------------------------------------------------------------- positions in a body

  /** Index `k` of a sequence placed at index `i`. */
  function Pos(i: nat, k: int): int {
    i + k
  }

  /**
    `x` sits in `body` at index `i`, byte by byte. The bytes are keyed on `Pos`, so that a
    position stays one fact until a proof asks for a byte of it (`AtByte`).
   */
  predicate At(body: seq<Byte>, i: nat, x: seq<Byte>) {
    i + |x| <= |body| && forall k {:trigger Pos(i, k)} :: 0 <= k < |x| ==> body[Pos(i, k)] == x[k]
  }

  lemma AtByte(body: seq<Byte>, i: nat, x: seq<Byte>, k: int)
    requires At(body, i, x) && 0 <= k < |x|
    ensures body[i + k] == x[k]
  {
    assert body[Pos(i, k)] == x[k];
  }

  /** The slice view of a position. */
  lemma AtSlice(body: seq<Byte>, i: nat, x: seq<Byte>)
    requires At(body, i, x)
    ensures body[i..i + |x|] == x
  {
    forall k | 0 <= k < |x|
      ensures body[i..i + |x|][k] == x[k]
    {
      AtByte(body, i, x, k);
    }
  }

  /** The two halves of a position; `j` names the cursor between them. */
  lemma AtSplit(body: seq<Byte>, i: nat, x: seq<Byte>, y: seq<Byte>, j: nat)
    requires At(body, i, x + y) && j == i + |x|
    ensures At(body, i, x) && At(body, j, y)
  {
    forall k | 0 <= k < |x|
      ensures body[Pos(i, k)] == x[k]
    {
      AtByte(body, i, x + y, k);
    }
    forall k | 0 <= k < |y|
      ensures body[Pos(j, k)] == y[k]
    {
      AtByte(body, i, x + y, |x| + k);
    }
  }

  /** A sequence sits in itself at index 0. */
  lemma AtWhole(s: seq<Byte>)
    ensures At(s, 0, s)
  {
    forall k | 0 <= k < |s|
      ensures s[Pos(0, k)] == s[k]
    {
    }
  }

  lemma AtTwo(a: seq<Byte>, b: seq<Byte>)
    ensures At(a + b, 0, a) && At(a + b, |a|, b)
  {
    AtWhole(a + b);
    AtSplit(a + b, 0, a, b, |a|);
  }

  lemma AtThree(a: seq<Byte>, b: seq<Byte>, c: seq<Byte>)
    ensures At(a + b + c, 0, a) && At(a + b + c, |a|, b) && At(a + b + c, |a| + |b|, c)
  {
    AtWhole(a + b + c);
    AtSplit(a + b + c, 0, a + b, c, |a| + |b|);
    AtSplit(a + b + c, 0, a, b, |a|);
  }

  /** A size line reads back as the size it was written with, and holds no CR. */
  lemma SizeLineParses(n: nat, ext: seq<Byte>)
    requires ValidExt(ext)
    ensures ChunkSize(SizeLine(n, ext)) == Some(n)
    ensures Free(SizeLine(n, ext), CR)
  {
    var h := ToHex(n);
    HexIsPlain(h);
    SizeLineCut(h, ext);
    HexIntToHex(n);
    SizeLineFree(h, ext);
  }

  /** Hex digits are neither whitespace nor CR nor `;`. */
  lemma HexIsPlain(h: seq<Byte>)
    requires AllHex(h)
    ensures forall k :: 0 <= k < |h| ==> !IsAsciiSpace(h[k]) && h[k] != CR && h[k] != SEMICOLON
  {
    forall k | 0 <= k < |h|
      ensures !IsAsciiSpace(h[k]) && h[k] != CR && h[k] != SEMICOLON
    {
      HexDigitIsPlain(h[k]);
    }
  }

  /** The size digits end where the extension's `;` begins. */
  lemma SizeLineCut(h: seq<Byte>, ext: seq<Byte>)
    requires Free(h, SEMICOLON) && ValidExt(ext)
    ensures CutAt(h + ext, SEMICOLON) == h
  {
    var line := h + ext;
    CutAtFirst(line, SEMICOLON);
    assert forall k :: 0 <= k < |h| ==> line[k] == h[k];
    if |ext| > 0 {
      assert line[|h|] == SEMICOLON;
    }
    assert line[..|h|] == h;
  }

  lemma SizeLineFree(h: seq<Byte>, ext: seq<Byte>)
    requires Free(h, CR) && ValidExt(ext)
    ensures Free(h + ext, CR)
  {
    assert forall k :: 0 <= k < |h| ==> (h + ext)[k] == h[k];
    assert forall k :: 0 <= k < |ext| ==> (h + ext)[|h| + k] == ext[k];
  }

  /** A line without CR followed by CRLF is read as that line, the cursor moving past the CRLF. */
  lemma ReadLineAt(body: seq<Byte>, i: nat, line: seq<Byte>)
    requires At(body, i, line + CRLF) && Free(line, CR)
    ensures ReadLine(body, i) == Some((line, i + |line| + 2))
  {
    var j := i + |line|;
    AtSplit(body, i, line, CRLF, j);
    AtSlice(body, i, line);
    FirstLineEnd(body, i, line, j);
    ReadLineFirst(body, i, j);
  }

  /** A line without CR, then CRLF: the first CRLF from `i` on is the one at `j`. */
  lemma FirstLineEnd(body: seq<Byte>, i: nat, line: seq<Byte>, j: nat)
    requires At(body, i, line) && At(body, j, CRLF) && Free(line, CR) && j == i + |line|
    ensures CrlfAt(body, j)
    ensures forall k :: i <= k < j ==> !CrlfAt(body, k)
  {
    AtByte(body, j, CRLF, 0);
    AtByte(body, j, CRLF, 1);
    forall k | i <= k < j
      ensures !CrlfAt(body, k)
    {
      AtByte(body, i, line, k - i);
    }
  }

  // ---------------------------------------------------------------- single turns

  /** A turn whose size line reads `n` goes on as `ChunkTurn` with that size. */
  lemma StepAtSize(body: seq<Byte>, i: nat, out: seq<Byte>, line: seq<Byte>, next: nat, n: nat)
    requires i <= |body| && ReadLine(body, i) == Some((line, next)) && ChunkSize(line) == Some(n)
    ensures DechunkStep(body, i, out) == ChunkTurn(body, next, out, n)
  {
  }

  /** A turn at a size line written for `n` reads `n` and goes on just past the line. */
  lemma SizeLineStep(body: seq<Byte>, i: nat, out: seq<Byte>, n: nat, ext: seq<Byte>, next: nat)
    requires ValidExt(ext) && At(body, i, SizeLine(n, ext) + CRLF)
    requires next == i + |SizeLine(n, ext)| + 2
    ensures next <= |body| && DechunkStep(body, i, out) == ChunkTurn(body, next, out, n)
  {
    var line := SizeLine(n, ext);
    SizeLineParses(n, ext);
    ReadLineAt(body, i, line);
    StepAtSize(body, i, out, line, next, n);
  }

  lemma TurnOnPayload(body: seq<Byte>, next: nat, out: seq<Byte>, data: seq<Byte>)
    requires next <= |body| && |data| > 0
    requires At(body, next, data) && At(body, next + |data|, CRLF)
    ensures ChunkTurn(body, next, out, |data|) == Continue(next + |data| + 2, out + data)
  {
    AtSlice(body, next, data);
    AtSlice(body, next + |data|, CRLF);
  }

  /** How the decoder sees an encoded chunk: its size line and CRLF, its payload, then CRLF. */
  lemma ChunkLayout(body: seq<Byte>, i: nat, c: Chunk) returns (next: nat)
    requires At(body, i, EncodeChunk(c))
    ensures At(body, i, SizeLine(|c.data|, c.ext) + CRLF) && next == i + |SizeLine(|c.data|, c.ext)| + 2
    ensures At(body, next, c.data) && At(body, next + |c.data|, CRLF)
    ensures next + |c.data| + 2 == i + |EncodeChunk(c)|
  {
    var line := SizeLine(|c.data|, c.ext);
    next := i + |line| + 2;
    AtSplit(body, i, line + CRLF + c.data, CRLF, next + |c.data|);
    AtSplit(body, i, line + CRLF, c.data, next);
  }

  /** A well-formed chunk at cursor `i` gives a turn that adds its payload and goes on past it. */
  lemma StepChunk(body: seq<Byte>, i: nat, out: seq<Byte>, c: Chunk, j: nat, o: seq<Byte>)
    requires At(body, i, EncodeChunk(c)) && WellFormed(c)
    requires j == i + |EncodeChunk(c)| && o == out + c.data
    ensures DechunkStep(body, i, out) == Continue(j, o)
  {
    var next := ChunkLayout(body, i, c);
    SizeLineStep(body, i, out, |c.data|, c.ext, next);
    TurnOnPayload(body, next, out, c.data);
  }

  /** A turn that returns ends the loop with what it returned. */
  lemma FromDone(body: seq<Byte>, i: nat, out: seq<Byte>, d: Decoding)
    requires i <= |body| && DechunkStep(body, i, out) == Done(d)
    ensures DechunkFrom(body, i, out) == d
  {
  }

  /** A turn that goes on leaves the rest of the decoding to the loop from the later cursor. */
  lemma FromContinue(body: seq<Byte>, i: nat, out: seq<Byte>, j: nat, o: seq<Byte>)
    requires i <= |body| && DechunkStep(body, i, out) == Continue(j, o)
    ensures DechunkFrom(body, i, out) == DechunkFrom(body, j, o)
  {
  }

  // ---------------------------------------------------------------- runs of chunks

  /**
    Turns that go on, one after another, through cursors `ps` with outputs `outs`: the loop
    from the first cursor ends as it would from the last one.
   */
  lemma {:induction false} ContinueChain(body: seq<Byte>, ps: seq<nat>, outs: seq<seq<Byte>>, i: nat, out: seq<Byte>, k: nat, p: seq<Byte>)
    requires |ps| == |outs| > 0
    requires forall t :: 0 <= t < |ps| ==> ps[t] <= |body|
    requires forall t :: 0 <= t < |ps| - 1 ==> DechunkStep(body, ps[t], outs[t]) == Continue(ps[t + 1], outs[t + 1])
    requires ps[0] == i && outs[0] == out && ps[|ps| - 1] == k && outs[|ps| - 1] == p
    ensures DechunkFrom(body, i, out) == DechunkFrom(body, k, p)
    decreases |ps|
  {
    if |ps| > 1 {
      var ps', outs' := ps[1..], outs[1..];
      forall t | 0 <= t < |ps'| - 1
        ensures DechunkStep(body, ps'[t], outs'[t]) == Continue(ps'[t + 1], outs'[t + 1])
      {
        assert ps'[t] == ps[t + 1] && ps'[t + 1] == ps[t + 2];
        assert outs'[t] == outs[t + 1] && outs'[t + 1] == outs[t + 2];
      }
      ContinueChain(body, ps', outs', ps[1], outs[1], k, p);
      FromContinue(body, i, out, ps[1], outs[1]);
    }
  }

  /** The cursor before each chunk and after the last: each chunk's encoding lies between two of them. */
  function Cursors(i: nat, cs: seq<Chunk>): (r: seq<nat>)
    ensures |r| == |cs| + 1 && r[0] == i && r[|cs|] == i + |EncodeChunks(cs)|
    ensures forall t :: 0 <= t < |cs| ==> r[t + 1] == r[t] + |EncodeChunk(cs[t])|
    decreases |cs|
  {
    if |cs| == 0 then [i] else [i] + Cursors(i + |EncodeChunk(cs[0])|, cs[1..])
  }

  /** The output before each chunk and after the last: each chunk adds its payload. */
  function Outputs(out: seq<Byte>, cs: seq<Chunk>): (r: seq<seq<Byte>>)
    ensures |r| == |cs| + 1 && r[0] == out && r[|cs|] == out + Payload(cs)
    ensures forall t :: 0 <= t < |cs| ==> r[t + 1] == r[t] + cs[t].data
    decreases |cs|
  {
    if |cs| == 0 then [out] else [out] + Outputs(out + cs[0].data, cs[1..])
  }

  /** Encoded chunks laid out from cursor `i`: each sits at its own cursor. */
  lemma {:induction false} Layout(body: seq<Byte>, i: nat, cs: seq<Chunk>)
    requires At(body, i, EncodeChunks(cs))
    ensures forall t :: 0 <= t <= |cs| ==> Cursors(i, cs)[t] <= |body|
    ensures forall t :: 0 <= t < |cs| ==> At(body, Cursors(i, cs)[t], EncodeChunk(cs[t]))
    decreases |cs|
  {
    if |cs| > 0 {
      var c := cs[0];
      var j := i + |EncodeChunk(c)|;
      var ps := Cursors(i, cs);
      var qs := Cursors(j, cs[1..]);
      AtSplit(body, i, EncodeChunk(c), EncodeChunks(cs[1..]), j);
      Layout(body, j, cs[1..]);
      assert ps == [i] + qs;
      forall t | 0 <= t <= |cs|
        ensures ps[t] <= |body|
      {
        if t > 0 {
          assert ps[t] == qs[t - 1];
        }
      }
      forall t | 0 <= t < |cs|
        ensures At(body, ps[t], EncodeChunk(cs[t]))
      {
        if t > 0 {
          assert ps[t] == qs[t - 1] && cs[t] == cs[1..][t - 1];
        }
      }
    }
  }

  /** Every turn over laid-out well-formed chunks goes on from one cursor to the next. */
  lemma PlacedTurns(body: seq<Byte>, i: nat, out: seq<Byte>, cs: seq<Chunk>)
    requires forall t :: 0 <= t <= |cs| ==> Cursors(i, cs)[t] <= |body|
    requires forall t :: 0 <= t < |cs| ==> At(body, Cursors(i, cs)[t], EncodeChunk(cs[t]))
    requires AllWellFormed(cs)
    ensures forall t :: 0 <= t < |cs| ==>
      DechunkStep(body, Cursors(i, cs)[t], Outputs(out, cs)[t]) == Continue(Cursors(i, cs)[t + 1], Outputs(out, cs)[t + 1])
  {
    var ps, outs := Cursors(i, cs), Outputs(out, cs);
    forall t | 0 <= t < |cs|
      ensures DechunkStep(body, ps[t], outs[t]) == Continue(ps[t + 1], outs[t + 1])
    {
      StepChunk(body, ps[t], outs[t], cs[t], ps[t + 1], outs[t + 1]);
    }
  }

  /**
    Well-formed chunks contribute their payloads in order: decoding from cursor `i` with
    output `out` ends as it would from cursor `k` past the chunks, with their payloads
    appended in `p`.
   */
  lemma SkipChunks(body: seq<Byte>, i: nat, out: seq<Byte>, cs: seq<Chunk>, k: nat, p: seq<Byte>)
    requires At(body, i, EncodeChunks(cs)) && AllWellFormed(cs)
    requires k == i + |EncodeChunks(cs)| && p == out + Payload(cs)
    ensures DechunkFrom(body, i, out) == DechunkFrom(body, k, p)
  {
    Layout(body, i, cs);
    PlacedTurns(body, i, out, cs);
    ContinueChain(body, Cursors(i, cs), Outputs(out, cs), i, out, k, p);
  }

  /** Decoding from the start of a body that begins with well-formed chunks. */
  lemma SkipFromStart(body: seq<Byte>, cs: seq<Chunk>)
    requires At(body, 0, EncodeChunks(cs)) && AllWellFormed(cs)
    ensures DechunkFrom(body, 0, []) == DechunkFrom(body, |EncodeChunks(cs)|, Payload(cs))
  {
    assert [] + Payload(cs) == Payload(cs);
    SkipChunks(body, 0, [], cs, |EncodeChunks(cs)|, Payload(cs));
  }

  /** The turn at the last chunk reads the size 0, skips the trailers and returns. */
  lemma LastChunkStep(body: seq<Byte>, i: nat, out: seq<Byte>, ext: seq<Byte>, next: nat)
    requires At(body, i, LastChunk(ext)) && ValidExt(ext) && next == i + |LastChunk(ext)|
    ensures DechunkStep(body, i, out) == Done(Decoding(out, SkipTrailers(body, next)))
  {
    assert LastChunk(ext) == SizeLine(0, ext) + CRLF;
    SizeLineStep(body, i, out, 0, ext, next);
  }

  // ---------------------------------------------------------------- whole bodies

  /**
    Decoding a chunked body gives the payloads in order; the last chunk's extension and
    everything after it (trailers, the blank line, any further bytes) do not matter.
   */
  lemma DechunkRoundTrip(cs: seq<Chunk>, ext: seq<Byte>, tail: seq<Byte>)
    requires AllWellFormed(cs) && ValidExt(ext)
    ensures Dechunk(EncodeChunks(cs) + LastChunk(ext) + tail) == Payload(cs)
  {
    var body := EncodeChunks(cs) + LastChunk(ext) + tail;
    AtThree(EncodeChunks(cs), LastChunk(ext), tail);
    var i, next := |EncodeChunks(cs)|, |EncodeChunks(cs)| + |LastChunk(ext)|;
    SkipFromStart(body, cs);
    LastChunkStep(body, i, Payload(cs), ext, next);
    FromDone(body, i, Payload(cs), Decoding(Payload(cs), SkipTrailers(body, next)));
  }

  /**
    Once the chunks are past, the turn at the cursor after them decides the result: when it
    returns, decoding ends with what it returned.
   */
  lemma EndsAfterChunks(body: seq<Byte>, cs: seq<Chunk>, d: Decoding)
    requires At(body, 0, EncodeChunks(cs)) && AllWellFormed(cs)
    requires DechunkStep(body, |EncodeChunks(cs)|, Payload(cs)) == Done(d)
    ensures DechunkFrom(body, 0, []) == d
  {
    SkipFromStart(body, cs);
    FromDone(body, |EncodeChunks(cs)|, Payload(cs), d);
  }

  // ---------------------------------------------------------------- malformed endings

  /** No CRLF in what is left from cursor `j`: no line can be read there. */
  lemma NoLineAt(body: seq<Byte>, j: nat, rest: seq<Byte>)
    requires At(body, j, rest) && j + |rest| == |body|
    requires forall k :: !CrlfAt(rest, k)
    ensures ReadLine(body, j).None?
  {
    forall k | j <= k
      ensures !CrlfAt(body, k)
    {
      assert !CrlfAt(rest, k - j);
      if k + 2 <= |body| {
        AtByte(body, j, rest, k - j);
        AtByte(body, j, rest, k - j + 1);
      }
    }
  }

  /** A turn that finds no line returns what it was given. */
  lemma StepNoLine(body: seq<Byte>, j: nat, out: seq<Byte>)
    requires j <= |body| && ReadLine(body, j).None?
    ensures DechunkStep(body, j, out) == Done(Decoding(out, j))
  {
  }

  /** No CRLF from cursor `j` on: the turn there returns what it was given. */
  lemma NoLineStep(body: seq<Byte>, j: nat, out: seq<Byte>, rest: seq<Byte>)
    requires At(body, j, rest) && j + |rest| == |body|
    requires forall k :: !CrlfAt(rest, k)
    ensures DechunkStep(body, j, out) == Done(Decoding(out, j))
  {
    NoLineAt(body, j, rest);
    StepNoLine(body, j, out);
  }

  /** A body whose last size line never ends gives the payloads before it. */
  lemma UnterminatedSizeLine(cs: seq<Chunk>, rest: seq<Byte>)
    requires AllWellFormed(cs)
    requires forall k :: !CrlfAt(rest, k)
    ensures Dechunk(EncodeChunks(cs) + rest) == Payload(cs)
  {
    var body := EncodeChunks(cs) + rest;
    var j := |EncodeChunks(cs)|;
    AtTwo(EncodeChunks(cs), rest);
    NoLineStep(body, j, Payload(cs), rest);
    EndsAfterChunks(body, cs, Decoding(Payload(cs), j));
  }

  /** A size line that is not a hex number: the turn returns, the cursor past that line. */
  lemma BadSizeStep(body: seq<Byte>, j: nat, out: seq<Byte>, line: seq<Byte>)
    requires At(body, j, line + CRLF) && Free(line, CR) && ChunkSize(line).None?
    ensures DechunkStep(body, j, out) == Done(Decoding(out, j + |line| + 2))
  {
    ReadLineAt(body, j, line);
  }

  /** A size line that is not a hex number ends decoding with the payloads before it. */
  lemma BadSizeLine(cs: seq<Chunk>, line: seq<Byte>, rest: seq<Byte>)
    requires AllWellFormed(cs)
    requires Free(line, CR) && ChunkSize(line).None?
    ensures Dechunk(EncodeChunks(cs) + (line + CRLF) + rest) == Payload(cs)
  {
    var body := EncodeChunks(cs) + (line + CRLF) + rest;
    var j := |EncodeChunks(cs)|;
    AtThree(EncodeChunks(cs), line + CRLF, rest);
    BadSizeStep(body, j, Payload(cs), line);
    EndsAfterChunks(body, cs, Decoding(Payload(cs), j + |line| + 2));
  }

  /** The turn at a size line whose payload is cut short. */
  lemma TruncatedStep(body: seq<Byte>, j: nat, out: seq<Byte>, n: nat, ext: seq<Byte>, partial: seq<Byte>)
    requires ValidExt(ext) && 0 < n && |partial| < n
    requires At(body, j, SizeLine(n, ext) + CRLF + partial) && j + |SizeLine(n, ext)| + 2 + |partial| == |body|
    ensures DechunkStep(body, j, out) == Done(Decoding(out + partial, j + |SizeLine(n, ext)| + 2))
  {
    var next := j + |SizeLine(n, ext)| + 2;
    AtSplit(body, j, SizeLine(n, ext) + CRLF, partial, next);
    SizeLineStep(body, j, out, n, ext, next);
    TurnBeyond(body, next, out, n, partial);
  }

  /** A size larger than what is left: the turn keeps what is left and returns. */
  lemma TurnBeyond(body: seq<Byte>, next: nat, out: seq<Byte>, n: nat, partial: seq<Byte>)
    requires 0 < n && |partial| < n && At(body, next, partial) && next + |partial| == |body|
    ensures ChunkTurn(body, next, out, n) == Done(Decoding(out + partial, next))
  {
    AtSlice(body, next, partial);
  }

  /** A payload cut short keeps the bytes that did arrive. */
  lemma TruncatedPayload(cs: seq<Chunk>, n: nat, ext: seq<Byte>, partial: seq<Byte>)
    requires AllWellFormed(cs) && ValidExt(ext)
    requires 0 < n && |partial| < n
    ensures Dechunk(EncodeChunks(cs) + (SizeLine(n, ext) + CRLF + partial)) == Payload(cs) + partial
  {
    var after := SizeLine(n, ext) + CRLF + partial;
    var body := EncodeChunks(cs) + after;
    var j := |EncodeChunks(cs)|;
    AtTwo(EncodeChunks(cs), after);
    TruncatedStep(body, j, Payload(cs), n, ext, partial);
    EndsAfterChunks(body, cs, Decoding(Payload(cs) + partial, j + |SizeLine(n, ext)| + 2));
  }

  lemma TurnUnterminated(body: seq<Byte>, next: nat, out: seq<Byte>, data: seq<Byte>)
    requires next <= |body| && |data| > 0 && At(body, next, data)
    requires !(next + |data| + 2 <= |body| && body[next + |data|..next + |data| + 2] == CRLF)
    ensures ChunkTurn(body, next, out, |data|) == Done(Decoding(out + data, next + |data|))
  {
    AtSlice(body, next, data);
  }

  /** The turn at a chunk whose payload is followed by something other than CRLF. */
  lemma MissingTerminatorStep(body: seq<Byte>, j: nat, out: seq<Byte>, c: Chunk, rest: seq<Byte>)
    requires WellFormed(c) && (|rest| < 2 || rest[..2] != CRLF)
    requires At(body, j, SizeLine(|c.data|, c.ext) + CRLF + c.data + rest)
    requires j + |SizeLine(|c.data|, c.ext)| + 2 + |c.data| + |rest| == |body|
    ensures DechunkStep(body, j, out)
      == Done(Decoding(out + c.data, j + |SizeLine(|c.data|, c.ext)| + 2 + |c.data|))
  {
    var line := SizeLine(|c.data|, c.ext);
    var next := j + |line| + 2;
    var a := next + |c.data|;
    AtSplit(body, j, line + CRLF + c.data, rest, a);
    AtSplit(body, j, line + CRLF, c.data, next);
    SizeLineStep(body, j, out, |c.data|, c.ext, next);
    NoCrlfAt(body, a, rest);
    TurnUnterminated(body, next, out, c.data);
  }

  /** Bytes that do not start with CRLF put no CRLF at their position. */
  lemma NoCrlfAt(body: seq<Byte>, a: nat, rest: seq<Byte>)
    requires At(body, a, rest) && a + |rest| == |body| && (|rest| < 2 || rest[..2] != CRLF)
    ensures !(a + 2 <= |body| && body[a..a + 2] == CRLF)
  {
    if a + 2 <= |body| {
      AtByte(body, a, rest, 0);
      AtByte(body, a, rest, 1);
      assert body[a..a + 2] == rest[..2];
    }
  }

  /** A payload not followed by CRLF is kept, and decoding ends there. */
  lemma MissingDataTerminator(cs: seq<Chunk>, c: Chunk, rest: seq<Byte>)
    requires AllWellFormed(cs) && WellFormed(c)
    requires |rest| < 2 || rest[..2] != CRLF
    ensures Dechunk(EncodeChunks(cs) + (SizeLine(|c.data|, c.ext) + CRLF + c.data + rest)) == Payload(cs) + c.data
  {
    var after := SizeLine(|c.data|, c.ext) + CRLF + c.data + rest;
    var body := EncodeChunks(cs) + after;
    var j := |EncodeChunks(cs)|;
    AtTwo(EncodeChunks(cs), after);
    MissingTerminatorStep(body, j, Payload(cs), c, rest);
    EndsAfterChunks(body, cs, Decoding(Payload(cs) + c.data, j + |SizeLine(|c.data|, c.ext)| + 2 + |c.data|));
  }

  // ---------------------------------------------------------------- trailers

  /** Trailer lines, each ended by CRLF, then the blank line that closes them. */
  function TrailerBlock(trailers: seq<seq<Byte>>): seq<Byte> {
    if |trailers| == 0 then CRLF else trailers[0] + CRLF + TrailerBlock(trailers[1..])
  }

  /** A trailer line: not empty (an empty line ends the block) and without CR. */
  predicate TrailerLine(t: seq<Byte>) {
    |t| > 0 && Free(t, CR)
  }

  predicate TrailerLines(trailers: seq<seq<Byte>>) {
    |trailers| == 0 || (TrailerLine(trailers[0]) && TrailerLines(trailers[1..]))
  }

  /** The first trailer line, and the block of the others after it. */
  lemma TrailerBlockSplit(body: seq<Byte>, i: nat, trailers: seq<seq<Byte>>)
    requires |trailers| > 0 && At(body, i, TrailerBlock(trailers))
    ensures At(body, i, trailers[0] + CRLF)
    ensures At(body, i + |trailers[0]| + 2, TrailerBlock(trailers[1..]))
    ensures |TrailerBlock(trailers)| == |trailers[0]| + 2 + |TrailerBlock(trailers[1..])|
  {
    AtSplit(body, i, trailers[0] + CRLF, TrailerBlock(trailers[1..]), i + |trailers[0]| + 2);
  }

  /** A trailer line is skipped, and skipping goes on after it. */
  lemma SkipOneTrailer(body: seq<Byte>, i: nat, t: seq<Byte>, k: nat)
    requires At(body, i, t + CRLF) && TrailerLine(t) && k == i + |t| + 2
    ensures k <= |body| && SkipTrailers(body, i) == SkipTrailers(body, k)
  {
    ReadLineAt(body, i, t);
  }

  /** Past the first trailer line, the rest of the block follows. */
  lemma SkipFirstTrailer(body: seq<Byte>, i: nat, trailers: seq<seq<Byte>>, j: nat) returns (k: nat)
    requires |trailers| > 0 && At(body, i, TrailerBlock(trailers)) && TrailerLines(trailers)
    requires j == i + |TrailerBlock(trailers)|
    ensures k <= |body| && SkipTrailers(body, i) == SkipTrailers(body, k)
    ensures At(body, k, TrailerBlock(trailers[1..])) && TrailerLines(trailers[1..])
    ensures j == k + |TrailerBlock(trailers[1..])|
  {
    k := i + |trailers[0]| + 2;
    TrailerBlockSplit(body, i, trailers);
    SkipOneTrailer(body, i, trailers[0], k);
  }

  /** The blank line ends the skipping just past it. */
  lemma SkipBlankLine(body: seq<Byte>, i: nat)
    requires At(body, i, CRLF)
    ensures SkipTrailers(body, i) == i + 2
  {
    assert [] + CRLF == CRLF;
    ReadLineAt(body, i, []);
  }

  /** Skipping trailers stops just past the blank line that ends them. */
  lemma {:induction false} SkipTrailerBlock(body: seq<Byte>, i: nat, trailers: seq<seq<Byte>>, j: nat)
    requires At(body, i, TrailerBlock(trailers)) && TrailerLines(trailers)
    requires j == i + |TrailerBlock(trailers)|
    ensures SkipTrailers(body, i) == j
    decreases |trailers|
  {
    if |trailers| == 0 {
      SkipBlankLine(body, i);
    } else {
      var k := SkipFirstTrailer(body, i, trailers, j);
      SkipTrailerBlock(body, k, trailers[1..], j);
    }
  }

  /**
    After the last chunk the decoder consumes the trailer lines and the blank line, and
    stops right before whatever follows; none of it reaches the output.
   */
  lemma TrailersConsumed(cs: seq<Chunk>, ext: seq<Byte>, trailers: seq<seq<Byte>>, rest: seq<Byte>)
    requires AllWellFormed(cs) && ValidExt(ext)
    requires TrailerLines(trailers)
    ensures var body := EncodeChunks(cs) + LastChunk(ext) + (TrailerBlock(trailers) + rest);
      DechunkFrom(body, 0, []) == Decoding(Payload(cs), |body| - |rest|)
  {
    var body := EncodeChunks(cs) + LastChunk(ext) + (TrailerBlock(trailers) + rest);
    var j := |EncodeChunks(cs)|;
    var next := j + |LastChunk(ext)|;
    AtThree(EncodeChunks(cs), LastChunk(ext), TrailerBlock(trailers) + rest);
    AtSplit(body, next, TrailerBlock(trailers), rest, next + |TrailerBlock(trailers)|);
    TrailersConsumedAt(body, cs, ext, trailers, next);
  }

  /** `TrailersConsumed` once the chunks, the last chunk and the trailers are located in the body. */
  lemma TrailersConsumedAt(body: seq<Byte>, cs: seq<Chunk>, ext: seq<Byte>, trailers: seq<seq<Byte>>, next: nat)
    requires AllWellFormed(cs) && ValidExt(ext) && TrailerLines(trailers)
    requires At(body, 0, EncodeChunks(cs)) && At(body, |EncodeChunks(cs)|, LastChunk(ext))
    requires next == |EncodeChunks(cs)| + |LastChunk(ext)| && At(body, next, TrailerBlock(trailers))
    ensures DechunkFrom(body, 0, []) == Decoding(Payload(cs), next + |TrailerBlock(trailers)|)
  {
    SkipTrailerBlock(body, next, trailers, next + |TrailerBlock(trailers)|);
    LastChunkStep(body, |EncodeChunks(cs)|, Payload(cs), ext, next);
    EndsAfterChunks(body, cs, Decoding(Payload(cs), next + |TrailerBlock(trailers)|));
  }

  // ---------------------------------------------------------------- the example

  /**
    A four-byte chunk, a five-byte chunk, the last chunk and the blank line: with the
    payloads `Wiki` and `pedia` this is the body `4\r\nWiki\r\n5\r\npedia\r\n0\r\n\r\n`,
    which decodes to `Wikipedia`.
   */
  lemma WikipediaExample(wiki: seq<Byte>, pedia: seq<Byte>)
    requires |wiki| == 4 && |pedia| == 5
    ensures Dechunk([52] + CRLF + wiki + CRLF + ([53] + CRLF + pedia + CRLF) + ([48] + CRLF) + CRLF) == wiki + pedia
  {
    var cs := [Chunk(wiki, []), Chunk(pedia, [])];
    TwoChunks(wiki, pedia);
    DechunkRoundTrip(cs, [], CRLF);
  }

  /** The encoding and the payload of the two chunks of the example. */
  lemma TwoChunks(wiki: seq<Byte>, pedia: seq<Byte>)
    requires |wiki| == 4 && |pedia| == 5
    ensures AllWellFormed([Chunk(wiki, []), Chunk(pedia, [])]) && ValidExt([])
    ensures EncodeChunks([Chunk(wiki, []), Chunk(pedia, [])]) + LastChunk([]) + CRLF
      == [52] + CRLF + wiki + CRLF + ([53] + CRLF + pedia + CRLF) + ([48] + CRLF) + CRLF
    ensures Payload([Chunk(wiki, []), Chunk(pedia, [])]) == wiki + pedia
  {
    var cs := [Chunk(wiki, []), Chunk(pedia, [])];
    assert SizeLine(4, []) == [52] && SizeLine(5, []) == [53] && SizeLine(0, []) == [48];
    assert cs[1..] == [Chunk(pedia, [])] && cs[1..][1..] == [];
    assert EncodeChunks(cs[1..]) == EncodeChunk(Chunk(pedia, [])) + [];
    assert EncodeChunks(cs) == EncodeChunk(Chunk(wiki, [])) + EncodeChunks(cs[1..]);
    assert Payload(cs[1..]) == pedia + [];
  }

  /**
    A chunked response as a server writes it: whatever the header block, the decoded body
    is the chunk payloads in order, and the charset is the one the headers name.
   */
  lemma ChunkedResponseDecoded(head: seq<Byte>, cs: seq<Chunk>, ext: seq<Byte>, tail: seq<Byte>)
    requires forall j :: 0 <= j < |head| ==> !OccursAt(head + HeaderEnd, HeaderEnd, j)
    requires IsChunked(HeaderText(head))
    requires AllWellFormed(cs) && ValidExt(ext)
    ensures ProcessResponse(head + HeaderEnd + (EncodeChunks(cs) + LastChunk(ext) + tail))
      == Decoded(PickCharset(HeaderText(head)), Payload(cs))
  {
    SplitResponseOfParts(head, EncodeChunks(cs) + LastChunk(ext) + tail);
    DechunkRoundTrip(cs, ext, tail);
  }
}

=== FILE: handshake.dfy ===
/**
  Lab 6's hand-made TCP exchange: the minimal HTTP GET request it sends, the command line
  and URL checks, and the sequence and acknowledgement numbers of its SYN, ACK and PSH/ACK
  segments. The URL parser, name resolution, the random source port and the SYN/ACK the
  server sends back are parameters.
 */
module Handshake {
  import opened Wrappers
  import opened Seqs
  import opened Url

  const FirstName: string := "Joel"

  /** The initial sequence number is the length of the first name. */
  const InitialSeq: nat := |FirstName|

  const CRLF: string := "\r\n"

  /** `build_get_request`: the request line, `Host`, `Connection: close`, then an empty line. */
  function GetRequest(path: string, query: string, host: string): (r: string)
    ensures r == "GET " + RequestTarget(path, query) + " HTTP/1.1\r\nHost: " + host + "\r\nConnection: close\r\n\r\n"
  {
    var lines := ["GET " + RequestTarget(path, query) + " HTTP/1.1", "Host: " + host, "Connection: close", "", ""];
    RequestJoined(lines);
    Join(lines, CRLF)
  }

  /** The five-piece join written out. */
  lemma RequestJoined(lines: seq<string>)
    requires |lines| == 5 && lines[2] == "Connection: close" && lines[3] == "" && lines[4] == ""
    ensures Join(lines, CRLF) == lines[0] + "\r\n" + lines[1] + "\r\nConnection: close\r\n\r\n"
  {
    var tail := "Connection: close" + CRLF + ("" + CRLF + "");
    assert Join(lines[4..], CRLF) == "";
    assert Join(lines[3..], CRLF) == "" + CRLF + Join(lines[4..], CRLF);
    assert Join(lines[2..], CRLF) == tail;
    assert Join(lines[1..], CRLF) == lines[1] + CRLF + tail;
    assert Join(lines, CRLF) == lines[0] + CRLF + (lines[1] + CRLF + tail);
    assert CRLF + tail == "\r\nConnection: close\r\n\r\n";
  }

  /** When neither the target nor the host holds a CR, the request splits back at CRLF into its five lines. */
  lemma RequestLines(path: string, query: string, host: string)
    requires Free(RequestTarget(path, query), '\r') && Free(host, '\r')
    ensures Split(GetRequest(path, query, host), CRLF)
      == ["GET " + RequestTarget(path, query) + " HTTP/1.1", "Host: " + host, "Connection: close", "", ""]
  {
    var t := RequestTarget(path, query);
    var lines := ["GET " + t + " HTTP/1.1", "Host: " + host, "Connection: close", "", ""];
    assert Free(lines[0], '\r') by {
      var l := lines[0];
      forall k | 0 <= k < |l|
        ensures l[k] != '\r'
      {
        if 4 <= k < 4 + |t| {
          assert l[k] == t[k - 4];
        }
      }
    }
    assert Free(lines[1], '\r') by {
      var l := lines[1];
      forall k | 0 <= k < |l|
        ensures l[k] != '\r'
      {
        if 6 <= k {
          assert l[k] == host[k - 6];
        }
      }
    }
    RequestJoined(lines);
    SplitJoin(lines, CRLF);
  }

  /** What `main` goes on with once its checks pass. */
  datatype Plan = Plan(host: string, port: nat, request: string)

  /**
    `main`'s checks: exactly one argument, an `http` URL, and a host name; the port
    defaults to 80 and the request is built from the path, query and host name.
   */
  function PlanOf(argv: seq<string>, parse: string -> ParsedUrl): (r: Option<Plan>)
    ensures r.Some? <==> |argv| == 2 && parse(argv[1]).scheme == "http" && parse(argv[1]).hostname.Some?
    ensures r.Some? ==> r.value.port == DefaultPort(parse(argv[1]).port)
    ensures r.Some? ==> r.value.host == parse(argv[1]).hostname.value
    ensures r.Some? ==> r.value.request == GetRequest(parse(argv[1]).path, parse(argv[1]).query, r.value.host)
  {
    if |argv| != 2 then None
    else
      var u := parse(argv[1]);
      if u.scheme != "http" then None
      else
        var port := DefaultPort(u.port);
        match u.hostname
        case None => None
        case Some(h) => Some(Plan(h, port, GetRequest(u.path, u.query, h)))
  }

  // ---- sequence numbers ----

  /** The sequence and acknowledgement fields are 32-bit unsigned integers (section 3.1 of RFC 793). */
  const SeqSpace: nat := 0x1_0000_0000

  predicate IsSeqNumber(n: int) {
    0 <= n < SeqSpace
  }

  /** The acknowledgement number as written: the server's sequence number plus one, unreduced. */
  function AckNumberAsWritten(serverSeq: nat): (r: nat)
    ensures r > serverSeq
  {
    serverSeq + 1
  }

  /** With the largest server sequence number, the value written does not fit the field. */
  lemma AckOverflows()
    ensures IsSeqNumber(SeqSpace - 1) && !IsSeqNumber(AckNumberAsWritten(SeqSpace - 1))
  {
  }

  /** The acknowledgement number in sequence-number arithmetic, modulo 2^32 (section 3.3 of RFC 793). */
  function AckNumber(serverSeq: nat): (r: nat)
    requires IsSeqNumber(serverSeq)
    ensures IsSeqNumber(r)
    ensures serverSeq + 1 < SeqSpace ==> r == AckNumberAsWritten(serverSeq)
    ensures serverSeq + 1 == SeqSpace ==> r == 0
  {
    (serverSeq + 1) % SeqSpace
  }

  /** The acknowledgement covers exactly the server's SYN: one step ahead modulo 2^32. */
  lemma AckIsNext(serverSeq: nat)
    requires IsSeqNumber(serverSeq)
    ensures (AckNumber(serverSeq) - serverSeq) % SeqSpace == 1
  {
  }

  datatype Flags = Syn | Ack | PshAck

  datatype Segment = Segment(sport: nat, dport: nat, flags: Flags, seqNum: nat, ackNum: nat, payload: string)

  /**
    The segments sent for a plan from source port `src`: the SYN alone when no SYN/ACK
    comes back, else the SYN, the ACK and the PSH/ACK carrying the request.
   */
  function Exchange(p: Plan, src: nat, synAck: Option<nat>): (r: seq<Segment>)
    requires synAck.Some? ==> IsSeqNumber(synAck.value)
    ensures |r| == (if synAck.Some? then 3 else 1)
    ensures r[0] == Segment(src, p.port, Syn, InitialSeq, 0, "")
    ensures forall i :: 0 <= i < |r| ==> r[i].sport == src && r[i].dport == p.port
  {
    var syn := Segment(src, p.port, Syn, InitialSeq, 0, "");
    match synAck
    case None => [syn]
    case Some(s) =>
      var ackSeq := InitialSeq + 1;
      var ackAck := AckNumber(s);
      [syn, Segment(src, p.port, Ack, ackSeq, ackAck, ""), Segment(src, p.port, PshAck, ackSeq, ackAck, p.request)]
  }

  /**
    In a completed exchange the ACK and the PSH/ACK both use the sequence number after the
    SYN's, both acknowledge the server's SYN, every number fits its 32-bit field, and only
    the PSH/ACK carries data: the request.
   */
  lemma ExchangeNumbers(p: Plan, src: nat, serverSeq: nat)
    requires IsSeqNumber(serverSeq)
    ensures var r := Exchange(p, src, Some(serverSeq));
      && r[1].seqNum == r[2].seqNum == r[0].seqNum + 1 == InitialSeq + 1
      && r[1].ackNum == r[2].ackNum
      && (r[1].ackNum - serverSeq) % SeqSpace == 1
      && (forall i :: 0 <= i < 3 ==> IsSeqNumber(r[i].seqNum) && IsSeqNumber(r[i].ackNum))
      && r[1].flags == Ack && r[2].flags == PshAck
      && r[0].payload == "" && r[1].payload == "" && r[2].payload == p.request
  {
    AckIsNext(serverSeq);
  }
}

=== FILE: http_client.dfy ===
/**
  The hand-written HTTP/1.1 client: the GET request it sends, the split of the response at
  the first blank line, the chunked transfer coding decoder (section 7.1 of RFC 9112,
  formerly section 4.1 of RFC 7230), the charset taken from `Content-Type`, and the small
  checks of the command line (port range, chunked detection).
 */
module HttpClient {
  import opened Wrappers
  import opened Seqs
  import opened Text
  import opened Bytes
  import opened Url

  // ---------------------------------------------------------------- request

  const UserAgent: string := "User-Agent: cscd330-lab4-client/1.0"
  const AcceptAny: string := "Accept: */*"
  const IdentityOnly: string := "Accept-Encoding: identity"
  const CloseAfter: string := "Connection: close"
  const NewLine: string := "\r\n"

  /** The lines of the request, before they are joined with CRLF. */
  function RequestLines(hostname: string, target: string): seq<string> {
    ["GET " + target + " HTTP/1.1", "Host: " + hostname, UserAgent, AcceptAny, IdentityOnly, CloseAfter, "", ""]
  }

  /** The fixed header lines between `Host` and the end of the request, blank line included. */
  const FixedHeaders: string := FrontHeaders + BackHeaders
  const FrontHeaders: string := NewLine + UserAgent + NewLine + AcceptAny
  const BackHeaders: string := NewLine + IdentityOnly + NewLine + CloseAfter + NewLine + NewLine

  /**
    The request as text: six lines each ended by CRLF (request line, `Host`, `User-Agent`,
    `Accept`, `Accept-Encoding`, `Connection: close`) and then the empty line's CRLF.
   */
  function RequestText(hostname: string, target: string): (r: string)
    ensures r == "GET " + target + " HTTP/1.1" + NewLine + "Host: " + hostname + FixedHeaders
  {
    var ls := RequestLines(hostname, target);
    JoinSixLines(ls[0], ls[1], UserAgent, AcceptAny, IdentityOnly, CloseAfter, NewLine);
    Join(ls, NewLine)
  }

  /** Joining six lines and two empty strings ends every line, then the blank line, with `sep`. */
  lemma JoinSixLines<T>(a: seq<T>, b: seq<T>, c: seq<T>, d: seq<T>, e: seq<T>, f: seq<T>, sep: seq<T>)
    ensures Join([a, b, c, d, e, f, [], []], sep) == a + sep + b + ((sep + c + sep + d) + (sep + e + sep + f + sep + sep))
  {
    var tail := d + sep + e + sep + f + sep + sep;
    JoinLastLines(d, e, f, sep);
    JoinCons(c, [d, e, f, [], []], sep);
    JoinCons(b, [c, d, e, f, [], []], sep);
    JoinCons(a, [b, c, d, e, f, [], []], sep);
    assert Join([a, b, c, d, e, f, [], []], sep) == a + sep + (b + sep + (c + sep + tail));
  }

  /** The last three lines and the two empty strings, joined. */
  lemma JoinLastLines<T>(d: seq<T>, e: seq<T>, f: seq<T>, sep: seq<T>)
    ensures Join([d, e, f, [], []], sep) == d + sep + e + sep + f + sep + sep
  {
    assert Join([[], []], sep) == sep;
    JoinCons(f, [[], []], sep);
    JoinCons(e, [f, [], []], sep);
    JoinCons(d, [e, f, [], []], sep);
    assert Join([d, e, f, [], []], sep) == d + sep + (e + sep + (f + sep + sep));
  }

  /** The request bytes; `None` is the `UnicodeEncodeError` of the ASCII encoding. */
  function BuildRequest(hostname: string, target: string): (r: Option<seq<Byte>>)
    ensures r.Some? <==> IsAscii(hostname) && IsAscii(target)
    ensures r.Some? ==> Latin1Decode(r.value) == RequestText(hostname, target)
  {
    var text := RequestText(hostname, target);
    FixedHeadersAscii();
    assert IsAscii("GET ");
    assert IsAscii(" HTTP/1.1" + NewLine + "Host: ");
    AsciiConcat("GET " + target, " HTTP/1.1" + NewLine + "Host: ");
    AsciiConcat("GET ", target);
    assert "GET " + target + " HTTP/1.1" + NewLine + "Host: " == ("GET " + target) + (" HTTP/1.1" + NewLine + "Host: ");
    AsciiConcat("GET " + target + " HTTP/1.1" + NewLine + "Host: ", hostname);
    AsciiConcat("GET " + target + " HTTP/1.1" + NewLine + "Host: " + hostname, FixedHeaders);
    AsciiEncode(text)
  }

  lemma FixedHeadersAscii()
    ensures IsAscii(FixedHeaders)
  {
    FrontHeadersAscii();
    BackHeadersAscii();
    AsciiConcat(FrontHeaders, BackHeaders);
  }

  lemma FrontHeadersAscii()
    ensures IsAscii(FrontHeaders)
  {
    assert IsAscii(NewLine) && IsAscii(UserAgent) && IsAscii(AcceptAny);
    AsciiConcat(NewLine, UserAgent);
    AsciiConcat(NewLine + UserAgent, NewLine);
    AsciiConcat(NewLine + UserAgent + NewLine, AcceptAny);
  }

  lemma BackHeadersAscii()
    ensures IsAscii(BackHeaders)
  {
    assert IsAscii(NewLine) && IsAscii(IdentityOnly) && IsAscii(CloseAfter);
    AsciiConcat(NewLine, IdentityOnly);
    AsciiConcat(NewLine + IdentityOnly, NewLine);
    AsciiConcat(NewLine + IdentityOnly + NewLine, CloseAfter);
    AsciiConcat(NewLine + IdentityOnly + NewLine + CloseAfter, NewLine);
    AsciiConcat(NewLine + IdentityOnly + NewLine + CloseAfter + NewLine, NewLine);
  }

  lemma FreeConcat(a: string, b: string, c: char)
    ensures Free(a + b, c) <==> Free(a, c) && Free(b, c)
  {
    if Free(a + b, c) {
      assert forall k :: 0 <= k < |a| ==> a[k] == (a + b)[k];
      assert forall k :: 0 <= k < |b| ==> b[k] == (a + b)[|a| + k];
    }
  }

  /**
    Splitting the request text at CRLF gives back exactly its eight lines (six header lines
    and the two empty strings that produce the final blank line), as long as neither the
    host nor the target carries a CR.
   */
  lemma RequestLinesRoundTrip(hostname: string, target: string)
    requires Free(hostname, '\r') && Free(target, '\r')
    ensures Split(RequestText(hostname, target), "\r\n") == RequestLines(hostname, target)
  {
    var ls := RequestLines(hostname, target);
    FreeConcat("GET ", target, '\r');
    FreeConcat("GET " + target, " HTTP/1.1", '\r');
    FreeConcat("Host: ", hostname, '\r');
    assert Free(UserAgent, '\r') && Free(AcceptAny, '\r');
    assert Free(IdentityOnly, '\r') && Free(CloseAfter, '\r');
    SplitJoin(ls, "\r\n");
  }

  // ---------------------------------------------------------------- response split

  /** The blank line that ends the header block. */
  const HeaderEnd: seq<Byte> := [CR, LF, CR, LF]

  /** The header block as searchable text: ISO-8859-1 decoded, then lower-cased. */
  function HeaderText(head: seq<Byte>): (r: string)
    ensures |r| == |head|
    ensures forall k :: 0 <= k < |head| ==> r[k] == LowerChar(head[k] as char)
  {
    Lower(Latin1Decode(head))
  }

  datatype Response = Response(headers: string, body: seq<Byte>)

  /**
    Splits a raw response at the first CRLF CRLF. When there is none, the headers are empty
    and the whole input is the body.
   */
  function SplitResponse(raw: seq<Byte>): (r: Response)
    ensures !Contains(raw, HeaderEnd) ==> r == Response("", raw)
    ensures Contains(raw, HeaderEnd) ==>
      var k := |raw| - |r.body| - 4;
      && 0 <= k
      && raw == raw[..k] + HeaderEnd + r.body
      && (forall j :: 0 <= j < k ==> !OccursAt(raw, HeaderEnd, j))
      && r.headers == HeaderText(raw[..k])
  {
    match IndexOf(raw, HeaderEnd, 0)
    case None => Response("", raw)
    case Some(k) =>
      assert raw == raw[..k] + raw[k..k + 4] + raw[k + 4..];
      Response(HeaderText(raw[..k]), raw[k + 4..])
  }

  /**
    The converse: a head in which the blank line first appears where the head ends, followed
    by the blank line and any body, splits back into that head's text and that body.
   */
  lemma SplitResponseOfParts(head: seq<Byte>, body: seq<Byte>)
    requires forall j :: 0 <= j < |head| ==> !OccursAt(head + HeaderEnd, HeaderEnd, j)
    ensures SplitResponse(head + HeaderEnd + body) == Response(HeaderText(head), body)
  {
    var raw := head + HeaderEnd + body;
    var front := head + HeaderEnd;
    assert raw[..|front|] == front;
    forall j | 0 <= j < |head|
      ensures !OccursAt(raw, HeaderEnd, j)
    {
      assert !OccursAt(front, HeaderEnd, j);
      assert raw[j..j + 4] == raw[..|front|][j..j + 4];
    }
    assert raw[|head|..|head| + 4] == HeaderEnd;
    IndexOfFirst(raw, HeaderEnd, 0, |head|);
    assert raw[..|head|] == head;
    assert raw[|head| + 4..] == body;
  }

  /** The chunked test of the client: both words anywhere in the header text. */
  function IsChunked(headers: string): (b: bool)
    ensures b ==> exists j, k :: OccursAt(headers, "transfer-encoding:", j) && OccursAt(headers, "chunked", k)
    ensures !b ==> (forall j :: !OccursAt(headers, "transfer-encoding:", j)) || (forall k :: !OccursAt(headers, "chunked", k))
  {
    Contains(headers, "transfer-encoding:") && Contains(headers, "chunked")
  }

  // ---------------------------------------------------------------- chunked decoding

  /**
    The line starting at `start` up to the next CRLF, and the index just past that CRLF;
    `None` when no CRLF follows.
   */
  function ReadLine(b: seq<Byte>, start: nat): (r: Option<(seq<Byte>, nat)>)
    requires start <= |b|
    ensures r.Some? ==>
      && start + |r.value.0| + 2 == r.value.1 <= |b|
      && r.value.0 == b[start..r.value.1 - 2]
      && CrlfAt(b, r.value.1 - 2)
      && forall k :: start <= k < r.value.1 - 2 ==> !CrlfAt(b, k)
    ensures r.None? <==> forall k :: start <= k ==> !CrlfAt(b, k)
  {
    match IndexOf(b, CRLF, start)
    case None =>
      forall k | start <= k
        ensures !CrlfAt(b, k)
      {
        CrlfAtOccurs(b, k);
      }
      None
    case Some(j) =>
      CrlfAtOccurs(b, j);
      forall k | start <= k < j
        ensures !CrlfAt(b, k)
      {
        CrlfAtOccurs(b, k);
      }
      Some((b[start..j], j + 2))
  }

  /** The first CRLF from `start` on ends the line `ReadLine` returns. */
  lemma ReadLineFirst(b: seq<Byte>, start: nat, j: nat)
    requires start <= j && CrlfAt(b, j)
    requires forall k :: start <= k < j ==> !CrlfAt(b, k)
    ensures ReadLine(b, start) == Some((b[start..j], j + 2))
  {
    CrlfAtOccurs(b, j);
    forall k | start <= k < j
      ensures !OccursAt(b, CRLF, k)
    {
      CrlfAtOccurs(b, k);
    }
    IndexOfFirst(b, CRLF, start, j);
  }

  /**
    The chunk size of a size line: the hex number before any `;`, whitespace stripped. A
    negative number is refused like any other malformed size (see module `NegativeSize`).
   */
  function ChunkSize(line: seq<Byte>): (r: Option<nat>)
    ensures r.Some? <==> SignedChunkSize(line).Some? && SignedChunkSize(line).value >= 0
    ensures r.Some? ==> r.value == SignedChunkSize(line).value
  {
    match SignedChunkSize(line)
    case Some(n) => if n >= 0 then Some(n) else None
    case None => None
  }

  /**
    The size as `int(size_hex.strip(), 16)` reads it, a minus sign included. `int()` strips
    the same whitespace itself, so the explicit strip is folded into `HexInt`'s
    (`StripBytesTwice`).
   */
  function SignedChunkSize(line: seq<Byte>): (r: Option<int>)
    ensures Free(line, SEMICOLON) ==> r == HexInt(line)
  {
    if Free(line, SEMICOLON) then CutAtFree(line, SEMICOLON); HexInt(CutAt(line, SEMICOLON))
    else HexInt(CutAt(line, SEMICOLON))
  }

  /**
    After a zero-size chunk: skips trailer lines up to and including the first empty one,
    or up to the last complete line when no empty line comes.
   */
  function SkipTrailers(b: seq<Byte>, i: nat): (r: nat)
    requires i <= |b|
    ensures i <= r <= |b|
    decreases |b| - i
  {
    match ReadLine(b, i)
    case None => i
    case Some((line, next)) => if line == [] then next else SkipTrailers(b, next)
  }

  /** Where decoding stopped: the bytes decoded and the cursor at that point. */
  datatype Decoding = Decoding(out: seq<Byte>, pos: nat)

  /** One turn of the decoding loop: either it returns, or it goes on from a later cursor. */
  datatype Step = Done(result: Decoding) | Continue(next: nat, out: seq<Byte>)

  /**
    One turn of the loop from cursor `i`, having produced `out`. Every malformed input ends
    the loop with what was produced: no CRLF after a size line, a size that is not hex, a
    payload shorter than its size (whatever is left is kept), a payload not followed by CRLF.
    A zero size ends it after the trailer section.
   */
  function DechunkStep(body: seq<Byte>, i: nat, out: seq<Byte>): (r: Step)
    requires i <= |body|
    ensures r.Done? ==> out <= r.result.out && |r.result.out| <= |out| + (|body| - i) && r.result.pos <= |body|
    ensures r.Continue? ==> i < r.next <= |body| && out <= r.out && |r.out| + (|body| - r.next) <= |out| + (|body| - i)
  {
    match ReadLine(body, i)
    case None => Done(Decoding(out, i))
    case Some((line, next)) =>
      match ChunkSize(line)
      case None => Done(Decoding(out, next))
      case Some(size) => ChunkTurn(body, next, out, size)
  }

  /** The rest of a turn once the size line, ending just before `next`, has given `size`. */
  function ChunkTurn(body: seq<Byte>, next: nat, out: seq<Byte>, size: nat): (r: Step)
    requires next <= |body|
    ensures r.Done? ==> out <= r.result.out && |r.result.out| <= |out| + (|body| - next) && r.result.pos <= |body|
    ensures r.Continue? ==> next < r.next <= |body| && out <= r.out && |r.out| + (|body| - r.next) <= |out| + (|body| - next)
  {
    if size == 0 then Done(Decoding(out, SkipTrailers(body, next)))
    else if next + size > |body| then Done(Decoding(out + body[next..], next))
    else
      var after := next + size;
      if after + 2 <= |body| && body[after..after + 2] == CRLF then
        Continue(after + 2, out + body[next..after])
      else Done(Decoding(out + body[next..after], after))
  }

  /** The decoding loop, turn after turn, until a turn returns. */
  function DechunkFrom(body: seq<Byte>, i: nat, out: seq<Byte>): (r: Decoding)
    requires i <= |body|
    ensures out <= r.out
    ensures |r.out| <= |out| + (|body| - i)
    ensures r.pos <= |body|
    decreases |body| - i
  {
    match DechunkStep(body, i, out)
    case Done(d) => d
    case Continue(j, o) => DechunkFrom(body, j, o)
  }

  /** The decoded body; never longer than the chunked one. */
  function Dechunk(body: seq<Byte>): (r: seq<Byte>)
    ensures |r| <= |body|
  {
    DechunkFrom(body, 0, []).out
  }

  // ---------------------------------------------------------------- charset

  /** The characters that end a charset value. */
  predicate IsCharsetEnd(c: char) {
    c == ';' || c == ' ' || c == '\t' || c == '\r'
  }

  /**
    Cuts at `;`, then at space, then at tab, then at CR, one after the other; the effect is
    a cut at the first of any of them.
   */
  function CutAtSeparators(s: string): (r: string)
    ensures r <= s
    ensures forall k :: 0 <= k < |r| ==> !IsCharsetEnd(r[k])
    ensures |r| < |s| ==> IsCharsetEnd(s[|r|])
  {
    var a := CutAt(s, ';');
    var b := CutAt(a, ' ');
    var c := CutAt(b, '\t');
    var d := CutAt(c, '\r');
    CutAtFirst(s, ';');
    CutAtFirst(a, ' ');
    CutAtFirst(b, '\t');
    CutAtFirst(c, '\r');
    SeparatorCuts(s, a, b, c, d);
    d
  }

  /** Four successive cuts, each at its own separator, cut at the first separator of any kind. */
  lemma SeparatorCuts(s: string, a: string, b: string, c: string, d: string)
    requires a <= s && Free(a, ';') && (|a| < |s| ==> s[|a|] == ';')
    requires b <= a && Free(b, ' ') && (|b| < |a| ==> a[|b|] == ' ')
    requires c <= b && Free(c, '\t') && (|c| < |b| ==> b[|c|] == '\t')
    requires d <= c && Free(d, '\r') && (|d| < |c| ==> c[|d|] == '\r')
    ensures d <= s
    ensures forall k :: 0 <= k < |d| ==> !IsCharsetEnd(d[k])
    ensures |d| < |s| ==> IsCharsetEnd(s[|d|])
  {
    forall k | 0 <= k < |d|
      ensures !IsCharsetEnd(d[k])
    {
      assert d[k] == c[k] == b[k] == a[k];
    }
  }

  const Default: string := "utf-8"

  /**
    The charset named in the first `content-type:` line of the (lower-cased) header text:
    what follows `charset=` on that line, stripped and cut at the first `;`, space, tab or
    CR; `utf-8` when there is no such line, no `charset=` on it, or nothing left.
   */
  function PickCharset(h: string): (r: string)
    ensures |r| > 0
    ensures !IsSpace(r[0])
    ensures forall k :: 0 <= k < |r| ==> !IsCharsetEnd(r[k])
    ensures !Contains(h, "content-type:") ==> r == Default
    ensures r == Default || Contains(h, r)
  {
    match IndexOf(h, "content-type:", 0)
    case None => Default
    case Some(ct) =>
      var end := match IndexOf(h, "\n", ct) case Some(e) => e case None => |h|;
      var line := h[ct..end];
      match IndexOf(line, "charset=", 0)
      case None => Default
      case Some(cs) =>
        var v := Strip(line[cs + 8..]);
        var c := CutAtSeparators(v);
        if c != [] then
          CharsetInHeaders(h, ct, end, cs, c);
          c
        else Default
  }

  /** The charset value found on the `content-type` line is a piece of the header text. */
  lemma CharsetInHeaders(h: string, ct: nat, end: nat, cs: nat, c: string)
    requires ct <= end <= |h| && cs + 8 <= end - ct
    requires c <= Strip(h[ct..end][cs + 8..])
    ensures Contains(h, c)
  {
    var t := h[ct..end][cs + 8..];
    var a := StrippedPrefix(t, IsSpace, c);
    assert t == h[ct + cs + 8..end];
    SliceOfSlice(h, ct + cs + 8, end, a, a + |c|);
    PieceContained(h, ct + cs + 8 + a, c);
  }

  /**
    Reading back a written charset: in header text made of `pre`, a `content-type:` line
    holding `charset=`, whitespace `ws`, the value `v` and the rest `tail` of the line, and
    `more` from the line's `\n` on, where `pre` holds no `content-type:` and the line no
    earlier `charset=`, the charset picked is `v` whenever `v` has no whitespace or
    separator and `tail` is empty or starts with a separator.
   */
  lemma CharsetReadBack(h: string, pre: string, a: string, ws: string, v: string, tail: string, more: string)
    requires h == pre + "content-type:" + a + "charset=" + (ws + v) + tail + more
    requires forall j :: 0 <= j < |pre| ==> !OccursAt(h, "content-type:", j)
    requires Free(a, '\n')
    requires forall j :: 0 <= j < 13 + |a| ==> !OccursAt("content-type:" + a + "charset=", "charset=", j)
    requires Free(ws, '\n') && forall k :: 0 <= k < |ws| ==> IsSpace(ws[k])
    requires |v| > 0 && forall k :: 0 <= k < |v| ==> !IsSpace(v[k]) && !IsCharsetEnd(v[k])
    requires Free(tail, '\n') && (tail == [] || IsCharsetEnd(tail[0]))
    requires more == [] || more[0] == '\n'
    ensures PickCharset(h) == v
  {
    var line := LinePieces(h, pre, a, ws + v, tail, more);
    ContentTypeAt(h, pre, line, more);
    assert Free(v, '\n');
    FreeConcat(ws, v, '\n');
    CharsetLineFree(a, ws + v, tail);
    LineEnd(h, pre, line, more);
    CharsetAt(a, ws + v, tail);
    var kept := StripValue(ws, v, tail);
    CutValue(v, kept);
    PickFromLine(h, |pre|, |pre| + |line|, 13 + |a|, v);
  }

  /**
    The default when the `content-type:` line names no charset: in header text made of
    `pre`, a `content-type:` line without `charset=`, and `more` from the line's `\n` on,
    where `pre` holds no `content-type:`, the charset picked is `utf-8`.
   */
  lemma NoCharsetParameter(h: string, pre: string, a: string, more: string)
    requires h == pre + "content-type:" + a + more
    requires forall j :: 0 <= j < |pre| ==> !OccursAt(h, "content-type:", j)
    requires Free(a, '\n') && !Contains("content-type:" + a, "charset=")
    requires more == [] || more[0] == '\n'
    ensures PickCharset(h) == Default
  {
    var line := BareLinePieces(h, pre, a, more);
    ContentTypeAt(h, pre, line, more);
    LineEnd(h, pre, line, more);
    PickWithoutCharset(h, |pre|, |pre| + |line|);
  }

  /** The `content-type:` line of the text in `NoCharsetParameter`, and where it sits. */
  lemma BareLinePieces(h: string, pre: string, a: string, more: string) returns (line: string)
    requires h == pre + "content-type:" + a + more && Free(a, '\n')
    ensures line == "content-type:" + a && Free(line, '\n')
    ensures h == pre + line + more && h[|pre|..|pre| + |line|] == line && "content-type:" <= line
  {
    line := "content-type:" + a;
    assert h == pre + line + more;
    assert h[|pre|..|pre| + |line|] == line;
    FreeConcat("content-type:", a, '\n');
  }

  /** `PickCharset` once the `content-type:` line is known to hold no `charset=`. */
  lemma PickWithoutCharset(h: string, ct: nat, end: nat)
    requires IndexOf(h, "content-type:", 0) == Some(ct)
    requires (match IndexOf(h, "\n", ct) case Some(e) => e case None => |h|) == end
    requires ct <= end <= |h| && !Contains(h[ct..end], "charset=")
    ensures PickCharset(h) == Default
  {
  }

  /**
    The default when the value after `charset=` is empty: in header text made of `pre`, a
    `content-type:` line whose first `charset=` is followed by `tail`, which is whitespace
    up to a separator or the end of the line, and `more` from the line's `\n` on, where
    `pre` holds no `content-type:`, the charset picked is `utf-8`.
   */
  lemma EmptyCharsetValue(h: string, pre: string, a: string, tail: string, more: string)
    requires h == pre + "content-type:" + a + "charset=" + tail + more
    requires forall j :: 0 <= j < |pre| ==> !OccursAt(h, "content-type:", j)
    requires Free(a, '\n') && Free(tail, '\n')
    requires forall j :: 0 <= j < 13 + |a| ==> !OccursAt("content-type:" + a + "charset=", "charset=", j)
    requires Strip(tail) == [] || IsCharsetEnd(Strip(tail)[0])
    requires more == [] || more[0] == '\n'
    ensures PickCharset(h) == Default
  {
    var line := EmptyValuePieces(h, pre, a, tail, more);
    ContentTypeAt(h, pre, line, more);
    CharsetLineFree(a, [], tail);
    LineEnd(h, pre, line, more);
    CharsetAt(a, [], tail);
    NothingBeforeSeparator(Strip(tail));
    PickFromLine(h, |pre|, |pre| + |line|, 13 + |a|, []);
  }

  /** The `content-type:` line of the text in `EmptyCharsetValue`, and where its pieces sit. */
  lemma EmptyValuePieces(h: string, pre: string, a: string, tail: string, more: string) returns (line: string)
    requires h == pre + "content-type:" + a + "charset=" + tail + more
    ensures line == "content-type:" + a + "charset=" + [] + tail
    ensures h == pre + line + more && h[|pre|..|pre| + |line|] == line
    ensures "content-type:" <= line && line[13 + |a| + 8..] == tail
  {
    line := "content-type:" + a + "charset=" + tail;
    assert line == "content-type:" + a + "charset=" + [] + tail;
    assert h == pre + line + more;
    assert h[|pre|..|pre| + |line|] == line;
    assert line[..13] == "content-type:";
    assert line[13 + |a| + 8..] == tail;
  }

  /** Nothing is left by the cut when the text is empty or starts with a separator. */
  lemma NothingBeforeSeparator(s: string)
    requires s == [] || IsCharsetEnd(s[0])
    ensures CutAtSeparators(s) == []
  {
  }

  /** A pattern holding an element the text lacks does not occur in it. */
  lemma MissingElement(s: string, pat: string, k: nat)
    requires k < |pat| && Free(s, pat[k])
    ensures !Contains(s, pat)
  {
    forall j | 0 <= j && j + |pat| <= |s|
      ensures !OccursAt(s, pat, j)
    {
      assert s[j + k] != pat[k];
    }
  }

  /** The example of a `content-type:` line without a charset: `text/html` is read as UTF-8. */
  lemma TextHtmlExample()
    ensures PickCharset("content-type: text/html") == Default
  {
    assert "content-type: text/html" == "" + "content-type:" + " text/html" + "";
    MissingElement("content-type:" + " text/html", "charset=", 2);
    NoCharsetParameter("content-type: text/html", "", " text/html", "");
  }

  /** The `content-type:` line of the text in `CharsetReadBack`, and where its pieces sit. */
  lemma LinePieces(h: string, pre: string, a: string, v: string, tail: string, more: string) returns (line: string)
    requires h == pre + "content-type:" + a + "charset=" + v + tail + more
    ensures line == "content-type:" + a + "charset=" + v + tail
    ensures h == pre + line + more && h[|pre|..|pre| + |line|] == line
    ensures "content-type:" <= line && line[13 + |a| + 8..] == v + tail
  {
    line := "content-type:" + a + "charset=" + v + tail;
    assert h == pre + line + more;
    assert h[|pre|..|pre| + |line|] == line;
    assert line[..13] == "content-type:";
    assert line[13 + |a| + 8..] == v + tail;
  }

  /** `PickCharset` once the `content-type:` line, its `charset=` and the cut value are known. */
  lemma PickFromLine(h: string, ct: nat, end: nat, cs: nat, v: string)
    requires IndexOf(h, "content-type:", 0) == Some(ct)
    requires (match IndexOf(h, "\n", ct) case Some(e) => e case None => |h|) == end
    requires ct <= end <= |h|
    requires IndexOf(h[ct..end], "charset=", 0) == Some(cs)
    requires CutAtSeparators(Strip(h[ct..end][cs + 8..])) == v
    ensures PickCharset(h) == if v == [] then Default else v
  {
  }

  /** The first `content-type:` of the text is the one after `pre`. */
  lemma ContentTypeAt(h: string, pre: string, line: string, more: string)
    requires h == pre + line + more && "content-type:" <= line
    requires forall j :: 0 <= j < |pre| ==> !OccursAt(h, "content-type:", j)
    ensures IndexOf(h, "content-type:", 0) == Some(|pre|)
  {
    forall j | 0 <= j < 13
      ensures h[|pre| + j] == "content-type:"[j]
    {
      assert h[|pre| + j] == line[j];
    }
    IndexOfFirst(h, "content-type:", 0, |pre|);
  }

  /** A line free of `\n` that starts after `pre` ends where `more` starts. */
  lemma LineEnd(h: string, pre: string, line: string, more: string)
    requires h == pre + line + more && Free(line, '\n')
    requires more == [] || more[0] == '\n'
    ensures (match IndexOf(h, "\n", |pre|) case Some(e) => e case None => |h|) == |pre| + |line|
  {
    var end := |pre| + |line|;
    assert forall k :: |pre| <= k < end ==> h[k] == line[k - |pre|];
    assert forall k :: |pre| <= k < end ==> !OccursAt(h, "\n", k) by {
      forall k | |pre| <= k < end
        ensures !OccursAt(h, "\n", k)
      {
        assert h[k] != "\n"[0];
      }
    }
    var r := IndexOf(h, "\n", |pre|);
    if more == [] {
      assert |h| == end;
      assert r.None?;
    } else {
      assert h[end] == more[0];
      IndexOfFirst(h, "\n", |pre|, end);
    }
  }

  /** The `content-type:` line holds no `\n` when its pieces hold none. */
  lemma CharsetLineFree(a: string, v: string, tail: string)
    requires Free(a, '\n') && Free(v, '\n') && Free(tail, '\n')
    ensures Free("content-type:" + a + "charset=" + v + tail, '\n')
  {
    FreeConcat("content-type:", a, '\n');
    FreeConcat("content-type:" + a, "charset=", '\n');
    FreeConcat("content-type:" + a + "charset=", v, '\n');
    FreeConcat("content-type:" + a + "charset=" + v, tail, '\n');
  }

  /** On the line, the first `charset=` is the one written before the value. */
  lemma CharsetAt(a: string, v: string, tail: string)
    requires forall j :: 0 <= j < 13 + |a| ==> !OccursAt("content-type:" + a + "charset=", "charset=", j)
    ensures IndexOf("content-type:" + a + "charset=" + v + tail, "charset=", 0) == Some(13 + |a|)
  {
    var pre := "content-type:" + a + "charset=";
    var line := pre + v + tail;
    var cs := 13 + |a|;
    forall j | 0 <= j < 8
      ensures line[cs + j] == "charset="[j]
    {
      assert line[cs + j] == pre[cs + j];
    }
    forall j | 0 <= j < cs
      ensures !OccursAt(line, "charset=", j)
    {
      OccursAtSlice(line, "charset=", j);
      OccursAtSlice(pre, "charset=", j);
      assert line[j..j + 8] == pre[j..j + 8];
    }
    IndexOfFirst(line, "charset=", 0, cs);
  }

  /**
    Stripping whitespace `ws`, then a value without whitespace, then `t`, keeps the value
    and a prefix of `t`.
   */
  lemma StripValue(ws: string, v: string, t: string) returns (kept: string)
    requires forall k :: 0 <= k < |ws| ==> IsSpace(ws[k])
    requires |v| > 0 && forall k :: 0 <= k < |v| ==> !IsSpace(v[k])
    ensures kept <= t && Strip(ws + v + t) == v + kept
  {
    var s := ws + v + t;
    var r := Strip(s);
    var a := StripByKeeps(s, IsSpace);
    assert forall k :: 0 <= k < |ws| ==> IsSpace(s[k]) by {
      assert forall k :: 0 <= k < |ws| ==> s[k] == ws[k];
    }
    assert !IsSpace(s[|ws|]) && !IsSpace(s[|ws| + |v| - 1]) by {
      assert s[|ws|] == v[0] && s[|ws| + |v| - 1] == v[|v| - 1];
    }
    assert a == |ws|;
    var n := |r| - |v|;
    kept := t[..n];
    assert r == s[|ws|..|ws| + |r|] == v + kept;
  }

  /** Cutting a separator-free value followed by nothing or a separator gives the value. */
  lemma CutValue(v: string, t: string)
    requires forall k :: 0 <= k < |v| ==> !IsCharsetEnd(v[k])
    requires t == [] || IsCharsetEnd(t[0])
    ensures CutAtSeparators(v + t) == v
  {
    var s := v + t;
    var r := CutAtSeparators(s);
    assert forall k :: 0 <= k < |v| ==> s[k] == v[k];
    assert |v| < |s| ==> s[|v|] == t[0];
    assert r == s[..|v|] == v;
  }

  /** The example of a lower-cased `content-type:` line naming ISO-8859-1. */
  lemma Iso88591Example()
    ensures PickCharset("content-type: text/html; charset=iso-8859-1") == "iso-8859-1"
  {
    ExamplePieces();
    ExampleNoEarlyCharset();
    ExampleValue();
    CharsetReadBack("content-type: text/html; charset=iso-8859-1", "", " text/html; ", "", "iso-8859-1", "", "");
  }

  /** The example line cut into the pieces of `CharsetReadBack`. */
  lemma ExamplePieces()
    ensures "content-type: text/html; charset=iso-8859-1"
      == "" + "content-type:" + " text/html; " + "charset=" + ("" + "iso-8859-1") + "" + ""
    ensures "content-type:" + " text/html; " + "charset=" == "content-type: text/html; charset="
  {
    ExampleLine();
    var l := "content-type:" + " text/html; " + "charset=";
    assert l + "iso-8859-1" == "content-type: text/html; charset=iso-8859-1";
    assert "" + "content-type:" == "content-type:";
    assert "" + "iso-8859-1" == "iso-8859-1";
  }

  /** The example line up to its value. */
  lemma ExampleLine()
    ensures "content-type:" + " text/html; " + "charset=" == "content-type: text/html; charset="
  {
    assert "content-type:" + " text/html; " == "content-type: text/html; ";
  }

  /** In the example line, `charset=` first occurs where it is written. */
  lemma ExampleNoEarlyCharset()
    ensures forall j :: 0 <= j < 25 ==> !OccursAt("content-type: text/html; charset=", "charset=", j)
  {
    var l := "content-type: text/html; charset=";
    forall j | 0 <= j < 25
      ensures !OccursAt(l, "charset=", j)
    {
      if j == 0 {
        assert l[0 + 1] != "charset="[1];
      } else {
        assert l[j + 0] != "charset="[0];
      }
    }
  }

  /** `iso-8859-1` has no whitespace and no separator. */
  lemma ExampleValue()
    ensures forall k :: 0 <= k < |"iso-8859-1"| ==> !IsSpace("iso-8859-1"[k]) && !IsCharsetEnd("iso-8859-1"[k])
  {
  }

  // ---------------------------------------------------------------- command line

  /** The port argument: an integer strictly between 0 and 65536, else the usage error. */
  function PortArg(s: string): (r: Option<nat>)
    ensures r.Some? ==> 1 <= r.value <= 65535
    ensures ParseInt(s).None? ==> r.None?
  {
    match ParseInt(s)
    case Some(p) => if 0 < p < 65536 then Some(p) else None
    case None => None
  }

  /** Every port in range written in decimal is accepted as itself; 0 and larger numbers are not. */
  lemma PortArgDecimal(n: nat)
    ensures PortArg(Decimal(n)) == (if 1 <= n <= 65535 then Some(n) else None)
    ensures PortArg("-" + Decimal(n)) == None
  {
    ParseIntDecimal(n);
  }

  /** What `main` goes on with once its checks pass: where the body goes, and what to fetch from where. */
  datatype Fetch = Fetch(toStdout: bool, port: nat, host: string, target: string)

  /**
    `main`'s checks, each a usage error when it fails: three arguments, the flag `-p` or
    `-f`, a port in range, an `http` URL in any letter case, and a non-empty host name.
   */
  function ClientArgs(argv: seq<string>, parse: string -> ParsedUrl): (r: Option<Fetch>)
    ensures r.Some? <==>
      && |argv| == 4 && (argv[1] == "-p" || argv[1] == "-f") && PortArg(argv[2]).Some?
      && Lower(parse(argv[3]).scheme) == "http" && parse(argv[3]).hostname.Some? && parse(argv[3]).hostname.value != ""
    ensures r.Some? ==> r.value.toStdout == (argv[1] == "-p") && 1 <= r.value.port <= 65535
    ensures r.Some? ==> r.value.host == parse(argv[3]).hostname.value
    ensures r.Some? ==> r.value.target == RequestTarget(parse(argv[3]).path, parse(argv[3]).query)
  {
    if |argv| != 4 || (argv[1] != "-p" && argv[1] != "-f") then None
    else match PortArg(argv[2])
      case None => None
      case Some(port) =>
        var u := parse(argv[3]);
        if Lower(u.scheme) != "http" then None
        else match u.hostname
          case None => None
          case Some(h) => if h == "" then None else Some(Fetch(argv[1] == "-p", port, h, RequestTarget(u.path, u.query)))
  }

  /** A port written in decimal and an `http` or `HTTP` URL with a host name give that fetch. */
  lemma ClientArgsReadBack(program: string, flag: string, n: nat, url: string, parse: string -> ParsedUrl)
    requires flag == "-p" || flag == "-f"
    requires 1 <= n <= 65535
    requires parse(url).scheme == "http" || parse(url).scheme == "HTTP"
    requires parse(url).hostname.Some? && parse(url).hostname.value != ""
    ensures ClientArgs([program, flag, Decimal(n), url], parse)
      == Some(Fetch(flag == "-p", n, parse(url).hostname.value, RequestTarget(parse(url).path, parse(url).query)))
  {
    PortArgDecimal(n);
    HttpInAnyCase();
  }

  /** Both spellings of the scheme lower-case to `http`. */
  lemma HttpInAnyCase()
    ensures Lower("http") == "http" && Lower("HTTP") == "http"
  {
  }

  // ---------------------------------------------------------------- one response

  /** The body bytes the client decodes, and the charset it decodes them with. */
  datatype Decoded = Decoded(charset: string, body: seq<Byte>)

  function ProcessResponse(raw: seq<Byte>): (r: Decoded)
    ensures |r.charset| > 0
    ensures |r.body| <= |raw|
  {
    var resp := SplitResponse(raw);
    var body := if IsChunked(resp.headers) then Dechunk(resp.body) else resp.body;
    Decoded(PickCharset(resp.headers), body)
  }

  /** A response without a blank line is all body, left as it is, decoded as UTF-8. */
  lemma NoHeaderBlockIsPlainUtf8(raw: seq<Byte>)
    requires !Contains(raw, HeaderEnd)
    ensures ProcessResponse(raw) == Decoded("utf-8", raw)
  {
    assert !Contains("", "transfer-encoding:");
  }

  /** Without the chunked markers, the body after the blank line is delivered unchanged. */
  lemma PlainBodyUnchanged(head: seq<Byte>, body: seq<Byte>)
    requires forall j :: 0 <= j < |head| ==> !OccursAt(head + HeaderEnd, HeaderEnd, j)
    requires !IsChunked(HeaderText(head))
    ensures ProcessResponse(head + HeaderEnd + body) == Decoded(PickCharset(HeaderText(head)), body)
  {
    SplitResponseOfParts(head, body);
  }
}

=== FILE: lab2_whois.dfy ===
/**
  Lab 2's reading of whois text: the one-line address built from street, city, postal code
  and country, and the fallback to a line mentioning `address:`. The fallback loop as
  written returns `None` at the end of its first turn, so it only ever looks at the first
  line; `AddressFromLinesAsWritten` models that loop and `AddressFromLines` the loop over
  every line that the comment above it describes.
 */
module Lab2Whois {
  import opened Wrappers
  import opened Seqs
  import opened Text
  import opened WhoisFields

  /** The present parts of street, city, postal code and country, joined by `, `; the state is not used. */
  function FormatAddress(f: Fields): (r: string)
    ensures r == "" <==> f.street == "" && f.city == "" && f.postal == "" && f.country == ""
  {
    var xs := [f.street, f.city, f.postal, f.country];
    NonEmptyJoined(xs);
    assert xs[0] == f.street && xs[1] == f.city && xs[2] == f.postal && xs[3] == f.country;
    Join(NonEmpty(xs), ", ")
  }

  /** Pieces free of `,` split back at `, `: exactly the present parts, in order, and never the state. */
  lemma AddressSplits(f: Fields)
    requires FormatAddress(f) != ""
    requires Free(f.street, ',') && Free(f.city, ',') && Free(f.postal, ',') && Free(f.country, ',')
    ensures Split(FormatAddress(f), ", ") == NonEmpty([f.street, f.city, f.postal, f.country])
  {
    var xs := [f.street, f.city, f.postal, f.country];
    NonEmptyKeeps(xs, ',');
    SplitJoin(NonEmpty(xs), ", ");
  }

  /**
    `extract_address` over the stripped lines, with the fallback over every line: the
    structured address when it is not empty, else the value of the first line mentioning
    `address:`, else `None`.
   */
  function AddressFromLines(lines: seq<string>): (r: Option<string>)
    ensures var f := Collect(lines, Lab2Table);
      && (f.street != "" || f.city != "" || f.postal != "" || f.country != "" ==> r == Some(FormatAddress(f)))
      && (f.street == "" && f.city == "" && f.postal == "" && f.country == "" ==> r == AddressLine(lines))
  {
    var structured := FormatAddress(Collect(lines, Lab2Table));
    if structured != "" then Some(structured) else AddressLine(lines)
  }

  /** `extract_address(whois_text)` with the fallback over every line. */
  function ExtractAddress(text: string): (r: Option<string>)
  {
    AddressFromLines(StripAll(SplitLines(text)))
  }

  /**
    The fallback loop as written: `return None` sits inside the loop, so the first line is
    the only one inspected; with no lines at all the function falls off its end, which is
    also `None`.
   */
  function FirstLineOnly(lines: seq<string>): (r: Option<string>)
    ensures r.Some? <==> |lines| > 0 && MentionsAddress(lines[0])
    ensures r.Some? ==> r == AddressLine(lines)
  {
    if |lines| > 0 && MentionsAddress(lines[0]) then Some(LineValue(lines[0])) else None
  }

  /** `extract_address` over the stripped lines, as written. */
  function AddressFromLinesAsWritten(lines: seq<string>): (r: Option<string>)
    ensures var f := Collect(lines, Lab2Table);
      && (f.street != "" || f.city != "" || f.postal != "" || f.country != "" ==> r == Some(FormatAddress(f)))
      && (f.street == "" && f.city == "" && f.postal == "" && f.country == "" ==> r == FirstLineOnly(lines))
  {
    var structured := FormatAddress(Collect(lines, Lab2Table));
    if structured != "" then Some(structured) else FirstLineOnly(lines)
  }

  /** `extract_address(whois_text)` as written. */
  function ExtractAddressAsWritten(text: string): (r: Option<string>)
  {
    AddressFromLinesAsWritten(StripAll(SplitLines(text)))
  }

  /**
    The two loops agree exactly when the answer does not depend on a later line: the first
    line mentions `address:`, or no line does.
   */
  lemma AsWrittenAgrees(lines: seq<string>)
    ensures (|lines| > 0 && MentionsAddress(lines[0])) || (forall i :: 0 <= i < |lines| ==> !MentionsAddress(lines[i]))
      ==> AddressFromLinesAsWritten(lines) == AddressFromLines(lines)
  {
  }

  /**
    When the structured address is empty and the first line mentioning `address:` is line
    `j > 0`, the loop as written answers `None` where that line's value was meant.
   */
  lemma FallbackMissed(lines: seq<string>, j: nat)
    requires FormatAddress(Collect(lines, Lab2Table)) == ""
    requires 0 < j < |lines| && MentionsAddress(lines[j])
    requires forall i :: 0 <= i < j ==> !MentionsAddress(lines[i])
    ensures AddressFromLinesAsWritten(lines) == None
    ensures AddressFromLines(lines) == Some(LineValue(lines[j]))
  {
    AddressLineFirst(lines, j);
  }

  /** The record of a blank line, then `xaddress:c`: no structured field, and the `address:` line comes second. */
  const Missed: seq<string> := ["", "xaddress:c"]

  /** On `Missed` the loop as written finds nothing, and the loop over every line finds `c`. */
  lemma MissedExample()
    ensures AddressFromLinesAsWritten(Missed) == None
    ensures AddressFromLines(Missed) == Some("c")
  {
    MissedEntries();
    assert !MentionsAddress(Missed[0]);
    MissedMention();
    MissedValue();
    FallbackMissed(Missed, 1);
  }

  /** Neither line of `Missed` feeds an address part. */
  lemma MissedEntries()
    ensures FormatAddress(Collect(Missed, Lab2Table)) == ""
  {
    var es := Entries(Missed, Lab2Table);
    MissedIgnored();
    NeverFed(es, City);
    NeverFed(es, Postal);
    NeverFed(es, Country);
    NoStreet(es);
  }

  /** The second line of `Missed` has the key `xaddress`, which is in no table. */
  lemma MissedKey()
    ensures ParseField(Missed[1]).Some? && ParseField(Missed[1]).value.key == "xaddress"
  {
    var k := "xaddress";
    assert Missed[1] == k + ":" + "c";
    KeyPlain(k);
    FieldOf(k, "c");
    StripStripped(k, IsSpace);
    LowerKeeps(k);
  }

  /** Both lines of `Missed` are ignored by the key table. */
  lemma MissedIgnored()
    ensures forall i :: 0 <= i < |Entries(Missed, Lab2Table)| ==> Entries(Missed, Lab2Table)[i].slot == Ignored
  {
    assert LineSlot(Missed[0], Lab2Table) == Ignored;
    MissedKey();
    XaddressIgnored();
  }

  /** `xaddress` is in neither key table. */
  lemma XaddressIgnored()
    ensures SlotOf("xaddress", Lab2Table) == Ignored
  {
  }

  /** `xaddress` has no colon and no character that lower-casing changes. */
  lemma KeyPlain(k: string)
    requires k == "xaddress"
    ensures Free(k, ':') && forall i :: 0 <= i < |k| ==> LowerChar(k[i]) == k[i]
    ensures !IsSpace(k[0]) && !IsSpace(k[|k| - 1])
  {
  }

  /** The second line of `Missed` mentions `address:`. */
  lemma MissedMention()
    ensures MentionsAddress(Missed[1])
  {
    var low := Lower(Missed[1]);
    assert low[1..9] == "address:";
    assert OccursAt(low, "address:", 1);
  }

  /** The value of the second line of `Missed` is `c`. */
  lemma MissedValue()
    ensures LineValue(Missed[1]) == "c"
  {
    var k := "xaddress";
    assert Missed[1] == k + ":" + "c";
    KeyPlain(k);
    FieldOf(k, "c");
    StripStripped("c", IsSpace);
  }
}

=== FILE: lab3_whois.dfy ===
/**
  Lab 3's reading of whois text: the one-line address (street, then a city/state/postal
  block), its fallback to the first line mentioning `address:`, and the network range.
 */
module Lab3Whois {
  import opened Wrappers
  import opened Seqs
  import opened Text
  import opened WhoisFields

  /** The street, then the present parts of city, state and postal code as one `, `-joined block. */
  function FormatAddress(f: Fields): (r: string)
    ensures r == Join(NonEmpty([f.street, f.city, f.state, f.postal]), ", ")
  {
    var block := NonEmpty([f.city, f.state, f.postal]);
    var parts := (if f.street != "" then [f.street] else []) + (if block != [] then [Join(block, ", ")] else []);
    BlockFlattens(f.street, f.city, f.state, f.postal);
    Join(parts, ", ")
  }

  /** Joining the street with the joined block is joining all the present parts at once. */
  lemma BlockFlattens(street: string, city: string, state: string, postal: string)
    ensures
      var block := NonEmpty([city, state, postal]);
      Join((if street != "" then [street] else []) + (if block != [] then [Join(block, ", ")] else []), ", ")
        == Join(NonEmpty([street, city, state, postal]), ", ")
  {
    var block := NonEmpty([city, state, postal]);
    assert [street, city, state, postal][1..] == [city, state, postal];
    assert NonEmpty([street, city, state, postal]) == (if street != "" then [street] else []) + block;
    if street != "" && block != [] {
      JoinCons(street, block, ", ");
      assert [street] + [Join(block, ", ")] == [street, Join(block, ", ")];
    } else if street != "" {
      assert [street] + [] == [street];
    } else if block != [] {
      assert [] + [Join(block, ", ")] == [Join(block, ", ")];
      assert [] + block == block;
    }
  }

  /** With no `,` in any part, the address splits back at `, ` into the present parts. */
  lemma AddressSplits(f: Fields)
    requires FormatAddress(f) != ""
    requires Free(f.street, ',') && Free(f.city, ',') && Free(f.state, ',') && Free(f.postal, ',')
    ensures Split(FormatAddress(f), ", ") == NonEmpty([f.street, f.city, f.state, f.postal])
  {
    var xs := [f.street, f.city, f.state, f.postal];
    NonEmptyKeeps(xs, ',');
    SplitJoin(NonEmpty(xs), ", ");
  }

  const AddressNotFound: string := "Address not found"

  /**
    `extract_address` over the stripped lines: the structured address when it is not
    empty, else the fallback line's value, else `Address not found`.
   */
  function AddressFromLines(lines: seq<string>): (r: string)
    ensures var f := Collect(lines, Lab3Table);
      && (f.street != "" || f.city != "" || f.state != "" || f.postal != "" ==>
            r == Join(NonEmpty([f.street, f.city, f.state, f.postal]), ", "))
      && (f.street == "" && f.city == "" && f.state == "" && f.postal == "" ==>
            r == match AddressLine(lines) case Some(v) => v case None => AddressNotFound)
  {
    var f := Collect(lines, Lab3Table);
    var structured := FormatAddress(f);
    assert structured == "" <==> f.street == "" && f.city == "" && f.state == "" && f.postal == "" by {
      var xs := [f.street, f.city, f.state, f.postal];
      NonEmptyJoined(xs);
      assert xs[0] == f.street && xs[1] == f.city && xs[2] == f.state && xs[3] == f.postal;
    }
    if structured != "" then structured
    else match AddressLine(lines)
      case Some(v) => v
      case None => AddressNotFound
  }

  /** `extract_address(whois_text)`. */
  function ExtractAddress(text: string): (r: string)
    ensures var lines := StripAll(SplitLines(text)); var f := Collect(lines, Lab3Table);
      && (f.street != "" || f.city != "" || f.state != "" || f.postal != "" ==>
            r == Join(NonEmpty([f.street, f.city, f.state, f.postal]), ", "))
      && (f.street == "" && f.city == "" && f.state == "" && f.postal == "" && AddressLine(lines).None? ==>
            r == AddressNotFound)
  {
    AddressFromLines(StripAll(SplitLines(text)))
  }

  /** A line whose key is `netrange` or `inetnum`. */
  predicate IsRangeLine(line: string) {
    match ParseField(line)
    case None => false
    case Some(f) => f.key == "netrange" || f.key == "inetnum"
  }

  /** The value of the first range line. */
  function RangeLine(lines: seq<string>): (r: Option<string>)
    ensures r.None? <==> forall i :: 0 <= i < |lines| ==> !IsRangeLine(lines[i])
    decreases |lines|
  {
    if |lines| == 0 then None
    else if IsRangeLine(lines[0]) then Some(LineValue(lines[0]))
    else
      var r := RangeLine(lines[1..]);
      assert forall i :: 1 <= i < |lines| ==> lines[i] == lines[1..][i - 1];
      r
  }

  /** The range comes from the first range line, whichever line that is. */
  lemma {:induction false} RangeLineFirst(lines: seq<string>, j: nat)
    requires j < |lines| && IsRangeLine(lines[j])
    requires forall i :: 0 <= i < j ==> !IsRangeLine(lines[i])
    ensures RangeLine(lines) == Some(LineValue(lines[j]))
    decreases j
  {
    if j > 0 {
      RangeLineSkip(lines);
      forall i | 0 <= i < j - 1
        ensures !IsRangeLine(lines[1..][i])
      {
        assert lines[1..][i] == lines[i + 1];
      }
      assert lines[1..][j - 1] == lines[j];
      RangeLineFirst(lines[1..], j - 1);
    }
  }

  /** A first line that is not a range line is passed over. */
  lemma RangeLineSkip(lines: seq<string>)
    requires |lines| > 0 && !IsRangeLine(lines[0])
    ensures RangeLine(lines) == RangeLine(lines[1..])
  {
  }

  /** Where the range found comes from: the index of the first range line. */
  function RangeIndex(lines: seq<string>): (i: nat)
    requires RangeLine(lines).Some?
    ensures i < |lines| && IsRangeLine(lines[i]) && RangeLine(lines).value == LineValue(lines[i])
    decreases |lines|
  {
    if IsRangeLine(lines[0]) then 0
    else
      var j := RangeIndex(lines[1..]);
      assert lines[1..][j] == lines[j + 1];
      j + 1
  }

  const RangeNotFound: string := "Range not found"

  /** `extract_range(whois_text)`: lines are not stripped first here. */
  function ExtractRange(text: string): (r: string)
    ensures (forall i :: 0 <= i < |SplitLines(text)| ==> !IsRangeLine(SplitLines(text)[i])) ==> r == RangeNotFound
    ensures r == RangeNotFound ||
      exists i :: 0 <= i < |SplitLines(text)| && IsRangeLine(SplitLines(text)[i]) && r == LineValue(SplitLines(text)[i])
  {
    var lines := SplitLines(text);
    match RangeLine(lines)
    case Some(v) =>
      var i := RangeIndex(lines);
      assert IsRangeLine(lines[i]) && v == LineValue(lines[i]);
      assert exists k :: 0 <= k < |SplitLines(text)| && IsRangeLine(SplitLines(text)[k]) && v == LineValue(SplitLines(text)[k]);
      v
    case None => RangeNotFound
  }

  /** The range route's reply for a domain. */
  function RangeMessage(domain: string, range: string): (r: string)
    ensures |r| == 22 + |domain| + |range|
    ensures r[..18] == "Network range for " && r[|r| - |range|..] == range
  {
    "Network range for " + domain + " is " + range
  }

  /**
    Reading back a written record: in the text of lines `before`, a `NetRange:` line and
    `after`, where no line of `before` is a range line, the range is the stripped value
    written after `NetRange:`.
   */
  lemma NetRangeReadBack(before: seq<string>, v: string, after: seq<string>)
    requires forall i :: 0 <= i < |before| ==> NoLineBreak(before[i]) && !IsRangeLine(before[i])
    requires forall i :: 0 <= i < |after| ==> NoLineBreak(after[i])
    requires NoLineBreak(v)
    ensures ExtractRange(Terminated(before + ["NetRange: " + v] + after)) == Strip(v)
  {
    var line := "NetRange: " + v;
    assert NoLineBreak(line) by {
      assert forall k :: 10 <= k < |line| ==> line[k] == v[k - 10];
    }
    NetRangeField(v);
    RangeBetween(before, line, after);
  }

  /** A range line after lines that are not range lines gives the range. */
  lemma RangeBetween(before: seq<string>, line: string, after: seq<string>)
    requires forall i :: 0 <= i < |before| ==> NoLineBreak(before[i]) && !IsRangeLine(before[i])
    requires forall i :: 0 <= i < |after| ==> NoLineBreak(after[i])
    requires NoLineBreak(line) && IsRangeLine(line)
    ensures ExtractRange(Terminated(before + [line] + after)) == LineValue(line)
  {
    var lines := before + [line] + after;
    BreakFreeLines(before, line, after);
    assert forall i :: 0 <= i < |before| ==> lines[i] == before[i];
    assert lines[|before|] == line;
    RangeOfLines(lines, |before|);
  }

  /** Lines free of line breaks stay so when put together. */
  lemma BreakFreeLines(before: seq<string>, line: string, after: seq<string>)
    requires forall i :: 0 <= i < |before| ==> NoLineBreak(before[i])
    requires forall i :: 0 <= i < |after| ==> NoLineBreak(after[i])
    requires NoLineBreak(line)
    ensures forall i :: 0 <= i < |before + [line] + after| ==> NoLineBreak((before + [line] + after)[i])
  {
    var lines := before + [line] + after;
    forall i | 0 <= i < |lines|
      ensures NoLineBreak(lines[i])
    {
      if i < |before| {
        assert lines[i] == before[i];
      } else if i > |before| {
        assert lines[i] == after[i - |before| - 1];
      }
    }
  }

  /** The range of a text written line by line comes from its first range line. */
  lemma RangeOfLines(lines: seq<string>, j: nat)
    requires forall i :: 0 <= i < |lines| ==> NoLineBreak(lines[i])
    requires j < |lines| && IsRangeLine(lines[j])
    requires forall i :: 0 <= i < j ==> !IsRangeLine(lines[i])
    ensures ExtractRange(Terminated(lines)) == LineValue(lines[j])
  {
    SplitLinesTerminated(lines);
    RangeLineFirst(lines, j);
  }

  /** The `NetRange:` key is read as `netrange`, and the value after it is stripped. */
  lemma NetRangeField(v: string)
    ensures ParseField("NetRange: " + v) == Some(Field("netrange", Strip(v)))
    ensures IsRangeLine("NetRange: " + v) && LineValue("NetRange: " + v) == Strip(v)
  {
    assert "NetRange: " + v == "NetRange" + ":" + (" " + v);
    FieldOf("NetRange", " " + v);
    NetRangeKey();
    StripLeadingSpace(v);
  }

  /** The key `NetRange` reads as `netrange`. */
  lemma NetRangeKey()
    ensures Lower(Strip("NetRange")) == "netrange"
  {
    StripStripped("NetRange", IsSpace);
    assert Lower("NetRange") == "netrange";
  }
}

=== FILE: negative_size.dfy ===
/**
  A size line with a minus sign. `int(size_hex.strip(), 16)` accepts `-6` and gives -6,
  and the decoding loop, as written, has no test for a negative size: it copies the empty
  slice `body[i:i - 6]`, moves its cursor six bytes BACK, and, if a CRLF happens to sit
  there, reads the same size line again, for ever. This module models that loop on an
  integer cursor with Python's slice rules, exhibits a body on which it never returns, and
  shows that the decoder of the rest of the model (`ChunkSize` refusing negative sizes)
  stops there instead, with what came before.
 */
module NegativeSize {
  import opened Wrappers
  import opened Seqs
  import opened Bytes
  import opened HttpClient
  import opened ChunkedCoding

  /** Python's reading of a slice bound `x` against a length `n`: negative counts from the end, then clamped. */
  function PyBound(x: int, n: nat): (r: nat)
    ensures r <= n
    ensures 0 <= x <= n ==> r == x
    ensures x < 0 ==> r == (if x + n < 0 then 0 else x + n)
    ensures x > n ==> r == n
  {
    if x < 0 then (if x + n < 0 then 0 else x + n) else if x > n then n else x
  }

  /** Python's `b[lo:hi]`: empty once the bounds cross. */
  function PySlice(b: seq<Byte>, lo: int, hi: int): (r: seq<Byte>)
    ensures 0 <= lo <= hi <= |b| ==> r == b[lo..hi]
    ensures 0 <= hi <= lo ==> r == []
  {
    var a := PyBound(lo, |b|);
    var e := PyBound(hi, |b|);
    if a < e then b[a..e] else []
  }

  /** One turn of the loop as written: it returns `Stop`, or goes on from cursor `i`. */
  datatype Turn = Stop(out: seq<Byte>) | Next(i: int, out: seq<Byte>)

  /**
    One turn of the loop on an integer cursor, as written: `find` and the slices read a
    negative cursor from the end, the signed size is used as it is, and the cursor moves
    by it whatever its sign.
   */
  function StepAsWritten(body: seq<Byte>, i: int, out: seq<Byte>): (r: Turn)
    ensures r.Stop? ==> out <= r.out
    ensures r.Next? ==> out <= r.out
  {
    match ReadLine(body, PyBound(i, |body|))
    case None => Stop(out)
    case Some((line, next)) =>
      match SignedChunkSize(line)
      case None => Stop(out)
      case Some(size) => TurnAsWritten(body, next, out, size)
  }

  /** The rest of the turn as written, once the size line ending before `next` has given `size`. */
  function TurnAsWritten(body: seq<Byte>, next: nat, out: seq<Byte>, size: int): (r: Turn)
    ensures r.Stop? ==> out <= r.out
    ensures r.Next? ==> out <= r.out
  {
    if size == 0 then Stop(out)
    else if next + size > |body| then Stop(out + PySlice(body, next, |body|))
    else
      var o := out + PySlice(body, next, next + size);
      var j := next + size;
      if j + 2 <= |body| && PySlice(body, j, j + 2) == CRLF then Next(j + 2, o) else Stop(o)
  }

  /** The loop as written, for at most `fuel` turns: `None` when it has not returned by then. */
  function RunAsWritten(body: seq<Byte>, i: int, out: seq<Byte>, fuel: nat): (r: Option<seq<Byte>>)
    ensures r.Some? ==> out <= r.value
    decreases fuel
  {
    if fuel == 0 then None
    else
      match StepAsWritten(body, i, out)
      case Stop(o) => Some(o)
      case Next(j, o) =>
        var r := RunAsWritten(body, j, o, fuel - 1);
        assert r.Some? ==> out <= o <= r.value;
        r
  }

  /** The size line at `i` reads as a negative number. */
  predicate NegativeSizeAt(body: seq<Byte>, i: nat)
    requires i <= |body|
  {
    match ReadLine(body, i)
    case None => false
    case Some((line, _)) => SignedChunkSize(line).Some? && SignedChunkSize(line).value < 0
  }

  /**
    Where the size is not negative the loop as written takes the same turn as the model's
    decoder: it returns with the same bytes, or goes on from the same cursor with the same
    bytes.
   */
  lemma AgreesWhenNotNegative(body: seq<Byte>, i: nat, out: seq<Byte>)
    requires i <= |body| && !NegativeSizeAt(body, i)
    ensures DechunkStep(body, i, out).Done? <==> StepAsWritten(body, i, out).Stop?
    ensures DechunkStep(body, i, out).Done? ==> DechunkStep(body, i, out).result.out == StepAsWritten(body, i, out).out
    ensures DechunkStep(body, i, out).Continue? ==>
      StepAsWritten(body, i, out) == Next(DechunkStep(body, i, out).next, DechunkStep(body, i, out).out)
  {
    assert PyBound(i, |body|) == i;
    match ReadLine(body, i)
    case None =>
    case Some((line, next)) =>
      match ChunkSize(line)
      case None =>
      case Some(size) => TurnAgrees(body, next, out, size);
  }

  /** The same agreement for the rest of a turn, once a size that is not negative is read. */
  lemma TurnAgrees(body: seq<Byte>, next: nat, out: seq<Byte>, size: nat)
    requires next <= |body|
    ensures ChunkTurn(body, next, out, size).Done? <==> TurnAsWritten(body, next, out, size).Stop?
    ensures ChunkTurn(body, next, out, size).Done? ==> ChunkTurn(body, next, out, size).result.out == TurnAsWritten(body, next, out, size).out
    ensures ChunkTurn(body, next, out, size).Continue? ==>
      TurnAsWritten(body, next, out, size) == Next(ChunkTurn(body, next, out, size).next, ChunkTurn(body, next, out, size).out)
  {
    if size > 0 && next + size <= |body| {
      var j := next + size;
      assert PySlice(body, next, j) == body[next..j];
      if j + 2 <= |body| {
        assert PySlice(body, j, j + 2) == body[j..j + 2];
      }
    } else if size > 0 {
      assert PySlice(body, next, |body|) == body[next..];
    }
  }

  /** The body `1\r\nA\r\n-6\r\n`: one chunk holding `A`, then a size line reading -6. */
  const Looping: seq<Byte> := [49, 13, 10, 65, 13, 10, 45, 54, 13, 10]

  /** On `Looping` the first turn decodes `A` and moves to the `-6` line. */
  lemma LoopingFirst()
    ensures StepAsWritten(Looping, 0, []) == Next(6, [65])
  {
    ReadLineFirst(Looping, 0, 1);
    assert Looping[0..1] == [49];
    SizeLines();
    assert PySlice(Looping, 3, 4) == [65];
    assert PySlice(Looping, 4, 6) == CRLF;
  }

  /** From the `-6` line a turn goes back to the very same cursor with the very same output. */
  lemma LoopingAgain()
    ensures StepAsWritten(Looping, 6, [65]) == Next(6, [65])
  {
    ReadLineFirst(Looping, 6, 8);
    assert Looping[6..8] == [45, 54];
    SizeLines();
    assert PySlice(Looping, 10, 4) == [];
    assert PySlice(Looping, 4, 6) == CRLF;
  }

  /** The two size lines of `Looping` read as 1 and -6. */
  lemma SizeLines()
    ensures SignedChunkSize([49]) == Some(1)
    ensures SignedChunkSize([45, 54]) == Some(-6)
  {
    assert ToHex(1) == [49];
    CutAtFree([49], SEMICOLON);
    HexIntToHex(1);
    assert [MINUS] + ToHex(6) == [45, 54];
    CutAtFree([45, 54], SEMICOLON);
    HexIntNegated(6);
  }

  /** On `Looping` the loop as written never returns, however many turns it is given. */
  lemma LoopingNeverReturns(fuel: nat)
    ensures RunAsWritten(Looping, 0, [], fuel) == None
  {
    LoopingFirst();
    LoopingAgain();
    EntersFixpoint(Looping, 0, [], 6, [65], fuel);
  }

  /** A turn that leads to a fixpoint turn starts a loop that never returns. */
  lemma EntersFixpoint(body: seq<Byte>, i: int, out: seq<Byte>, j: int, o: seq<Byte>, fuel: nat)
    requires StepAsWritten(body, i, out) == Next(j, o) && StepAsWritten(body, j, o) == Next(j, o)
    ensures RunAsWritten(body, i, out, fuel) == None
  {
    if fuel == 0 {
      RunEmpty(body, i, out);
    } else {
      var rest: nat := fuel - 1;
      RunNext(body, i, out, j, o, fuel, rest);
      Fixpoint(body, j, o, rest);
    }
  }

  /** Without fuel the run gives up. */
  lemma RunEmpty(body: seq<Byte>, i: int, out: seq<Byte>)
    ensures RunAsWritten(body, i, out, 0) == None
  {
  }

  /** A turn that goes on hands the rest of the run, one turn shorter, to the next cursor. */
  lemma RunNext(body: seq<Byte>, i: int, out: seq<Byte>, j: int, o: seq<Byte>, fuel: nat, rest: nat)
    requires fuel == rest + 1 && StepAsWritten(body, i, out) == Next(j, o)
    ensures RunAsWritten(body, i, out, fuel) == RunAsWritten(body, j, o, rest)
  {
    RunSucc(body, i, out, j, o, rest);
  }

  /** The same turn, with the fuel written as a successor. */
  lemma RunSucc(body: seq<Byte>, i: int, out: seq<Byte>, j: int, o: seq<Byte>, rest: nat)
    requires StepAsWritten(body, i, out) == Next(j, o)
    ensures RunAsWritten(body, i, out, rest + 1) == RunAsWritten(body, j, o, rest)
  {
  }

  /** A turn that comes back to its own cursor with its own output repeats for ever. */
  lemma {:induction false} Fixpoint(body: seq<Byte>, i: int, out: seq<Byte>, fuel: nat)
    requires StepAsWritten(body, i, out) == Next(i, out)
    ensures RunAsWritten(body, i, out, fuel) == None
    decreases fuel
  {
    if fuel > 0 {
      var rest: nat := fuel - 1;
      RunNext(body, i, out, i, out, fuel, rest);
      Fixpoint(body, i, out, rest);
    }
  }

  /**
    The model's decoder refuses a negative size like any malformed size: after well-formed
    chunks, a size line `-n` ends decoding with their payloads.
   */
  lemma NegativeChunkSize(cs: seq<Chunk>, n: nat, rest: seq<Byte>)
    requires AllWellFormed(cs) && n > 0
    ensures ChunkSize([MINUS] + ToHex(n)).None?
    ensures Dechunk(EncodeChunks(cs) + ([MINUS] + ToHex(n) + CRLF) + rest) == Payload(cs)
  {
    var h := ToHex(n);
    var line := [MINUS] + h;
    HexIsPlain(h);
    assert forall k :: 0 < k < |line| ==> line[k] == h[k - 1];
    CutAtFree(line, SEMICOLON);
    HexIntNegated(n);
    BadSizeLine(cs, line, rest);
  }

  /** So on `Looping` the model's decoder returns `A`. */
  lemma LoopingDecoded()
    ensures Dechunk(Looping) == [65]
  {
    var c := Chunk([65], []);
    assert SizeLine(1, []) == [49];
    assert EncodeChunks([c]) == EncodeChunk(c) + EncodeChunks([c][1..]);
    assert Looping == EncodeChunks([c]) + ([MINUS] + ToHex(6) + CRLF) + [];
    assert Payload([c]) == [65] + Payload([c][1..]);
    NegativeChunkSize([c], 6, []);
  }
}

=== FILE: route_cache.dfy ===
/**
  Lab 3's three routes and the dictionary they share: a reply is looked up under the key
  (route name, domain); a hit answers `Cached: ` followed by the stored text and changes
  nothing, a miss computes the reply, stores it without the prefix, and answers it.
  Name resolution, `whois`, the geocoder and the forecast service are parameters.
 */
module RouteCache {
  import opened Wrappers
  import opened Lab3Whois

  /** The three cached routes; the route name is part of every key. */
  datatype Route = AddressRoute | WeatherRoute | RangeRoute

  datatype Key = Key(route: Route, domain: string)

  type Cache = map<Key, string>

  /** A latitude and longitude from the geocoder. */
  datatype Point = Point(lat: real, lon: real)

  /**
    The outside world the routes call: the whois text for a domain (its address resolved
    first), the geocoder's match for a one-line address (`None` when either coordinate is
    missing), and the forecast text for a point.
   */
  datatype Services = Services(whois: string -> string, geocode: string -> Option<Point>, forecast: Point -> string)

  const CachedPrefix: string := "Cached: "
  const ForecastNotFound: string := "Forecast not found"

  /** What a route computes on a miss. */
  function Compute(s: Services, k: Key): (r: string)
    ensures k.route == RangeRoute ==> r == RangeMessage(k.domain, ExtractRange(s.whois(k.domain)))
    ensures k.route == AddressRoute ==> r == ExtractAddress(s.whois(k.domain))
    ensures k.route == WeatherRoute && s.geocode(ExtractAddress(s.whois(k.domain))).None? ==> r == ForecastNotFound
    ensures k.route == WeatherRoute && s.geocode(ExtractAddress(s.whois(k.domain))).Some? ==>
      r == s.forecast(s.geocode(ExtractAddress(s.whois(k.domain))).value)
  {
    var text := s.whois(k.domain);
    match k.route
    case AddressRoute => ExtractAddress(text)
    case WeatherRoute =>
      (match s.geocode(ExtractAddress(text))
       case None => ForecastNotFound
       case Some(p) => s.forecast(p))
    case RangeRoute => RangeMessage(k.domain, ExtractRange(text))
  }

  /** The routes' computations, one per key. */
  function Routes(s: Services): (f: Key -> string)
    ensures forall k :: f(k) == Compute(s, k)
  {
    k => Compute(s, k)
  }

  /** Every stored reply is what `f` computes for its key. */
  predicate Consistent(f: Key -> string, c: Cache) {
    forall k :: k in c ==> c[k] == f(k)
  }

  datatype Served = Served(reply: string, cache: Cache)

  /** One request for key `k`, where `f` computes a reply on a miss. */
  function Serve(f: Key -> string, c: Cache, k: Key): (r: Served)
    ensures r.cache.Keys == c.Keys + {k}
    ensures forall o :: o in c ==> r.cache[o] == c[o]
    ensures Consistent(f, c) ==> Consistent(f, r.cache)
    ensures Consistent(f, c) ==> r.reply == (if k in c then CachedPrefix + f(k) else f(k))
  {
    if k in c then Served(CachedPrefix + c[k], c)
    else
      var v := f(k);
      Served(v, c[k := v])
  }

  /** A sequence of requests, served in order. */
  datatype Session = Session(replies: seq<string>, cache: Cache)

  function Run(f: Key -> string, c: Cache, ks: seq<Key>): (r: Session)
    ensures |r.replies| == |ks|
    ensures forall k :: k in r.cache <==> k in c || k in ks
    ensures forall k :: k in c ==> r.cache[k] == c[k]
    decreases |ks|
  {
    if |ks| == 0 then Session([], c)
    else
      var p := Run(f, c, ks[..|ks| - 1]);
      var v := Serve(f, p.cache, ks[|ks| - 1]);
      assert ks == ks[..|ks| - 1] + [ks[|ks| - 1]];
      Session(p.replies + [v.reply], v.cache)
  }

  /**
    From an empty dictionary: the dictionary ends up holding exactly the requested keys,
    each with its computed reply, and request `i` is answered with the computed reply the
    first time its key is asked and with that reply behind a single `Cached: ` every later
    time, so the prefix never stacks.
   */
  lemma {:induction false} RunFromEmpty(f: Key -> string, ks: seq<Key>)
    ensures forall k :: k in Run(f, map[], ks).cache <==> k in ks
    ensures Consistent(f, Run(f, map[], ks).cache)
    ensures forall i :: 0 <= i < |ks| ==>
      Run(f, map[], ks).replies[i] == (if ks[i] in ks[..i] then CachedPrefix + f(ks[i]) else f(ks[i]))
    decreases |ks|
  {
    if |ks| > 0 {
      var n := |ks| - 1;
      var prev := ks[..n];
      RunFromEmpty(f, prev);
      RunStep(f, prev, Run(f, map[], prev), ks[n]);
      assert prev + [ks[n]] == ks;
    }
  }

  /** One more request keeps the three facts of `RunFromEmpty`. */
  lemma RunStep(f: Key -> string, prev: seq<Key>, p: Session, k: Key)
    requires |p.replies| == |prev|
    requires forall o :: o in p.cache <==> o in prev
    requires Consistent(f, p.cache)
    requires forall i :: 0 <= i < |prev| ==>
      p.replies[i] == (if prev[i] in prev[..i] then CachedPrefix + f(prev[i]) else f(prev[i]))
    ensures var ks := prev + [k]; var v := Serve(f, p.cache, k);
      && (forall o :: o in v.cache <==> o in ks)
      && Consistent(f, v.cache)
      && (forall i :: 0 <= i < |ks| ==>
            (p.replies + [v.reply])[i] == (if ks[i] in ks[..i] then CachedPrefix + f(ks[i]) else f(ks[i])))
  {
    var ks := prev + [k];
    assert ks[..|prev|] == prev;
    forall i | 0 <= i < |prev|
      ensures ks[i] == prev[i] && ks[..i] == prev[..i]
    {
    }
  }

  /**
    Keys are namespaced by route: serving one route's request for a domain leaves every
    other route's entry for that domain as it was, present or absent.
   */
  lemma RoutesDoNotCollide(f: Key -> string, c: Cache, k: Key, other: Route)
    requires other != k.route
    ensures var o := Key(other, k.domain);
      (o in Serve(f, c, k).cache <==> o in c) && (o in c ==> Serve(f, c, k).cache[o] == c[o])
  {
  }

  /** A hit changes nothing and answers the stored text behind one prefix. */
  lemma HitIsReadOnly(f: Key -> string, c: Cache, k: Key)
    requires k in c
    ensures Serve(f, c, k).cache == c && Serve(f, c, k).reply == CachedPrefix + c[k]
  {
  }
}

=== FILE: seqs.dfy ===
/**
  Searching, cutting, joining and splitting sequences: the generic counterparts of
  Python's `find`, `in`, `index`, `join`, `split(sep)` and `strip()` on `str` and `bytes`.
 */
module Seqs {
  import opened Wrappers

  /** `pat` occurs in `s` starting at index `k`. */
  predicate OccursAt<T(==)>(s: seq<T>, pat: seq<T>, k: int) {
    0 <= k && k + |pat| <= |s| && forall j :: 0 <= j < |pat| ==> s[k + j] == pat[j]
  }

  /** The slice view of an occurrence. */
  lemma OccursAtSlice<T>(s: seq<T>, pat: seq<T>, k: nat)
    requires k + |pat| <= |s|
    ensures OccursAt(s, pat, k) <==> s[k..k + |pat|] == pat
  {
    if OccursAt(s, pat, k) {
      forall j | 0 <= j < |pat|
        ensures s[k..k + |pat|][j] == pat[j]
      {
        assert s[k..k + |pat|][j] == s[k + j];
      }
    }
    if s[k..k + |pat|] == pat {
      forall j | 0 <= j < |pat|
        ensures s[k + j] == pat[j]
      {
        assert s[k..k + |pat|][j] == s[k + j];
      }
    }
  }

  /** The first index at or after `from` where `pat` occurs (Python's `s.find(pat, from)`). */
  function IndexOf<T(==)>(s: seq<T>, pat: seq<T>, from: nat): (r: Option<nat>)
    ensures r.Some? ==> from <= r.value && OccursAt(s, pat, r.value)
    ensures r.Some? ==> forall k :: from <= k < r.value ==> !OccursAt(s, pat, k)
    ensures r.None? ==> forall k :: from <= k ==> !OccursAt(s, pat, k)
    decreases |s| - from
  {
    if from + |pat| > |s| then None
    else if OccursAt(s, pat, from) then Some(from)
    else IndexOf(s, pat, from + 1)
  }

  /** Python's `pat in s` for substrings. */
  function Contains<T(==)>(s: seq<T>, pat: seq<T>): (b: bool)
    ensures b <==> exists k :: OccursAt(s, pat, k)
  {
    IndexOf(s, pat, 0).Some?
  }

  /** An occurrence with none before it (from `from` on) is the one `IndexOf` finds. */
  lemma IndexOfFirst<T>(s: seq<T>, pat: seq<T>, from: nat, k: nat)
    requires from <= k && OccursAt(s, pat, k)
    requires forall j :: from <= j < k ==> !OccursAt(s, pat, j)
    ensures IndexOf(s, pat, from) == Some(k)
  {
  }

  /** Python's `xs.index(x)`: the first position holding `x`, or `None` when `x` is absent. */
  function Find<T(==)>(xs: seq<T>, x: T): (r: Option<nat>)
    ensures r.None? <==> x !in xs
    ensures r.Some? ==> r.value < |xs| && xs[r.value] == x && x !in xs[..r.value]
    decreases |xs|
  {
    if |xs| == 0 then None
    else if xs[0] == x then Some(0)
    else
      match Find(xs[1..], x)
      case None => None
      case Some(i) =>
        assert xs[..i + 1] == [xs[0]] + xs[1..][..i];
        Some(i + 1)
  }

  /** An `x` with none before it is the one `Find` finds. */
  lemma FindFirst<T>(xs: seq<T>, x: T, ys: seq<T>)
    requires x !in xs
    ensures Find(xs + [x] + ys, x) == Some(|xs|)
  {
    var s := xs + [x] + ys;
    assert s[|xs|] == x;
  }

  /** The part of `s` before its first `x`, or all of `s` (Python's `s[:s.find(x)]` guarded by `!= -1`). */
  function CutAt<T(==)>(s: seq<T>, x: T): seq<T>
    decreases |s|
  {
    if |s| == 0 || s[0] == x then [] else [s[0]] + CutAt(s[1..], x)
  }

  /** The cut is the longest prefix of `s` free of `x`: what follows it, if anything, is an `x`. */
  lemma {:induction false} CutAtFirst<T>(s: seq<T>, x: T)
    ensures CutAt(s, x) <= s
    ensures Free(CutAt(s, x), x)
    ensures |CutAt(s, x)| < |s| ==> s[|CutAt(s, x)|] == x
    decreases |s|
  {
    if |s| > 0 && s[0] != x {
      var r := CutAt(s[1..], x);
      CutAtFirst(s[1..], x);
      assert CutAt(s, x) == [s[0]] + r;
      assert s == [s[0]] + s[1..];
    }
  }

  /** Nothing is cut from a sequence free of `x`. */
  lemma {:induction false} CutAtFree<T>(s: seq<T>, x: T)
    requires Free(s, x)
    ensures CutAt(s, x) == s
    decreases |s|
  {
    if |s| > 0 {
      CutAtFree(s[1..], x);
      assert s == [s[0]] + s[1..];
    }
  }

  /** Cutting `k + [x] + v` where `k` holds no `x` gives `k`. */
  lemma {:induction false} CutAtSplit<T>(k: seq<T>, x: T, v: seq<T>)
    requires Free(k, x)
    ensures CutAt(k + [x] + v, x) == k
    decreases |k|
  {
    if |k| > 0 {
      CutAtSplit(k[1..], x, v);
      assert (k + [x] + v)[1..] == k[1..] + [x] + v;
      assert k == [k[0]] + k[1..];
    }
  }

  /** `x` does not occur in `s`. */
  predicate Free<T(==)>(s: seq<T>, x: T) {
    forall k :: 0 <= k < |s| ==> s[k] != x
  }

  /** A slice of a slice is a slice of the whole. */
  lemma SliceOfSlice<T>(s: seq<T>, a: nat, b: nat, c: nat, d: nat)
    requires a <= b <= |s| && c <= d <= b - a
    ensures s[a..b][c..d] == s[a + c..a + d]
  {
    forall k | 0 <= k < d - c
      ensures s[a..b][c..d][k] == s[a + c..a + d][k]
    {
      assert s[a..b][c..d][k] == s[a..b][c + k];
    }
  }

  /** A prefix of the stripped sequence is a piece of the original. */
  lemma StrippedPrefix<T>(s: seq<T>, p: T -> bool, c: seq<T>) returns (a: nat)
    requires c <= StripBy(s, p)
    ensures a + |c| <= |s| && s[a..a + |c|] == c
  {
    var v := StripBy(s, p);
    a := StripByKeeps(s, p);
    assert c == v[..|c|];
  }

  /** A piece found at a known place is contained. */
  lemma PieceContained<T>(s: seq<T>, a: nat, c: seq<T>)
    requires a + |c| <= |s| && s[a..a + |c|] == c
    ensures Contains(s, c)
  {
    assert OccursAt(s, c, a);
  }

  /** Python's `sep.join(xs)`. */
  function Join<T>(xs: seq<seq<T>>, sep: seq<T>): seq<T> {
    if |xs| == 0 then []
    else if |xs| == 1 then xs[0]
    else xs[0] + sep + Join(xs[1..], sep)
  }

  /** Joining one more piece on the right. */
  lemma {:induction false} JoinSnoc<T>(xs: seq<seq<T>>, x: seq<T>, sep: seq<T>)
    requires |xs| > 0
    ensures Join(xs + [x], sep) == Join(xs, sep) + sep + x
    decreases |xs|
  {
    if |xs| > 1 {
      JoinSnoc(xs[1..], x, sep);
      assert (xs + [x])[1..] == xs[1..] + [x];
    } else {
      assert (xs + [x])[1..] == [x];
    }
  }

  /** One step of `Join`: the first piece, the separator, then the rest joined. */
  lemma JoinCons<T>(x: seq<T>, xs: seq<seq<T>>, sep: seq<T>)
    requires |xs| > 0
    ensures Join([x] + xs, sep) == x + sep + Join(xs, sep)
  {
    assert ([x] + xs)[1..] == xs;
  }

  /** Python's `s.split(sep)` for a non-empty separator. */
  function Split<T(==)>(s: seq<T>, sep: seq<T>): (r: seq<seq<T>>)
    requires |sep| > 0
    ensures |r| > 0
    decreases |s|
  {
    match IndexOf(s, sep, 0)
    case None => [s]
    case Some(k) => [s[..k]] + Split(s[k + |sep|..], sep)
  }

  /** Joining the pieces of a split gives back the original sequence. */
  lemma {:induction false} JoinSplit<T>(s: seq<T>, sep: seq<T>)
    requires |sep| > 0
    ensures Join(Split(s, sep), sep) == s
    decreases |s|
  {
    match IndexOf(s, sep, 0)
    case None =>
    case Some(k) =>
      var rest := s[k + |sep|..];
      JoinSplit(rest, sep);
      assert Split(s, sep) == [s[..k]] + Split(rest, sep);
      assert s[k..k + |sep|] == sep;
      assert s == s[..k] + sep + rest;
  }

  /**
    Splitting a join gives back the pieces, provided the separator's first element
    occurs in none of them (otherwise a separator could straddle two pieces).
   */
  lemma {:induction false} SplitJoin<T>(xs: seq<seq<T>>, sep: seq<T>)
    requires |xs| > 0 && |sep| > 0
    requires forall i :: 0 <= i < |xs| ==> Free(xs[i], sep[0])
    ensures Split(Join(xs, sep), sep) == xs
    decreases |xs|
  {
    var x := xs[0];
    if |xs| == 1 {
      assert Join(xs, sep) == x;
      assert forall k :: 0 <= k ==> !OccursAt(x, sep, k);
    } else {
      var rest := Join(xs[1..], sep);
      var s := x + sep + rest;
      assert Join(xs, sep) == s;
      forall j | 0 <= j < |x|
        ensures !OccursAt(s, sep, j)
      {
        assert s[j] == x[j];
      }
      assert s[|x|..|x| + |sep|] == sep;
      IndexOfFirst(s, sep, 0, |x|);
      assert s[..|x|] == x;
      assert s[|x| + |sep|..] == rest;
      SplitJoin(xs[1..], sep);
      assert xs == [x] + xs[1..];
    }
  }

  /** Number of leading elements of `s` satisfying `p`. */
  function LeadCount<T>(s: seq<T>, p: T -> bool): (n: nat)
    ensures n <= |s|
    ensures forall k :: 0 <= k < n ==> p(s[k])
    ensures n < |s| ==> !p(s[n])
  {
    if |s| == 0 || !p(s[0]) then 0 else 1 + LeadCount(s[1..], p)
  }

  /** Neither end of `s` satisfies `p`: what stripping leaves behind. */
  predicate Stripped<T>(s: seq<T>, p: T -> bool) {
    |s| == 0 || (!p(s[0]) && !p(s[|s| - 1]))
  }

  /** Python's `lstrip()`: drops the leading run of elements satisfying `p`. */
  function TrimStart<T>(s: seq<T>, p: T -> bool): seq<T>
    decreases |s|
  {
    if |s| > 0 && p(s[0]) then TrimStart(s[1..], p) else s
  }

  /** Python's `rstrip()`: drops the trailing run of elements satisfying `p`. */
  function TrimEnd<T>(s: seq<T>, p: T -> bool): seq<T>
    decreases |s|
  {
    if |s| > 0 && p(s[|s| - 1]) then TrimEnd(s[..|s| - 1], p) else s
  }

  /** Python's `strip()`: both runs dropped. */
  function StripBy<T>(s: seq<T>, p: T -> bool): seq<T> {
    TrimEnd(TrimStart(s, p), p)
  }

  /** `lstrip` drops exactly the leading run. */
  lemma {:induction false} TrimStartDrops<T>(s: seq<T>, p: T -> bool) returns (a: nat)
    ensures a <= |s| && TrimStart(s, p) == s[a..]
    ensures forall k :: 0 <= k < a ==> p(s[k])
    ensures a < |s| ==> !p(s[a])
    decreases |s|
  {
    if |s| > 0 && p(s[0]) {
      var b := TrimStartDrops(s[1..], p);
      a := b + 1;
      assert s[1..][b..] == s[a..];
      forall k | 0 <= k < a
        ensures p(s[k])
      {
        if k > 0 {
          assert s[k] == s[1..][k - 1];
        }
      }
    } else {
      a := 0;
    }
  }

  /** `rstrip` drops exactly the trailing run. */
  lemma {:induction false} TrimEndDrops<T>(s: seq<T>, p: T -> bool) returns (e: nat)
    ensures e <= |s| && TrimEnd(s, p) == s[..e]
    ensures forall k :: e <= k < |s| ==> p(s[k])
    ensures e > 0 ==> !p(s[e - 1])
    decreases |s|
  {
    if |s| > 0 && p(s[|s| - 1]) {
      var u := s[..|s| - 1];
      e := TrimEndDrops(u, p);
      assert u[..e] == s[..e];
      forall k | e <= k < |s|
        ensures p(s[k])
      {
        if k < |s| - 1 {
          assert s[k] == u[k];
        }
      }
    } else {
      e := |s|;
      assert s[..e] == s;
    }
  }

  /**
    Stripping keeps a contiguous piece of `s` whose ends fail `p`, and drops only elements
    satisfying `p` around it.
   */
  lemma StripByKeeps<T>(s: seq<T>, p: T -> bool) returns (a: nat)
    ensures Stripped(StripBy(s, p), p)
    ensures a + |StripBy(s, p)| <= |s| && StripBy(s, p) == s[a..a + |StripBy(s, p)|]
    ensures forall k :: 0 <= k < a ==> p(s[k])
    ensures forall k :: a + |StripBy(s, p)| <= k < |s| ==> p(s[k])
  {
    a := TrimStartDrops(s, p);
    var u := s[a..];
    var e := TrimEndDrops(u, p);
    var r := StripBy(s, p);
    assert r == u[..e] == s[a..a + e];
    forall k | a + e <= k < |s|
      ensures p(s[k])
    {
      assert s[k] == u[k - a];
    }
    if |r| > 0 {
      assert r[0] == u[0];
    }
  }

  /** Stripping leaves a stripped sequence no longer than the original. */
  lemma StripByStripped<T>(s: seq<T>, p: T -> bool)
    ensures Stripped(StripBy(s, p), p) && |StripBy(s, p)| <= |s|
  {
    var _ := StripByKeeps(s, p);
  }

  /** Stripping leaves a sequence whose ends already fail `p` unchanged. */
  lemma StripStripped<T>(s: seq<T>, p: T -> bool)
    requires Stripped(s, p)
    ensures StripBy(s, p) == s
  {
  }

  /** Stripping `a + [x]` where only `x` satisfies `p` at the end gives `a` back. */
  lemma StripTrailingOne<T>(a: seq<T>, x: T, p: T -> bool)
    requires |a| > 0 && Stripped(a, p) && p(x)
    ensures StripBy(a + [x], p) == a
  {
    var s := a + [x];
    assert s[0] == a[0];
    assert TrimStart(s, p) == s;
    assert s[..|s| - 1] == a;
    assert TrimEnd(s, p) == TrimEnd(a, p) == a;
  }
}

=== FILE: text.dfy ===
/**
  The parts of Python's `str` behaviour the programs rely on: `isspace`, `strip`,
  `lower`/`upper`, `isdigit`, `splitlines`, whitespace `split()` and `int()`.
 */
module Text {
  import opened Wrappers
  import opened Seqs

  /** Python's `str.isspace()` for one character (the full Unicode whitespace set). */
  predicate IsSpace(c: char) {
    var n := c as int;
    (9 <= n <= 13) || (28 <= n <= 32) || n == 0x85 || n == 0xA0 || n == 0x1680
    || (0x2000 <= n <= 0x200A) || n == 0x2028 || n == 0x2029 || n == 0x202F
    || n == 0x205F || n == 0x3000
  }

  predicate NotSpace(c: char) {
    !IsSpace(c)
  }

  /** Python's `s.strip()` with no argument. */
  function Strip(s: string): (r: string)
    ensures Stripped(r, IsSpace)
    ensures |r| <= |s|
  {
    StripByStripped(s, IsSpace);
    StripBy(s, IsSpace)
  }

  /**
    Python's `lower()` on one character, exact for the Latin-1 range (ASCII letters and
    U+00C0..U+00DE except U+00D7); other characters are left as they are.
   */
  function LowerChar(c: char): char {
    var n := c as int;
    if 65 <= n <= 90 || (0xC0 <= n <= 0xDE && n != 0xD7) then (n + 32) as char else c
  }

  function Lower(s: string): (r: string)
    ensures |r| == |s|
    ensures forall k :: 0 <= k < |s| ==> r[k] == LowerChar(s[k])
  {
    seq(|s|, k requires 0 <= k < |s| => LowerChar(s[k]))
  }

  /** Text that lower-casing leaves alone. */
  lemma LowerKeeps(s: string)
    requires forall k :: 0 <= k < |s| ==> LowerChar(s[k]) == s[k]
    ensures Lower(s) == s
  {
  }

  /** Python's `upper()` on ASCII letters; other characters are left as they are. */
  function UpperChar(c: char): char {
    if 'a' <= c <= 'z' then (c as int - 32) as char else c
  }

  function Upper(s: string): (r: string)
    ensures |r| == |s|
    ensures forall k :: 0 <= k < |s| ==> r[k] == UpperChar(s[k])
  {
    seq(|s|, k requires 0 <= k < |s| => UpperChar(s[k]))
  }

  predicate IsDigit(c: char) {
    '0' <= c <= '9'
  }

  /** Python's `s.isdigit()` over ASCII digits: non-empty and digits only. */
  predicate IsDigits(s: string) {
    |s| > 0 && forall k :: 0 <= k < |s| ==> IsDigit(s[k])
  }

  /** Python's `s.replace(x, y)` for single characters. */
  function ReplaceChar(s: string, x: char, y: char): (r: string)
    ensures |r| == |s|
    ensures forall k :: 0 <= k < |s| ==> r[k] == (if s[k] == x then y else s[k])
  {
    seq(|s|, k requires 0 <= k < |s| => if s[k] == x then y else s[k])
  }

  /** The line boundaries of Python's `str.splitlines()` (`\r\n` counts as one). */
  predicate IsLineBreak(c: char) {
    var n := c as int;
    (10 <= n <= 13) || (28 <= n <= 30) || n == 0x85 || n == 0x2028 || n == 0x2029
  }

  predicate NotLineBreak(c: char) {
    !IsLineBreak(c)
  }

  predicate NoLineBreak(s: string) {
    forall k :: 0 <= k < |s| ==> !IsLineBreak(s[k])
  }

  /** Python's `s.splitlines()`: no trailing empty line after a final line break. */
  function SplitLines(s: string): (r: seq<string>)
    ensures forall i :: 0 <= i < |r| ==> NoLineBreak(r[i])
    decreases |s|
  {
    var e := LeadCount(s, NotLineBreak);
    if e == |s| then (if |s| == 0 then [] else [s])
    else
      var n := if s[e] == '\r' && e + 1 < |s| && s[e + 1] == '\n' then 2 else 1;
      [s[..e]] + SplitLines(s[e + n..])
  }

  /** Each line followed by `\n`: the text whose `splitlines()` is `lines`. */
  function Terminated(lines: seq<string>): string {
    if |lines| == 0 then [] else lines[0] + "\n" + Terminated(lines[1..])
  }

  /** `splitlines()` undoes writing each break-free line followed by a newline. */
  lemma {:induction false} SplitLinesTerminated(lines: seq<string>)
    requires forall i :: 0 <= i < |lines| ==> NoLineBreak(lines[i])
    ensures SplitLines(Terminated(lines)) == lines
    decreases |lines|
  {
    if |lines| > 0 {
      var l := lines[0];
      var rest := Terminated(lines[1..]);
      var s := l + "\n" + rest;
      assert Terminated(lines) == s;
      LeadCountStops(s, |l|);
      assert s[..|l|] == l;
      assert s[|l| + 1..] == rest;
      SplitLinesTerminated(lines[1..]);
      assert lines == [l] + lines[1..];
    }
  }

  /** The first line break of `s` is at `e` when none comes before it. */
  lemma LeadCountStops(s: string, e: nat)
    requires e < |s| && IsLineBreak(s[e])
    requires forall k :: 0 <= k < e ==> !IsLineBreak(s[k])
    ensures LeadCount(s, NotLineBreak) == e
  {
  }

  predicate NoSpace(s: string) {
    forall k :: 0 <= k < |s| ==> !IsSpace(s[k])
  }

  /** Python's `s.split()` with no argument: the maximal runs of non-whitespace. */
  function Tokens(s: string): (r: seq<string>)
    ensures forall i :: 0 <= i < |r| ==> |r[i]| > 0 && NoSpace(r[i])
    decreases |s|
  {
    var a := LeadCount(s, IsSpace);
    if a == |s| then []
    else
      var t := s[a..];
      var w := LeadCount(t, NotSpace);
      [t[..w]] + Tokens(t[w..])
  }

  function DigitValue(c: char): (v: nat)
    requires IsDigit(c)
    ensures v < 10
  {
    c as int - '0' as int
  }

  /** Value of a run of ASCII digits, most significant first. */
  function DecimalValue(s: string): nat
    requires forall k :: 0 <= k < |s| ==> IsDigit(s[k])
  {
    if |s| == 0 then 0 else DecimalValue(s[..|s| - 1]) * 10 + DigitValue(s[|s| - 1])
  }

  /** Shortest decimal rendering of `n` (what Python's `str(n)` gives). */
  function Decimal(n: nat): (r: string)
    ensures IsDigits(r)
  {
    var d := ((n % 10) + '0' as int) as char;
    if n < 10 then [d] else Decimal(n / 10) + [d]
  }

  /**
    Python's `int(s)` for base 10: surrounding whitespace, an optional sign, then ASCII
    digits; anything else is the `ValueError` case, `None` here.
   */
  function ParseInt(s: string): (r: Option<int>)
    ensures Strip(s) == [] ==> r.None?
    ensures r.Some? && r.value < 0 ==> Strip(s)[0] == '-'
  {
    var t := Strip(s);
    if |t| > 0 && (t[0] == '-' || t[0] == '+') then
      if IsDigits(t[1..]) then
        var v: int := DecimalValue(t[1..]);
        Some(if t[0] == '-' then -v else v)
      else None
    else if IsDigits(t) then Some(DecimalValue(t))
    else None
  }

  lemma {:induction false} DecimalValueOfDecimal(n: nat)
    ensures DecimalValue(Decimal(n)) == n
  {
    var d := ((n % 10) + '0' as int) as char;
    if n >= 10 {
      DecimalValueOfDecimal(n / 10);
      var s := Decimal(n / 10) + [d];
      assert s[..|s| - 1] == Decimal(n / 10);
    }
  }

  /** `int()` reads back what `str()` writes, with or without a minus sign. */
  lemma ParseIntDecimal(n: nat)
    ensures ParseInt(Decimal(n)) == Some(n)
    ensures ParseInt("-" + Decimal(n)) == Some(-(n as int))
  {
    ParseIntPlain(n);
    ParseIntNegated(n);
  }

  lemma ParseIntPlain(n: nat)
    ensures ParseInt(Decimal(n)) == Some(n)
  {
    var s := Decimal(n);
    DecimalValueOfDecimal(n);
    StripStripped(s, IsSpace);
  }

  lemma ParseIntNegated(n: nat)
    ensures ParseInt("-" + Decimal(n)) == Some(-(n as int))
  {
    var s := Decimal(n);
    DecimalValueOfDecimal(n);
    var m := "-" + s;
    StripStripped(m, IsSpace);
    assert m[1..] == s;
  }
}

=== FILE: traceroute.dfy ===
/**
  Lab 7's TCP traceroute over given command outputs and a given probe: reading an AS
  number out of Team Cymru's and a generic `whois` reply, reading a host name out of
  `host`'s reply, the hop loop, the de-duplicated AS chain and the command line check.
 */
module Traceroute {
  import opened Wrappers
  import opened Seqs
  import opened Text

  /** What `getstatusoutput` returns: the exit status and the captured text. */
  datatype CommandResult = CommandResult(status: int, output: string)

  /** `AS` followed by one or more ASCII digits. */
  predicate IsAsNumber(s: string) {
    |s| >= 2 && s[..2] == "AS" && IsDigits(s[2..])
  }

  /** `AS` in front of a run of digits is an AS number, and its digits are that run. */
  lemma AsPrefixed(d: string)
    requires IsDigits(d)
    ensures IsAsNumber("AS" + d) && ("AS" + d)[2..] == d
  {
    assert ("AS" + d)[..2] == "AS";
    assert ("AS" + d)[2..] == d;
  }

  // ---- Team Cymru reply ----

  /** A Cymru data line: not empty and starting with a digit. */
  predicate IsDataLine(line: string) {
    |line| > 0 && IsDigit(line[0])
  }

  /** The first `|`-field of a data line, stripped, read as an AS number. */
  function CymruField(line: string): (r: Option<string>)
    ensures r.Some? ==> IsAsNumber(r.value)
  {
    var f := Strip(CutAt(line, '|'));
    if IsDigits(f) then (AsPrefixed(f); Some("AS" + f)) else None
  }

  /** Only the first data line of the stripped lines is read; a malformed one ends the search. */
  function CymruLines(lines: seq<string>): (r: Option<string>)
    ensures r.Some? ==> IsAsNumber(r.value)
    ensures (forall i :: 0 <= i < |lines| ==> !IsDataLine(Strip(lines[i]))) ==> r.None?
    decreases |lines|
  {
    if |lines| == 0 then None
    else if IsDataLine(Strip(lines[0])) then CymruField(Strip(lines[0]))
    else
      assert forall i :: 1 <= i < |lines| ==> lines[1..][i - 1] == lines[i];
      CymruLines(lines[1..])
  }

  /** The Cymru step of `lookup_as_number`: `None` falls through to the generic reply. */
  function CymruAs(r: CommandResult): (a: Option<string>)
    ensures r.status != 0 ==> a.None?
    ensures a.Some? ==> IsAsNumber(a.value)
  {
    if r.status == 0 then CymruLines(SplitLines(r.output)) else None
  }

  /** The answer comes from the first data line, whichever line that is. */
  lemma {:induction false} CymruFirst(lines: seq<string>, j: nat)
    requires j < |lines| && IsDataLine(Strip(lines[j]))
    requires forall i :: 0 <= i < j ==> !IsDataLine(Strip(lines[i]))
    ensures CymruLines(lines) == CymruField(Strip(lines[j]))
    decreases j
  {
    if j > 0 {
      CymruFirst(lines[1..], j - 1);
    }
  }

  /** A Cymru row `<digits> | ...` reads back as `AS<digits>`. */
  lemma CymruRow(a: string, rest: string)
    requires IsAsNumber(a)
    ensures CymruField(a[2..] + " |" + rest) == Some(a)
  {
    var d := a[2..];
    assert forall k :: 0 <= k < |d + " "| ==> (d + " ")[k] != '|';
    CutAtSplit(d + " ", '|', rest);
    assert d + " |" + rest == (d + " ") + ['|'] + rest;
    assert Stripped(d, IsSpace);
    StripTrailingOne(d, ' ', IsSpace);
    assert d + " " == d + [' '];
    assert "AS" + d == a;
  }

  // ---- generic whois reply ----

  /** The line test, as written: `origin`, `originas` or `origin as`, in any letter case. */
  predicate MentionsOrigin(line: string) {
    var low := Lower(line);
    Contains(low, "origin") || Contains(low, "originas") || Contains(low, "origin as")
  }

  /** The second and third tests add nothing: both texts begin with `origin`. */
  lemma OriginTestsCollapse(line: string)
    ensures MentionsOrigin(line) <==> Contains(Lower(line), "origin")
  {
    var low := Lower(line);
    if Contains(low, "originas") {
      var k :| OccursAt(low, "originas", k);
      assert forall j :: 0 <= j < 6 ==> "origin"[j] == "originas"[j];
      assert OccursAt(low, "origin", k);
    }
    if Contains(low, "origin as") {
      var k :| OccursAt(low, "origin as", k);
      assert forall j :: 0 <= j < 6 ==> "origin"[j] == "origin as"[j];
      assert OccursAt(low, "origin", k);
    }
  }

  /** One token: `AS<digits>` in any case gives itself upper-cased, bare digits get `AS` in front. */
  function TokenAs(t: string): (r: Option<string>)
    ensures r.Some? ==> IsAsNumber(r.value)
  {
    var u := Upper(t);
    if |u| >= 2 && u[..2] == "AS" && IsDigits(u[2..]) then Some(u)
    else if IsDigits(t) then (AsPrefixed(t); Some("AS" + t))
    else None
  }

  /** The first token that reads as an AS number. */
  function FirstTokenAs(ts: seq<string>): (r: Option<string>)
    ensures r.Some? ==> IsAsNumber(r.value)
    ensures r.None? <==> forall i :: 0 <= i < |ts| ==> TokenAs(ts[i]).None?
    decreases |ts|
  {
    if |ts| == 0 then None
    else if TokenAs(ts[0]).Some? then TokenAs(ts[0])
    else
      var r := FirstTokenAs(ts[1..]);
      assert forall i :: 1 <= i < |ts| ==> ts[i] == ts[1..][i - 1];
      r
  }

  /** The tokens of a line once its colons are spaces. */
  function LineTokens(line: string): seq<string> {
    Tokens(ReplaceChar(line, ':', ' '))
  }

  /** The AS number of an origin line, if one of its tokens reads as one. */
  function LineAs(line: string): (r: Option<string>)
    ensures r.Some? ==> IsAsNumber(r.value)
  {
    if MentionsOrigin(line) then FirstTokenAs(LineTokens(line)) else None
  }

  /** The first origin line with an AS number decides; origin lines without one are passed over. */
  function OriginAs(lines: seq<string>): (r: Option<string>)
    ensures r.Some? ==> IsAsNumber(r.value)
    ensures r.None? <==> forall i :: 0 <= i < |lines| ==> LineAs(lines[i]).None?
    decreases |lines|
  {
    if |lines| == 0 then None
    else if LineAs(lines[0]).Some? then LineAs(lines[0])
    else
      var r := OriginAs(lines[1..]);
      assert forall i :: 1 <= i < |lines| ==> lines[i] == lines[1..][i - 1];
      r
  }

  /** The generic step of `lookup_as_number`. */
  function GenericAs(r: CommandResult): (a: Option<string>)
    ensures r.status != 0 ==> a.None?
    ensures a.Some? ==> IsAsNumber(a.value)
  {
    if r.status != 0 then None else OriginAs(SplitLines(r.output))
  }

  /** `lookup_as_number`: the Cymru reply when it gives an AS number, else the generic reply. */
  function LookupAs(cymru: CommandResult, generic: CommandResult): (a: Option<string>)
    ensures a.Some? ==> IsAsNumber(a.value)
    ensures CymruAs(cymru).Some? ==> a == CymruAs(cymru)
    ensures CymruAs(cymru).None? ==> a == GenericAs(generic)
  {
    match CymruAs(cymru)
    case Some(x) => Some(x)
    case None => GenericAs(generic)
  }

  /** An AS number token reads as itself, and its digits alone read as it too. */
  lemma TokenAsNumber(a: string)
    requires IsAsNumber(a)
    ensures TokenAs(a) == Some(a)
    ensures TokenAs(a[2..]) == Some(a)
  {
    var d := a[2..];
    assert forall k :: 0 <= k < |a| ==> UpperChar(a[k]) == a[k] by {
      forall k | 0 <= k < |a|
        ensures UpperChar(a[k]) == a[k]
      {
        if k >= 2 {
          assert a[k] == d[k - 2];
        } else {
          assert a[k] == a[..2][k];
        }
      }
    }
    assert Upper(a) == a;
    var u := Upper(d);
    assert |u| >= 2 ==> u[..2] != "AS" by {
      if |u| >= 2 {
        assert u[0] == UpperChar(d[0]);
        assert IsDigit(d[0]);
      }
    }
    assert "AS" + d == a;
  }

  // ---- host reply ----

  predicate IsDot(c: char) {
    c == '.'
  }

  /** The token after the first `pointer` token, its trailing dots removed. */
  function HostAfterPointer(parts: seq<string>): (h: Option<string>)
    ensures h.None? <==> "pointer" !in parts || Find(parts, "pointer").value + 1 == |parts|
  {
    match Find(parts, "pointer")
    case None => None
    case Some(idx) => if idx + 1 < |parts| then Some(TrimEnd(parts[idx + 1], IsDot)) else None
  }

  /** `reverse_dns`: `None` on a failed command, no `pointer` token, or nothing after it. */
  function ReverseDns(r: CommandResult): (h: Option<string>)
    ensures r.status != 0 ==> h.None?
    ensures r.status == 0 ==> h == HostAfterPointer(Tokens(r.output))
  {
    if r.status != 0 then None else HostAfterPointer(Tokens(r.output))
  }

  /** The host name never ends in a dot. */
  lemma HostHasNoTrailingDot(parts: seq<string>)
    requires HostAfterPointer(parts).Some?
    ensures var h := HostAfterPointer(parts).value; h == "" || h[|h| - 1] != '.'
  {
    var idx := Find(parts, "pointer").value;
    var e := TrimEndDrops(parts[idx + 1], IsDot);
  }

  /**
    Reading back `host`'s answer: after tokens other than `pointer`, the tokens `pointer`
    and `<name>.` give `<name>` for a name that does not end in a dot.
   */
  lemma HostReadBack(before: seq<string>, name: string, after: seq<string>)
    requires "pointer" !in before
    requires name != "" && name[|name| - 1] != '.'
    ensures HostAfterPointer(before + ["pointer", name + "."] + after) == Some(name)
  {
    var parts := before + ["pointer", name + "."] + after;
    assert parts == before + ["pointer"] + ([name + "."] + after);
    FindFirst(before, "pointer", [name + "."] + after);
    assert parts[|before| + 1] == name + ".";
    var s := name + ".";
    assert s[..|s| - 1] == name;
    assert TrimEnd(s, IsDot) == TrimEnd(name, IsDot) == name;
  }

  // ---- hop loop ----

  /**
    The hops from `ttl` on: the probe's answer for each TTL (`None` for no reply), ending
    right after the destination answers or after TTL `maxHops`.
   */
  function HopsFrom(probe: nat -> Option<string>, dest: string, ttl: nat, maxHops: nat): (r: seq<Option<string>>)
    ensures r == [] <==> ttl > maxHops
    ensures r != [] ==> r[0] == probe(ttl)
    decreases maxHops + 1 - ttl
  {
    if ttl > maxHops then []
    else
      var h := probe(ttl);
      if h == Some(dest) then [h] else [h] + HopsFrom(probe, dest, ttl + 1, maxHops)
  }

  /**
    The hops from `ttl` on are the probe's answers for consecutive TTLs, at most one per
    TTL up to `maxHops`, none but the last being the destination, and the last being the
    destination whenever the trace stops early.
   */
  lemma {:induction false} HopsShape(probe: nat -> Option<string>, dest: string, ttl: nat, maxHops: nat)
    ensures var r := HopsFrom(probe, dest, ttl, maxHops);
      && (ttl <= maxHops + 1 ==> |r| <= maxHops + 1 - ttl)
      && (ttl > maxHops ==> r == [])
      && (forall k :: 0 <= k < |r| ==> r[k] == probe(ttl + k))
      && (forall k :: 0 <= k < |r| - 1 ==> r[k] != Some(dest))
      && (ttl <= maxHops && |r| < maxHops + 1 - ttl ==> |r| > 0 && r[|r| - 1] == Some(dest))
    decreases maxHops + 1 - ttl
  {
    if ttl <= maxHops && probe(ttl) != Some(dest) {
      var h := probe(ttl);
      var rest := HopsFrom(probe, dest, ttl + 1, maxHops);
      HopsShape(probe, dest, ttl + 1, maxHops);
      assert HopsFrom(probe, dest, ttl, maxHops) == [h] + rest;
      assert forall k :: 1 <= k < 1 + |rest| ==> ([h] + rest)[k] == rest[k - 1];
    }
  }

  /** All the hops of a trace with at most `maxHops` probes. */
  function Hops(probe: nat -> Option<string>, dest: string, maxHops: nat): (r: seq<Option<string>>)
    ensures |r| <= maxHops
    ensures forall k :: 0 <= k < |r| ==> r[k] == probe(k + 1)
    ensures forall k :: 0 <= k < |r| - 1 ==> r[k] != Some(dest)
    ensures |r| < maxHops ==> |r| > 0 && r[|r| - 1] == Some(dest)
  {
    HopsShape(probe, dest, 1, maxHops);
    HopsFrom(probe, dest, 1, maxHops)
  }

  /** One probe of the loop: its answer, then the rest unless it was the destination. */
  lemma HopsStep(probe: nat -> Option<string>, dest: string, ttl: nat, maxHops: nat)
    requires ttl <= maxHops
    ensures HopsFrom(probe, dest, ttl, maxHops) ==
      [probe(ttl)] + (if probe(ttl) == Some(dest) then [] else HopsFrom(probe, dest, ttl + 1, maxHops))
  {
  }

  /** The `for ttl in range(1, max_hops + 1)` loop with its `break`. */
  method ProbeHops(probe: nat -> Option<string>, dest: string, maxHops: nat) returns (hops: seq<Option<string>>)
    ensures hops == Hops(probe, dest, maxHops)
  {
    hops := [];
    var ttl := 1;
    while ttl <= maxHops
      invariant 1 <= ttl <= maxHops + 1
      invariant hops + HopsFrom(probe, dest, ttl, maxHops) == HopsFrom(probe, dest, 1, maxHops)
    {
      var h := probe(ttl);
      HopsStep(probe, dest, ttl, maxHops);
      if h == Some(dest) {
        assert hops + [h] == HopsFrom(probe, dest, 1, maxHops);
        hops := hops + [h];
        break;
      }
      ghost var rest := HopsFrom(probe, dest, ttl + 1, maxHops);
      assert hops + [h] + rest == hops + ([h] + rest);
      hops := hops + [h];
      ttl := ttl + 1;
    }
    assert hops == HopsFrom(probe, dest, 1, maxHops) by {
      if ttl > maxHops {
        assert hops + [] == hops;
      }
    }
  }

  // ---- AS chain ----

  /** The AS number of one hop: none for a hop that did not answer or whose lookup failed. */
  function HopAs(lookup: string -> Option<string>, h: Option<string>): seq<string> {
    match h
    case None => []
    case Some(ip) =>
      match lookup(ip)
      case None => []
      case Some(a) => [a]
  }

  /** The AS numbers found along the hops, in hop order, repeats included. */
  function Found(lookup: string -> Option<string>, hops: seq<Option<string>>): (r: seq<string>)
    ensures |r| <= |hops|
    decreases |hops|
  {
    if |hops| == 0 then [] else Found(lookup, hops[..|hops| - 1]) + HopAs(lookup, hops[|hops| - 1])
  }

  predicate NoDuplicates<T(==)>(xs: seq<T>) {
    forall i, j :: 0 <= i < j < |xs| ==> xs[i] != xs[j]
  }

  /** Each value at its first occurrence only. */
  function Dedup(xs: seq<string>): (r: seq<string>)
    ensures forall x :: x in r <==> x in xs
    ensures NoDuplicates(r)
    decreases |xs|
  {
    if |xs| == 0 then []
    else
      var p := Dedup(xs[..|xs| - 1]);
      var x := xs[|xs| - 1];
      assert forall y :: y in xs <==> y in xs[..|xs| - 1] || y == x by {
        assert xs == xs[..|xs| - 1] + [x];
      }
      if x in xs[..|xs| - 1] then p else p + [x]
  }

  /** The chain keeps first-occurrence order: earlier in the chain means first seen earlier. */
  lemma {:induction false} DedupOrder(xs: seq<string>)
    ensures forall i, j :: 0 <= i < j < |Dedup(xs)| ==>
      Find(xs, Dedup(xs)[i]).Some? && Find(xs, Dedup(xs)[j]).Some? &&
      Find(xs, Dedup(xs)[i]).value < Find(xs, Dedup(xs)[j]).value
    decreases |xs|
  {
    if |xs| > 0 {
      var n := |xs| - 1;
      var prev := xs[..n];
      var x := xs[n];
      DedupOrder(prev);
      var p := Dedup(prev);
      assert xs == prev + [x];
      forall y | y in prev
        ensures Find(xs, y) == Find(prev, y)
      {
        FindInPrefix(prev, y, [x]);
      }
      if x !in prev {
        FindFirst(prev, x, []);
        assert prev + [x] + [] == xs;
      }
      var d := Dedup(xs);
      forall i, j | 0 <= i < j < |d|
        ensures Find(xs, d[i]).Some? && Find(xs, d[j]).Some? && Find(xs, d[i]).value < Find(xs, d[j]).value
      {
        assert d[i] == p[i] && p[i] in prev;
        if j < |p| {
          assert d[j] == p[j] && p[j] in prev;
        } else {
          assert d[j] == x;
        }
      }
    } else {
      assert Dedup(xs) == [];
    }
  }

  /** Appending after a first occurrence does not move it. */
  lemma FindInPrefix<T>(xs: seq<T>, y: T, ys: seq<T>)
    requires y in xs
    ensures Find(xs + ys, y) == Find(xs, y)
  {
    var i := Find(xs, y).value;
    var s := xs + ys;
    assert s[..i] == xs[..i];
    assert s[i] == y;
  }

  /** The traversed AS chain: the found AS numbers, each once, in first-seen order. */
  function AsChain(lookup: string -> Option<string>, hops: seq<Option<string>>): (r: seq<string>)
    ensures NoDuplicates(r)
    ensures forall a :: a in r <==> a in Found(lookup, hops)
  {
    Dedup(Found(lookup, hops))
  }

  /** Every AS number in the chain comes from a hop that answered and whose lookup succeeded. */
  lemma {:induction false} FoundFromHops(lookup: string -> Option<string>, hops: seq<Option<string>>, a: string)
    requires a in Found(lookup, hops)
    ensures exists k :: 0 <= k < |hops| && hops[k].Some? && lookup(hops[k].value) == Some(a)
    decreases |hops|
  {
    var n := |hops| - 1;
    var prev := hops[..n];
    if a in Found(lookup, prev) {
      FoundFromHops(lookup, prev, a);
      var k :| 0 <= k < |prev| && prev[k].Some? && lookup(prev[k].value) == Some(a);
      assert hops[k] == prev[k];
    } else {
      assert hops[n].Some? && lookup(hops[n].value) == Some(a);
    }
  }

  /** One more hop adds its AS number, if any, to those found. */
  lemma FoundStep(lookup: string -> Option<string>, hops: seq<Option<string>>, i: nat)
    requires i < |hops|
    ensures Found(lookup, hops[..i + 1]) == Found(lookup, hops[..i]) + HopAs(lookup, hops[i])
    ensures HopAs(lookup, hops[i]) == [] ==> Found(lookup, hops[..i + 1]) == Found(lookup, hops[..i])
  {
    assert hops[..i + 1][..i] == hops[..i];
    assert Found(lookup, hops[..i]) + [] == Found(lookup, hops[..i]);
  }

  /** One more value is kept only when it is new. */
  lemma DedupSnoc(xs: seq<string>, a: string)
    ensures Dedup(xs + [a]) == if a in xs then Dedup(xs) else Dedup(xs) + [a]
  {
    assert (xs + [a])[..|xs|] == xs;
    assert (xs + [a])[|xs|] == a;
  }

  /** One more hop adds its AS number to the chain only when the number is new. */
  lemma ChainStep(lookup: string -> Option<string>, hops: seq<Option<string>>, i: nat)
    requires i < |hops|
    ensures var before := Dedup(Found(lookup, hops[..i]));
      Dedup(Found(lookup, hops[..i + 1])) ==
        if hops[i].Some? && lookup(hops[i].value).Some? && lookup(hops[i].value).value !in before
        then before + [lookup(hops[i].value).value]
        else before
  {
    FoundStep(lookup, hops, i);
    if hops[i].Some? && lookup(hops[i].value).Some? {
      DedupSnoc(Found(lookup, hops[..i]), lookup(hops[i].value).value);
    }
  }

  /** Adding a value to both the set and the chain keeps them holding the same values. */
  lemma SeenStep(seen: set<string>, chain: seq<string>, a: string)
    requires forall x :: x in seen <==> x in chain
    ensures forall x :: x in seen + {a} <==> x in chain + [a]
  {
  }

  /** The chain as the loop builds it: each hop's AS number is appended when it is new. */
  ghost function ChainOf(lookup: string -> Option<string>, hops: seq<Option<string>>): seq<string>
    decreases |hops|
  {
    if |hops| == 0 then []
    else
      var c := ChainOf(lookup, hops[..|hops| - 1]);
      var h := hops[|hops| - 1];
      if h.Some? && lookup(h.value).Some? && lookup(h.value).value !in c then c + [lookup(h.value).value] else c
  }

  /** Building the chain hop by hop keeps each found AS number once, at its first hop. */
  lemma {:induction false} ChainOfDedup(lookup: string -> Option<string>, hops: seq<Option<string>>)
    ensures ChainOf(lookup, hops) == AsChain(lookup, hops)
    decreases |hops|
  {
    if |hops| > 0 {
      var n := |hops| - 1;
      ChainOfDedup(lookup, hops[..n]);
      ChainStep(lookup, hops, n);
      assert hops[..n + 1] == hops;
    }
  }

  /** One turn of the loop. */
  lemma ChainOfStep(lookup: string -> Option<string>, hops: seq<Option<string>>, i: nat)
    requires i < |hops|
    ensures var c := ChainOf(lookup, hops[..i]);
      ChainOf(lookup, hops[..i + 1]) ==
        if hops[i].Some? && lookup(hops[i].value).Some? && lookup(hops[i].value).value !in c
        then c + [lookup(hops[i].value).value]
        else c
  {
    assert hops[..i + 1][..i] == hops[..i];
  }

  /** The loop with the `seen_as` set. */
  method ChainLoop(lookup: string -> Option<string>, hops: seq<Option<string>>) returns (chain: seq<string>)
    ensures chain == AsChain(lookup, hops)
  {
    chain := [];
    var seen: set<string> := {};
    var i := 0;
    while i < |hops|
      invariant 0 <= i <= |hops|
      invariant chain == ChainOf(lookup, hops[..i])
      invariant forall a :: a in seen <==> a in chain
    {
      ChainOfStep(lookup, hops, i);
      if hops[i].Some? && lookup(hops[i].value).Some? {
        var a := lookup(hops[i].value).value;
        if a !in seen {
          SeenStep(seen, chain, a);
          seen := seen + {a};
          chain := chain + [a];
        }
      }
      i := i + 1;
    }
    assert hops[..i] == hops;
    ChainOfDedup(lookup, hops);
  }

  const ChainLabel: string := "Traversed AS numbers: "
  const NoneFound: string := "(none found)"

  /** The summary line: the chain joined by ` -> `, or `(none found)`. */
  function ChainText(chain: seq<string>): (r: string)
    ensures ChainLabel <= r
    ensures chain == [] ==> r == ChainLabel + NoneFound
  {
    if chain == [] then ChainLabel + NoneFound else ChainLabel + Join(chain, " -> ")
  }

  /** Reading a summary line back into the chain. */
  function ReadChain(text: string): seq<string>
    requires ChainLabel <= text
  {
    var rest := text[|ChainLabel|..];
    if rest == NoneFound then [] else Split(rest, " -> ")
  }

  /** A chain of AS numbers reads back from its summary line. */
  lemma ChainTextReadBack(chain: seq<string>)
    requires forall i :: 0 <= i < |chain| ==> IsAsNumber(chain[i])
    ensures ReadChain(ChainText(chain)) == chain
  {
    if chain != [] {
      var j := Join(chain, " -> ");
      assert ChainText(chain)[|ChainLabel|..] == j;
      ChainPiecesFree(chain);
      SplitJoin(chain, " -> ");
      JoinNotNoneFound(chain);
    }
  }

  /** No AS number of a chain holds a space. */
  lemma ChainPiecesFree(chain: seq<string>)
    requires forall i :: 0 <= i < |chain| ==> IsAsNumber(chain[i])
    ensures forall i :: 0 <= i < |chain| ==> Free(chain[i], ' ')
  {
    forall i | 0 <= i < |chain|
      ensures Free(chain[i], ' ')
    {
      AsNumberFree(chain[i]);
    }
  }

  /** A joined chain starts with `A`, so it is never the `(none found)` text. */
  lemma JoinNotNoneFound(chain: seq<string>)
    requires |chain| > 0 && IsAsNumber(chain[0])
    ensures Join(chain, " -> ") != NoneFound
  {
    JoinStartsWith(chain, " -> ");
    assert chain[0][0] == chain[0][..2][0] == 'A';
    assert Join(chain, " -> ")[0] == 'A';
  }

  /** An AS number has no space in it. */
  lemma AsNumberFree(a: string)
    requires IsAsNumber(a)
    ensures Free(a, ' ')
  {
    forall k | 0 <= k < |a|
      ensures a[k] != ' '
    {
      if k >= 2 {
        assert a[k] == a[2..][k - 2];
      } else {
        assert a[k] == a[..2][k];
      }
    }
  }

  /** A join starts with its first piece. */
  lemma JoinStartsWith(xs: seq<string>, sep: string)
    requires |xs| > 0
    ensures xs[0] <= Join(xs, sep)
  {
  }

  // ---- command line ----

  /** `max_hops`: `int()` of the argument, accepted only when positive. */
  function MaxHops(arg: string): (r: Option<nat>)
    ensures r.Some? ==> r.value > 0
    ensures r.Some? <==> ParseInt(arg).Some? && ParseInt(arg).value > 0
  {
    match ParseInt(arg)
    case Some(n) => if n > 0 then Some(n) else None
    case None => None
  }

  /** Positive numbers written out are accepted, zero and negative ones refused. */
  lemma MaxHopsDecimal(n: nat)
    ensures MaxHops(Decimal(n)) == (if n > 0 then Some(n) else None)
    ensures MaxHops("-" + Decimal(n)) == None
  {
    ParseIntDecimal(n);
  }

  datatype Invocation = Invocation(target: string, maxHops: nat)

  /** `main`'s checks: exactly two arguments after the program name, the second a positive integer. */
  function Command(argv: seq<string>): (r: Option<Invocation>)
    ensures r.Some? ==> |argv| == 3 && r.value.target == argv[1] && r.value.maxHops > 0
    ensures |argv| == 3 ==> (r.Some? <==> MaxHops(argv[2]).Some?)
  {
    if |argv| != 3 then None
    else
      match MaxHops(argv[2])
      case Some(n) => Some(Invocation(argv[1], n))
      case None => None
  }

  /** A target and a positive hop count written out are read back. */
  lemma CommandReadBack(program: string, target: string, n: nat)
    requires n > 0
    ensures Command([program, target, Decimal(n)]) == Some(Invocation(target, n))
  {
    MaxHopsDecimal(n);
  }
}

=== FILE: url.dfy ===
/**
  The two URL-derived values both HTTP programs compute the same way: the request target
  from the URL's path and query, and the destination port.
 */
module Url {
  import opened Wrappers
  import opened Seqs

  /** The request target: the path, or `/` when it is empty, then `?query` when the query is non-empty. */
  function RequestTarget(path: string, query: string): (r: string)
    ensures |r| > 0
    ensures path != "" ==> path <= r
    ensures path == "" ==> r[0] == '/'
  {
    var p := if path != "" then path else "/";
    if query != "" then p + "?" + query else p
  }

  /**
    A URL path never holds `?` (the URL parser splits the query off at the first one), so
    the target can be taken apart again: the part before the first `?` is the effective
    path, and what follows it is the query, present exactly when the query is non-empty.
   */
  lemma RequestTargetParts(path: string, query: string)
    requires Free(path, '?')
    ensures CutAt(RequestTarget(path, query), '?') == (if path != "" then path else "/")
    ensures Free(RequestTarget(path, query), '?') <==> query == ""
    ensures query != "" ==> RequestTarget(path, query)[|CutAt(RequestTarget(path, query), '?')| + 1..] == query
  {
    var p := if path != "" then path else "/";
    var r := RequestTarget(path, query);
    CutAtFirst(r, '?');
    if query != "" {
      assert r == p + "?" + query;
      assert r[|p|] == '?';
      assert forall k :: 0 <= k < |p| ==> r[k] == p[k];
      assert r[|p| + 1..] == query;
    }
  }

  /** The parts of a URL the programs read, as the URL parser returns them. */
  datatype ParsedUrl = ParsedUrl(scheme: string, hostname: Option<string>, port: Option<nat>, path: string, query: string)

  /** The destination port: the URL's port when it names one, else 80. */
  function DefaultPort(port: Option<nat>): (r: nat)
    ensures port.Some? ==> r == port.value
    ensures port.None? ==> r == 80
  {
    port.GetOr(80)
  }
}

=== FILE: whois_fields.dfy ===
/**
  The whois-text reading the two address extractors (lab 2 and lab 3) share: `key: value`
  lines, the table of keys that feed each address part, the fold that collects the parts
  line by line, and the fallback to the first line mentioning `address:`.
 */
module WhoisFields {
  import opened Wrappers
  import opened Seqs
  import opened Text

  /** A `key: value` line split at its first colon: the key stripped and lower-cased, the value stripped. */
  datatype Field = Field(key: string, value: string)

  function ParseField(line: string): (r: Option<Field>)
    ensures r.None? <==> Free(line, ':')
    ensures r.Some? ==> Stripped(r.value.value, IsSpace)
  {
    if Free(line, ':') then None
    else
      var k := CutAt(line, ':');
      CutAtFirst(line, ':');
      Some(Field(Lower(Strip(k)), Strip(line[|k| + 1..])))
  }

  /** Every line with a colon is read as its text before the first colon and the text after it. */
  lemma FieldOf(k: string, v: string)
    requires Free(k, ':')
    ensures ParseField(k + ":" + v) == Some(Field(Lower(Strip(k)), Strip(v)))
  {
    var line := k + ":" + v;
    CutAtSplit(k, ':', v);
    assert line[|k|] == ':';
    assert line[|k| + 1..] == v;
  }

  /** The address part a key feeds. */
  datatype Slot = Street | City | State | Postal | Country | Ignored

  /** Whose key table: lab 3's has no country keys. */
  datatype Table = Lab2Table | Lab3Table

  function SlotOf(key: string, t: Table): (s: Slot)
    ensures t == Lab3Table ==> s != Country
  {
    if key == "address" || key == "street" || key == "street address" || key == "orgaddress" then Street
    else if key == "city" || key == "orgcity" then City
    else if key == "state" || key == "state/province" || key == "orgstateprov" then State
    else if key == "postalcode" || key == "zipcode" || key == "zip" || key == "orgpostalcode" then Postal
    else if t == Lab2Table && (key == "country" || key == "orgcountry") then Country
    else Ignored
  }

  /** The part a line feeds; a line without a colon feeds none. */
  function LineSlot(line: string, t: Table): Slot {
    match ParseField(line)
    case None => Ignored
    case Some(f) => SlotOf(f.key, t)
  }

  /** The stripped text after a line's first colon; empty when it has none. */
  function LineValue(line: string): (r: string)
    ensures Stripped(r, IsSpace)
  {
    match ParseField(line)
    case None => ""
    case Some(f) => f.value
  }

  /** The parts gathered so far; the empty string stands for Python's `None` (both are false). */
  datatype Fields = Fields(street: string, city: string, state: string, postal: string, country: string)

  const NoFields: Fields := Fields("", "", "", "", "")

  function Get(f: Fields, s: Slot): string {
    match s
    case Street => f.street
    case City => f.city
    case State => f.state
    case Postal => f.postal
    case Country => f.country
    case Ignored => ""
  }

  /** `f` with part `s` replaced by `v`; an ignored line changes nothing. */
  function Put(f: Fields, s: Slot, v: string): (r: Fields)
    ensures s != Ignored ==> Get(r, s) == v
    ensures forall o :: o != s ==> Get(r, o) == Get(f, o)
  {
    match s
    case Street => f.(street := v)
    case City => f.(city := v)
    case State => f.(state := v)
    case Postal => f.(postal := v)
    case Country => f.(country := v)
    case Ignored => f
  }

  /** A line as the loop sees it: the part it feeds and its value. */
  datatype Entry = Entry(slot: Slot, value: string)

  /** Each line classified by the key table. */
  function Entries(lines: seq<string>, t: Table): (r: seq<Entry>)
    ensures |r| == |lines|
    ensures forall i :: 0 <= i < |lines| ==> r[i] == Entry(LineSlot(lines[i], t), LineValue(lines[i]))
  {
    seq(|lines|, i requires 0 <= i < |lines| => Entry(LineSlot(lines[i], t), LineValue(lines[i])))
  }

  /** Every entry's value is stripped. */
  predicate StrippedValues(es: seq<Entry>) {
    forall i :: 0 <= i < |es| ==> Stripped(es[i].value, IsSpace)
  }

  /** A street value joins the street after a space, or becomes the street when there is none yet. */
  function AddStreet(street: string, v: string): (r: string)
    ensures street == "" ==> r == v
    ensures street != "" && Stripped(street, IsSpace) && Stripped(v, IsSpace) ==>
      r == if v == "" then street else street + " " + v
  {
    if street != "" then
      StreetSpace(street, v);
      Strip(street + " " + v)
    else v
  }

  /** Between stripped texts the strip only removes the space added before an empty value. */
  lemma StreetSpace(a: string, v: string)
    requires a != ""
    ensures Stripped(a, IsSpace) && Stripped(v, IsSpace) ==>
      Strip(a + " " + v) == if v == "" then a else a + " " + v
  {
    if Stripped(a, IsSpace) && Stripped(v, IsSpace) {
      if v == "" {
        StripTrailingOne(a, ' ', IsSpace);
        assert a + " " + v == a + [' '];
      } else {
        var w := a + " " + v;
        assert w[0] == a[0] && w[|w| - 1] == v[|v| - 1];
        StripStripped(w, IsSpace);
      }
    }
  }

  /** One line of the loop: a street line extends the street, any other part is overwritten. */
  function Absorb(f: Fields, e: Entry): Fields {
    if e.slot == Street then f.(street := AddStreet(f.street, e.value))
    else Put(f, e.slot, e.value)
  }

  /** The loop over the entries, in order. */
  function Fold(es: seq<Entry>): Fields
    decreases |es|
  {
    if |es| == 0 then NoFields
    else Absorb(Fold(es[..|es| - 1]), es[|es| - 1])
  }

  /** The loop over all lines of a whois text. */
  function Collect(lines: seq<string>, t: Table): (r: Fields)
    ensures r == Fold(Entries(lines, t))
    ensures StrippedValues(Entries(lines, t))
    ensures AllStripped(r)
  {
    FoldStripped(Entries(lines, t));
    Fold(Entries(lines, t))
  }

  /** Every part is free of surrounding whitespace. */
  predicate AllStripped(f: Fields) {
    && Stripped(f.street, IsSpace) && Stripped(f.city, IsSpace) && Stripped(f.state, IsSpace)
    && Stripped(f.postal, IsSpace) && Stripped(f.country, IsSpace)
  }

  /** Folding stripped values leaves every part stripped, the joined street included. */
  lemma {:induction false} FoldStripped(es: seq<Entry>)
    requires StrippedValues(es)
    ensures AllStripped(Fold(es))
    decreases |es|
  {
    if |es| > 0 {
      var f := Fold(es[..|es| - 1]);
      var e := es[|es| - 1];
      assert StrippedValues(es[..|es| - 1]) by {
        assert forall i :: 0 <= i < |es| - 1 ==> es[..|es| - 1][i] == es[i];
      }
      FoldStripped(es[..|es| - 1]);
      if e.slot == Street {
        StreetStripped(f.street, e.value);
      }
    }
  }

  /** Extending a stripped street by a stripped value gives a stripped street. */
  lemma StreetStripped(street: string, v: string)
    requires Stripped(street, IsSpace) && Stripped(v, IsSpace)
    ensures Stripped(AddStreet(street, v), IsSpace)
  {
    if street != "" && v != "" {
      var w := street + " " + v;
      assert w[0] == street[0] && w[|w| - 1] == v[|v| - 1];
    }
  }

  /** The non-empty values of the street entries, in order. */
  function StreetValues(es: seq<Entry>): (r: seq<string>)
    requires StrippedValues(es)
    ensures forall i :: 0 <= i < |r| ==> r[i] != "" && Stripped(r[i], IsSpace)
    decreases |es|
  {
    if |es| == 0 then []
    else
      var e := es[|es| - 1];
      StreetValues(es[..|es| - 1]) + (if e.slot == Street && e.value != "" then [e.value] else [])
  }

  /** The street is the non-empty street values joined by single spaces. */
  lemma {:induction false} StreetJoined(es: seq<Entry>)
    requires StrippedValues(es)
    ensures Fold(es).street == Join(StreetValues(es), " ")
    decreases |es|
  {
    if |es| > 0 {
      var prev := es[..|es| - 1];
      var e := es[|es| - 1];
      var xs := StreetValues(prev);
      assert Stripped(e.value, IsSpace);
      StreetJoined(prev);
      StreetStep(Fold(prev), e, xs);
    }
  }

  /** One line of the loop keeps the street equal to the joined street values. */
  lemma StreetStep(f: Fields, e: Entry, xs: seq<string>)
    requires forall i :: 0 <= i < |xs| ==> xs[i] != "" && Stripped(xs[i], IsSpace)
    requires f.street == Join(xs, " ") && Stripped(e.value, IsSpace)
    ensures Absorb(f, e).street == Join(xs + (if e.slot == Street && e.value != "" then [e.value] else []), " ")
  {
    var v := e.value;
    JoinStripped(xs);
    if e.slot != Street {
      assert Get(Absorb(f, e), Street) == Get(f, Street);
      assert xs + [] == xs;
    } else if f.street == "" {
      assert xs == [];
    } else if v == "" {
      assert xs + [] == xs;
    } else {
      JoinSnoc(xs, v, " ");
    }
  }

  /** Non-empty stripped pieces joined by spaces give a stripped text, empty only when there are no pieces. */
  lemma {:induction false} JoinStripped(xs: seq<string>)
    requires forall i :: 0 <= i < |xs| ==> xs[i] != "" && Stripped(xs[i], IsSpace)
    ensures Stripped(Join(xs, " "), IsSpace)
    ensures Join(xs, " ") == "" <==> xs == []
    decreases |xs|
  {
    if |xs| > 1 {
      JoinStripped(xs[1..]);
      var w := Join(xs, " ");
      var rest := Join(xs[1..], " ");
      assert w == xs[0] + " " + rest;
      assert w[0] == xs[0][0];
      assert w[|w| - 1] == rest[|rest| - 1];
    }
  }

  /** For every part but the street, the last entry feeding it wins. */
  lemma {:induction false} LastWins(es: seq<Entry>, s: Slot, j: nat)
    requires s != Street && s != Ignored && j < |es| && es[j].slot == s
    requires forall i :: j < i < |es| ==> es[i].slot != s
    ensures Get(Fold(es), s) == es[j].value
    decreases |es|
  {
    var prev := es[..|es| - 1];
    if j < |es| - 1 {
      assert prev[j] == es[j];
      assert forall i :: j < i < |prev| ==> prev[i] == es[i];
      LastWins(prev, s, j);
    }
  }

  /** A part no entry feeds stays empty. */
  lemma {:induction false} NeverFed(es: seq<Entry>, s: Slot)
    requires s != Street && forall i :: 0 <= i < |es| ==> es[i].slot != s
    ensures Get(Fold(es), s) == ""
    decreases |es|
  {
    if |es| > 0 {
      var prev := es[..|es| - 1];
      assert forall i :: 0 <= i < |prev| ==> prev[i] == es[i];
      NeverFed(prev, s);
    }
  }

  /** The non-empty texts of `xs`, in order: Python's `[p for p in xs if p]`. */
  function NonEmpty(xs: seq<string>): (r: seq<string>)
    ensures forall i :: 0 <= i < |r| ==> r[i] != ""
    ensures |r| <= |xs|
    ensures r == [] <==> forall i :: 0 <= i < |xs| ==> xs[i] == ""
  {
    if |xs| == 0 then []
    else (if xs[0] != "" then [xs[0]] else []) + NonEmpty(xs[1..])
  }

  /** The line mentions `address:` in any letter case. */
  predicate MentionsAddress(line: string) {
    Contains(Lower(line), "address:")
  }

  /** A line mentioning `address:` has a colon, so the text after its first colon exists. */
  lemma MentionHasColon(line: string)
    requires MentionsAddress(line)
    ensures !Free(line, ':')
  {
    var low := Lower(line);
    var k :| OccursAt(low, "address:", k);
    assert low[k + 7] == "address:"[7];
    assert line[k + 7] == ':';
  }

  /**
    The fallback: the text after the first colon of the first line mentioning `address:`,
    stripped; `None` when no line mentions it.
   */
  function AddressLine(lines: seq<string>): (r: Option<string>)
    ensures r.None? <==> forall i :: 0 <= i < |lines| ==> !MentionsAddress(lines[i])
    decreases |lines|
  {
    if |lines| == 0 then None
    else if MentionsAddress(lines[0]) then Some(LineValue(lines[0]))
    else
      var r := AddressLine(lines[1..]);
      assert forall i :: 1 <= i < |lines| ==> lines[i] == lines[1..][i - 1];
      r
  }

  /** The fallback picks the first line mentioning `address:`, whichever line that is. */
  lemma {:induction false} AddressLineFirst(lines: seq<string>, j: nat)
    requires j < |lines| && MentionsAddress(lines[j])
    requires forall i :: 0 <= i < j ==> !MentionsAddress(lines[i])
    ensures AddressLine(lines) == Some(LineValue(lines[j]))
    ensures !Free(lines[j], ':')
    decreases j
  {
    MentionHasColon(lines[j]);
    if j > 0 {
      AddressLineFirst(lines[1..], j - 1);
    }
  }

  /** Each line stripped: Python's `[l.strip() for l in lines]`. */
  function StripAll(lines: seq<string>): (r: seq<string>)
    ensures |r| == |lines|
    ensures forall i :: 0 <= i < |lines| ==> r[i] == Strip(lines[i])
  {
    seq(|lines|, i requires 0 <= i < |lines| => Strip(lines[i]))
  }

  /** Without street entries the street stays empty. */
  lemma {:induction false} NoStreet(es: seq<Entry>)
    requires forall i :: 0 <= i < |es| ==> es[i].slot != Street
    ensures Fold(es).street == ""
    decreases |es|
  {
    if |es| > 0 {
      var prev := es[..|es| - 1];
      assert forall i :: 0 <= i < |prev| ==> prev[i] == es[i];
      NoStreet(prev);
    }
  }

  /** A space in front does not survive the strip. */
  lemma StripLeadingSpace(v: string)
    ensures Strip(" " + v) == Strip(v)
  {
    assert (" " + v)[1..] == v;
  }

  /** The non-empty parts of texts free of `x` are free of `x`. */
  lemma NonEmptyKeeps(xs: seq<string>, x: char)
    requires forall i :: 0 <= i < |xs| ==> Free(xs[i], x)
    ensures forall i :: 0 <= i < |NonEmpty(xs)| ==> Free(NonEmpty(xs)[i], x)
    decreases |xs|
  {
    if |xs| > 0 {
      NonEmptyKeeps(xs[1..], x);
    }
  }

  /** Non-empty pieces join to the empty text only when there are none. */
  lemma NonEmptyJoined(xs: seq<string>)
    ensures Join(NonEmpty(xs), ", ") == "" <==> forall i :: 0 <= i < |xs| ==> xs[i] == ""
  {
    var ys := NonEmpty(xs);
    if |ys| > 1 {
      assert Join(ys, ", ") == ys[0] + ", " + Join(ys[1..], ", ");
    } else if |ys| == 1 {
      assert ys[0] != "";
    }
  }
}

=== FILE: wrappers.dfy ===
/** The optional value used wherever the programs return `None`. */
module Wrappers {

  datatype Option<+T> = None | Some(value: T) {

    /** The carried value, or `default` when there is none (Python's `x or default`). */
    function GetOr(default: T): T {
      match this
      case Some(v) => v
      case None => default
    }
  }
}
